=== FILE: README.md ===
# Question bank: validation and fingerprint core in Dafny

This project models the logic at the heart of the question bank, a service that
stores exam questions. A question has ordered content blocks (text or image),
four or five answer choices, a solution and source citations. The model covers
the rules the service enforces and the fingerprint it uses to reject duplicate
questions. Every operation is a pure function over immutable data. The
database is a value of maps. The SHA-256 digest and the image URL signer are
abstract.

Modules, in the order the service layers depend on them:

- `Common`, `Text` — shared sequence, set and counting helpers; the ASCII model
  of `strip()` and `lower()` and their composition `Normalize`.
- `Errors` — the exception hierarchy (`AppException`, domain and technical
  kinds, statuses and codes) and how store constraint codes 23505 and 23503
  become domain errors.
- `Content` — the `ContentType` enum, the loosely typed `type` attribute, and
  the field bounds of the question, choice and solution block schemas.
- `Sorting`, `QuestionHash` — the stable sort by `order` and the content-block
  fingerprint: the digest of the normalised text blocks before the first image.
- `Signer` — the pass that replaces every image block's value with a signed URL.
- `Store`, `QuestionGuard`, `Pagination`, `QuestionRepository` — the store with
  its commit/rollback discipline, the existence guard, page-count arithmetic,
  paging by id, delete, existence and partial field updates.
- `QuestionContent`, `ChoiceUpdate`, `SolutionUpdate`, `CitationUpdate` — the
  four partial-update flows. Each covers its repository and its service: guard,
  lookup, patch, re-hash or uniqueness and correctness checks, error mapping
  and signing of the response.
- `References`, `Catalog` — the all-or-nothing id checks for areas, sources and
  institutions, and the institution and source services.
- `QuestionSchemas` — the `QuestionCreateInput` validators: the choice count,
  exactly one correct choice, normalised uniqueness of every block value, and
  `area_ids`.
- `SubjectCodes`, `LegacyStatement`, `LegacyQuestion`, `LegacyCreate` — the
  legacy create path. It covers subject codes and their course labels, the
  three statement variants with their shape rules and canonical strings, the
  `QuestionCreate` validators, the service's choice material check and upload
  folders, and the service and crud create routines.

As written, most of these modules cannot be imported: the legacy create modules,
every v1 service except the area service, and the module declaring
`QuestionCreateInput` import names that the imported modules do not declare
(see "Left out"). The model gives their evidently intended behaviour.

Conventions of the model:

- `Digest(s)` stands for the SHA-256 hex digest of `s`. Only "equal canonical
  strings give equal fingerprints" is used.
- `sign` is a function parameter standing for the URL signer.
- Store failures are an input saying which store call fails and how. A failed
  write leaves the store as it was, which models the rollback.
- Keys the store would generate are parameters, with a freshness
  precondition.

## Model

| member | source | states |
|---|---|---|
| Text.TrimLeft | app/domain/question/hash.py:26 | the leading half of `strip()`: what is dropped is all whitespace and the result does not start with whitespace |
| Text.TrimRight | app/domain/question/hash.py:26 | the trailing half of `strip()`: what is dropped is all whitespace and the result does not end with whitespace |
| Text.Lower | app/domain/question/hash.py:26 | `lower()` keeps the length and maps each character independently |
| Text.StripOfSplit | app/domain/question/hash.py:26 | `strip()` returns exactly the core of any whitespace / core / whitespace split of its input |
| Text.StripShape | app/domain/question/hash.py:26 | every value splits into leading whitespace, its stripped value and trailing whitespace |
| Text.StripIgnoresPadding | app/domain/question/hash.py:26 | extra surrounding whitespace never changes the stripped value |
| Text.StripLowerCommute | app/domain/question/hash.py:26 | stripping and lower-casing commute |
| Text.NormalizeIgnoresCase | app/domain/question/hash.py:26 | two values equal after `lower()` have the same `strip().lower()` |
| Text.NormalizeIgnoresPadding | app/domain/question/hash.py:26 | surrounding whitespace never changes `strip().lower()` |
| Text.NormalizeIdempotent | app/domain/question/hash.py:26 | `strip().lower()` is a fixed point of itself |
| Text.NormalizeOfFolded | app/domain/question/hash.py:26 | a value with no whitespace and no upper-case letter is its own normal form |
| Content.ParseContentType | app/api/v1/question_content/schemas.py:7-9 | the enum accepts a value only if it is the value of a member |
| Content.ContentTypeRoundTrip | app/api/v1/question_content/schemas.py:7-9 | every member parses back from its value, and exactly "text" and "image" are accepted |
| Content.ImageTestsAgree | app/domain/question/hash.py:22-23 | the duck-typed image test accepts exactly the enum member and the raw string "image", the same tags the service's enum comparison accepts |
| Content.ResponseSchemasAcceptInputs | app/api/v1/question_content/schemas.py:13-45 | the response schemas accept every block their input schemas accept, and a plain stored type string as well; each refuses an order below 1 or a value under its minimum length |
| Content.SchemaInclusions | app/api/v1/question_content/schemas.py:13-31 | the question, choice and solution block schemas differ only in the minimum value length (5, 1, 10); each inclusion is strict at its threshold |
| Sorting.InsertByKey | app/domain/question/hash.py:18 | inserting into an ordered list keeps it ordered and adds exactly one occurrence of the element |
| Sorting.SortByKey | app/domain/question/hash.py:18 | `sorted(key=order)` returns an ordered permutation of its input |
| Sorting.InsertShape | app/domain/question/hash.py:18 | insertion places the element after every element with a key at most its own and before every greater one |
| Sorting.InsertStable | app/domain/question/hash.py:18 | insertion keeps every tie group in arrival order |
| Sorting.SortStable | app/domain/question/hash.py:18 | `sorted` is stable: each group of equal keys keeps its input order |
| Sorting.SortedUnique | app/domain/question/hash.py:18 | two ordered lists with the same tie groups are equal |
| Sorting.SortStableUnique | app/domain/question/hash.py:18 | any ordered arrangement that keeps every tie group in input order is the result of `sorted` |
| Sorting.SortOfSorted | app/domain/question/hash.py:18 | sorting an already ordered list changes nothing |
| Sorting.SortPermutationInvariant | app/domain/question/hash.py:18 | with pairwise distinct keys every permutation of the input sorts to the same list |
| Sorting.SortMapCommute | app/domain/question/hash.py:18 | mapping blocks to a view that keeps the key commutes with sorting |
| QuestionHash.FirstImage | app/domain/question/hash.py:21-24 | the loop's stopping point: no image before it, an image at it unless it is the end |
| QuestionHash.AccumulateTextPrefix | app/domain/question/hash.py:19-26 | the accumulation loop yields the normalised text of exactly the blocks before the first image, concatenated in order |
| QuestionHash.GenerateQuestionHash | app/domain/question/hash.py:17-28 | `generate_question_hash` digests the text prefix of the stably order-sorted blocks |
| QuestionHash.TextPrefixCons | app/domain/question/hash.py:21-26 | a leading text block contributes its normalised value, then the rest follows |
| QuestionHash.TextPrefixImage | app/domain/question/hash.py:22-24 | a leading image block yields the empty prefix |
| QuestionHash.TextPrefixStopsAtImage | app/domain/question/hash.py:22-24 | once an image is in the list, anything appended after it never contributes |
| QuestionHash.TrailingBlockIgnored | app/domain/question/hash.py:18-24 | adding a block whose order is at least that of some image block never changes the fingerprint |
| QuestionHash.EmptyCanonical | app/domain/question/hash.py:19-28 | no content, or an image among the lowest-order blocks, digests the empty string |
| QuestionHash.PermutationInvariant | app/domain/question/hash.py:18 | with pairwise distinct orders every permutation of the input has the same fingerprint |
| QuestionHash.TwoTextBlocks | app/domain/question/hash.py:18-26 | two ordered text blocks already in normal form digest to their values run together |
| QuestionHash.TiesFollowInputOrder | app/domain/question/hash.py:18 | with tied orders the stable sort keeps input order, so swapping two tied text blocks can change the fingerprint |
| QuestionHash.NoSeparator | app/domain/question/hash.py:26 | no separator is inserted: the same text split differently across two blocks hashes equal |
| QuestionHash.HashByViews | app/domain/question/hash.py:17-28 | the fingerprint depends only on each block's image flag, normalised text and order; labels, ids and image values are invisible |
| QuestionHash.HashIgnoresPaddingAndCase | app/domain/question/hash.py:26 | surrounding whitespace and letter case of any block's value never change the fingerprint |
| Signer.SignBlock | app/helpers/content_signer.py:13-16 | an image block gets `sign(value)`; type, label and order are kept; a non-image block is returned unchanged |
| Signer.SignImageContents | app/helpers/content_signer.py:9-16 | length, order and every type are kept; every image value becomes `sign(old value)`; every non-image block is unchanged |
| Signer.TextOnlyUnchanged | app/helpers/content_signer.py:14-15 | a list without image blocks passes through one or two runs unchanged |
| Signer.SignTwice | app/helpers/content_signer.py:13-16 | a second run signs image values again and still leaves text blocks untouched |
| Signer.SignRecognisesBothSpellings | app/helpers/content_signer.py:14-15 | both the enum member and the raw string "image" are signed; "text" in either spelling is not |
| Signer.SignPreservesHash | app/helpers/content_signer.py:13-16 | signing never changes the question fingerprint, since the fingerprint ignores image values |
| QuestionGuard.EnsureExists | app/services/question_guard_service.py:16-30 | succeeds iff the read succeeds and the question is stored; a failed read raises RetrievalError, a missing question ResourceNotFound |
| QuestionGuard.GuardAfterDelete | app/services/question_guard_service.py:27-30 | after a committed delete the guard refuses the question |
| QuestionGuard.GuardReadsOnlyQuestions | app/services/question_guard_service.py:16-30 | the guard's answer depends only on which question ids are stored |
| Errors.BaseDefaults | app/core/exceptions/base.py:1-25 | the base classes default to 500/"app_error", 400/"domain_error" and 500/"technical_error"; an explicit status overrides the class attribute, otherwise it is kept |
| Errors.DomainStatuses | app/core/exceptions/domain.py:4-66 | the status of each domain kind (ResourceNotFound 404 though its class attribute is 400, DuplicateValue 409, the rest 400); every domain kind is a 4xx |
| Errors.TechnicalStatuses | app/core/exceptions/technical.py:4-37 | every declared technical kind answers 500, and the two storage refinements are StorageErrors |
| Errors.CodesDistinct | app/core/exceptions/domain.py:7-63 | no two declared kinds share an error code |
| Errors.WriteErrorKind | app/services/question_content_service.py:92-112 | a write failure becomes DuplicateValue iff the handler maps 23505 and the code is 23505, ForeignKeyViolation iff it maps 23503 and the code is 23503, otherwise PersistenceError |
| Errors.UnrecognisedFailuresArePersistence | app/services/choice_service.py:79-92 | a non-integrity failure, an unknown code, or a code the handler does not map becomes PersistenceError |
| Store.Commit | app/repositories/question_repository.py:15-29 | a commit succeeds iff the new state keeps the unique fingerprint and the citation foreign key and no outside fault occurs; a broken fingerprint uniqueness fails with 23505, a dangling source with 23503; otherwise the state is exactly the new one |
| Store.After | app/api/v1/question_content/repository.py:58-60 | after a failed write the old state is kept (rollback) |
| Store.RehashConsistent | app/api/v1/question_content/repository.py:50-55 | overwriting one question's fingerprint keeps the store consistent iff no other question already has that fingerprint |
| References.Unanswered | app/services/area_service.py:12-15 | the missing ids are exactly the requested ids that no stored row answers |
| References.AllOrNothing | app/services/area_service.py:9-20 | the lookup succeeds iff every requested id is stored, returning the requested set; otherwise ResourceNotFound names the non-empty set of missing ids |
| References.GetAreas | app/services/area_service.py:9-20 | `get_areas` succeeds iff every requested id is a stored area, returning the requested set; otherwise ResourceNotFound names exactly the requested ids that are not areas |
| References.GetSourcesByIds | app/services/source_service.py:44-59 | a failed read raises RetrievalError; otherwise the lookup succeeds iff every requested id is a stored source, returning the requested set, and ResourceNotFound names exactly the missing ids |
| References.GetInstitutionsByIds | app/services/institution_service.py:42-57 | a failed read raises RetrievalError; otherwise the lookup succeeds iff every requested id is a stored institution, returning the requested set, and ResourceNotFound names exactly the missing ids |
| References.RequestIsASet | app/services/area_service.py:15 | repeating or reordering requested ids never changes the outcome |
| References.DuplicatesAndEmpty | app/services/area_service.py:15-20 | an empty request succeeds with nothing; `[1, 1]` succeeds iff area 1 exists and otherwise reports `{1}` |
| Catalog.GetOne | app/services/institution_service.py:17-31 | a failed read raises RetrievalError, an empty one ResourceNotFound; otherwise the row is returned |
| Catalog.CreateInstitution | app/services/institution_service.py:59-74 | the create fails iff the write fails; it raises DuplicateValue exactly on 23505 and PersistenceError on any other failure |
| Catalog.UpdateInstitution | app/services/institution_service.py:76-100 | DuplicateValue exactly on 23505, ResourceNotFound exactly when no row was updated, PersistenceError otherwise |
| Catalog.DeleteOne | app/services/institution_service.py:102-116 | DeleteError exactly when the delete fails, ResourceNotFound exactly when no row existed |
| Catalog.CreateSource | app/services/source_service.py:61-71 | the write is reached iff the institution is found; a failed write is always PersistenceError |
| Catalog.UpdateSource | app/services/source_service.py:73-89 | the institution is checked only when the payload names one; a failed write is PersistenceError and a missing row ResourceNotFound |
| Catalog.InstitutionCheckedBeforeWrite | app/services/source_service.py:61-75 | an unknown or unreadable institution decides a source create or update whatever the write would do |
| Catalog.UpdateWithoutInstitution | app/services/source_service.py:74-75 | without an institution id, update never consults the institution |
| Catalog.SourceWritesNeverDuplicate | app/services/source_service.py:66-84 | the source service never raises DuplicateValue, even on 23505, where the institution service does |
| Pagination.CeilDiv | app/helpers/build_paginated.py:8 | `ceil(total / limit)` for a positive total: the least count whose pages hold the total |
| Pagination.PageCount | app/helpers/build_paginated.py:8 | exactly 1 page when the total is not positive, with no division; otherwise the ceiling of `total / limit`, bracketed from both sides, for a positive or a negative limit |
| Pagination.NegativeCeil | app/helpers/build_paginated.py:8 | for a negative limit the ceiling is minus the floor of `total / -limit`, which is at most 0 |
| Pagination.BuildPaginated | app/helpers/build_paginated.py:7-12 | the items are returned as given, `size` is their count, `page` and `total` are echoed, and `pages` is 1 for a non-positive total and the ceiling of `total / limit` otherwise |
| Pagination.PageCountLeast | app/helpers/build_paginated.py:8 | no smaller number of `limit`-sized pages holds the total |
| QuestionRepository.Window | app/repositories/question_repository.py:35 | `LIMIT limit OFFSET offset`: at most `limit` rows, each at its offset position; fewer only when the listing runs out |
| QuestionRepository.GetQuestions | app/repositories/question_repository.py:31-58 | the page is the window `[(page-1)*limit, page*limit)` of the stored ids in increasing order; a negative offset or limit is refused |
| QuestionRepository.PageOfIndex | app/repositories/question_repository.py:32-35 | every stored question appears on exactly one page: the i-th smallest id on page `i / limit + 1` and on no other |
| QuestionRepository.HomePage | app/repositories/question_repository.py:32-35 | the i-th smallest id is at position `i % limit` of page `i / limit + 1` |
| QuestionRepository.PagesMatchCount | app/repositories/question_repository.py:32-35 | together with the page count of the total: every page up to the last is non-empty and every later page is empty |
| QuestionRepository.QuestionExists | app/repositories/question_repository.py:91-93 | true iff the id is stored |
| QuestionRepository.DeleteQuestion | app/repositories/question_repository.py:76-89 | an absent id returns false and writes nothing; a question that a content, choice, solution or citation row still refers to is refused with 23503 and nothing changes, since the bulk delete bypasses the ORM cascades and the foreign keys declare no `ondelete`; true means the question was present, unreferenced and is now removed, nothing else changed; with a consistent store it commits iff it is unreferenced and no fault occurs |
| QuestionRepository.DeleteLeavesNoOrphans | app/repositories/question_repository.py:76-89 | a delete never leaves a child row pointing at a question that no longer exists |
| QuestionRepository.DeleteThenAbsent | app/repositories/question_repository.py:76-93 | after a successful delete the question no longer exists and deleting it again returns false |
| QuestionRepository.UpdateQuestionFields | app/repositories/question_repository.py:95-111 | returns nothing on both paths; sets exactly the given keys, keeps every other field, the fingerprint and every other question; with a consistent store it commits iff no fault occurs |
| QuestionRepository.CreateQuestion | app/repositories/question_repository.py:15-29 | a create stores exactly the new question; it fails with unique_violation exactly when another question already has its fingerprint |
| QuestionContent.GetQuestionContent | app/api/v1/question_content/repository.py:13-19 | a block is found iff its id is stored and it belongs to the given question |
| QuestionContent.ListContents | app/api/v1/question_content/repository.py:21-28 | the listing holds exactly the question's rows, each key once, ascending by `order`; rows of equal order keep the order the database scans them in |
| QuestionContent.AnyListingIsAScan | app/api/v1/question_content/repository.py:21-28 | every answer the query may give (exactly the question's rows, each once, ascending by `order`, ties in any order) is the listing of some scan, so the scan parameter covers every tie order |
| QuestionContent.ScansListSameRows | app/api/v1/question_content/repository.py:21-28 | two scans list the same rows, only possibly in another order |
| QuestionContent.ApplyPatch | app/services/question_content_service.py:67-79 | every payload field that is None keeps the old value; every other field takes the payload's |
| QuestionContent.ApplyPatchIdempotent | app/api/v1/question_content/repository.py:41-48 | applying the same patch again, as the repository does to the already patched row, changes nothing; an empty patch changes nothing |
| QuestionContent.FirstMatch | app/services/question_content_service.py:67-69 | the position of the first row whose id is the content id, or the end |
| QuestionContent.PatchEntries | app/services/question_content_service.py:67-79 | the list keeps its length; only the first row with the content id is patched; every other row is unchanged |
| QuestionContent.PatchAsMap | app/services/question_content_service.py:67-79 | on a listing with unique keys the loop patches exactly the rows with the content id, each on its own |
| QuestionContent.ServicePrefixAgrees | app/services/question_content_service.py:121-131 | the service's accumulation, with its enum image test, yields the same text prefix as the domain function |
| QuestionContent.ServiceHashAgrees | app/services/question_content_service.py:121-131 | `_generate_question_hash` equals `generate_question_hash` of the same blocks |
| QuestionContent.PatchedState | app/api/v1/question_content/repository.py:30-57 | the committed state: the patched row and the owner's new fingerprint; every other row, question and table unchanged |
| QuestionContent.UpdateContentDb | app/api/v1/question_content/repository.py:30-60 | the patched row and the fingerprint commit together or not at all; unique_violation exactly when another question holds the new fingerprint (or the store says so) |
| QuestionContent.SignIfImage | app/services/question_content_service.py:114-117 | only the value changes, and it is signed iff the type after the update is image |
| QuestionContent.UpdateQuestionContent | app/services/question_content_service.py:32-119 | a failed read raises RetrievalError; a block outside the question raises ResourceNotFound before anything is computed or written; an error leaves the store unchanged unless it is the PersistenceError of a failed refresh after the commit or the ValidationError of a response the schema refuses; success commits the patched row with the fingerprint of the patched list, as listed under the given scan order, and returns the (signed if image) block, which `QuestionContentResponse` accepts |
| QuestionContent.DuplicateIffFingerprintTaken | app/services/question_content_service.py:92-100 | for every tie order the database may use, the update raises DuplicateValue iff the fingerprint computed under that order is held by another question or the store reports 23505 |
| QuestionContent.WriteFailureMapping | app/services/question_content_service.py:83-119 | once the reads pass, the update succeeds iff the new fingerprint is free, the write does not fail, the refresh works and `QuestionContentResponse` accepts the signed patched row; with a free fingerprint 23503 raises ForeignKeyViolation, any other store failure or a failed refresh raises PersistenceError, and a refused response raises ValidationError with the patch already stored |
| QuestionContent.RefreshFailureKeepsCommit | app/api/v1/question_content/repository.py:54-60 | a refresh that fails after the commit raises PersistenceError while the store keeps the committed patch and fingerprint |
| QuestionContent.WrittenHashIsFingerprint | app/services/question_content_service.py:81-91 | for every tie order, the fingerprint written is the domain fingerprint of the patched block list in that order, so a change of order, type or value is reflected |
| QuestionContent.FingerprintIgnoresScan | app/services/question_content_service.py:58-81 | when the patched blocks have pairwise distinct orders, the new fingerprint is the same whatever order the database breaks ties in |
| QuestionContent.UpdateIgnoresScan | app/services/question_content_service.py:32-119 | under the same condition the whole update, stored state and response, is the same for every tie order |
| ChoiceUpdate.GetChoice | app/api/v1/choice/repository.py:13-20 | a choice is found iff its id is stored and it belongs to the given question |
| ChoiceUpdate.CountCorrect | app/api/v1/choice/repository.py:22-38 | the count is 0 (never null) exactly when the question has no correct choice other than the excluded one |
| ChoiceUpdate.CountWithoutExclusion | app/api/v1/choice/repository.py:32-36 | counting with an exclusion misses exactly the excluded choice, when it is correct |
| ChoiceUpdate.OtherChoiceValuesMembers | app/api/v1/choice/repository.py:40-51 | a value is a sibling value iff some other choice of the same question has a block that normalises to it |
| ChoiceUpdate.FirstDuplicate | app/services/choice_service.py:136-140 | none iff no incoming value is used by a sibling; otherwise the first such value in incoming order |
| ChoiceUpdate.CheckUniqueContents | app/services/choice_service.py:111-142 | DuplicateChoiceContent (plain) iff the normalised incoming values repeat; success iff they are distinct, the sibling read succeeds and none is a sibling value; a named duplicate is a sibling value |
| ChoiceUpdate.CheckOtherCorrect | app/services/choice_service.py:95-109 | succeeds iff the count read succeeds and another choice of the question is correct; otherwise RetrievalError or NoCorrectChoice |
| ChoiceUpdate.ApplyChoicePatch | app/api/v1/choice/repository.py:89-96 | label, correctness and contents change only when given, contents wholesale; the question is kept |
| ChoiceUpdate.UpdatedChoices | app/api/v1/choice/repository.py:78-96 | the patched choice; with demotion every other choice of the same question becomes incorrect; every other choice is untouched |
| ChoiceUpdate.UpdateChoiceDb | app/api/v1/choice/repository.py:53-103 | demotion and patch commit together or not at all; a consistent store commits iff no fault occurs |
| ChoiceUpdate.UpdateChoice | app/services/choice_service.py:26-93 | a failed read raises RetrievalError, a choice outside the question ResourceNotFound; an error leaves the store unchanged unless it is the PersistenceError of a failed refresh after the commit or the ValidationError of a response `ChoicePublic` refuses; success passed the uniqueness check when contents were given, demotes iff `is_correct` is True, and returns the stored choice whose contents come back in the store's reload order with image values signed, which `ChoicePublic` accepts |
| ChoiceUpdate.CorrectChoiceSurvives | app/services/choice_service.py:57-62 | a successful update never leaves a question that had a correct choice without one |
| ChoiceUpdate.MarkingCorrectIsExclusive | app/services/choice_service.py:62 | marking a choice correct leaves it the only correct choice of its question |
| ChoiceUpdate.OtherQuestionsUntouched | app/api/v1/choice/repository.py:78-87 | choices of other questions are never changed |
| ChoiceUpdate.UniquenessBeforeCorrectness | app/services/choice_service.py:52-60 | repeated incoming values are refused as duplicates even when the payload also un-marks the only correct choice |
| ChoiceUpdate.UnmarkingLastCorrectRefused | app/services/choice_service.py:57-60 | un-marking the only correct choice is refused with NoCorrectChoice once the contents pass |
| ChoiceUpdate.WriteFailureMapping | app/services/choice_service.py:79-93 | once the checks pass, the update succeeds iff the write does not fail, the refresh works and `ChoicePublic` accepts the reloaded, signed choice; it raises ForeignKeyViolation iff the store reports 23503, PersistenceError for every other store failure or a failed refresh, and ValidationError, with the change already stored, for a refused response |
| ChoiceUpdate.ResponseIsReloadedChoice | app/services/choice_service.py:63-93 | the stored contents are the payload's, or the old ones without a payload; the response's contents are a rearrangement of the signed stored contents |
| ChoiceUpdate.RefreshFailureKeepsCommit | app/api/v1/choice/repository.py:98-103 | a refresh that fails after the commit raises PersistenceError while the store keeps the committed change |
| ChoiceUpdate.DuplicateNamesFirstClash | app/services/choice_service.py:136-142 | the reported duplicate is the first incoming value, in payload order, that a sibling choice already uses |
| CitationUpdate.GetCitation | app/repositories/question_source_repository.py:12-17 | a citation is found iff its id is stored and it belongs to the given question |
| CitationUpdate.ApplyCitationPatch | app/repositories/question_source_repository.py:25-28 | `source_id` and `page` change only when given; the citation's question never changes |
| CitationUpdate.UpdateCitationDb | app/repositories/question_source_repository.py:19-36 | the patched citation is committed, or the write fails and nothing changes; with a consistent store it fails iff a fault occurs or the new source does not exist, the latter with 23503 |
| CitationUpdate.UpdateQuestionSource | app/services/question_source_service.py:26-87 | the guard's error comes first, then RetrievalError on a failed read, then ResourceNotFound for a citation outside the question; an error leaves the store unchanged unless it is the PersistenceError of a failed refresh after the commit; success returns nothing, had an existing source when one was given, and stores exactly the patched citation |
| CitationUpdate.UnknownSourceRefused | app/services/question_source_service.py:55-56 | an unknown source id is refused by the all-or-nothing lookup, naming it, before any write |
| CitationUpdate.ForeignKeyOnlyFromStore | app/services/question_source_service.py:64-74 | once the source has been checked, ForeignKeyViolation is raised iff the write itself reports 23503 |
| CitationUpdate.RefreshFailureKeepsCommit | app/repositories/question_source_repository.py:30-36 | a refresh that fails after the commit raises PersistenceError while the store keeps the patched citation |
| CitationUpdate.UpdateKeepsQuestionAndKeys | app/repositories/question_source_repository.py:19-28 | a successful update keeps the citation under its question and every citation's source resolvable |
| SolutionUpdate.GetSolution | app/repositories/solution_repository.py:13-19 | a solution is found iff its id is stored and it belongs to the given question |
| SolutionUpdate.AsSolutionContent | app/services/solution_service.py:59-62 | each new content carries the payload item's type, value and order |
| SolutionUpdate.UpdateSolutionDb | app/repositories/solution_repository.py:21-29 | the content list is replaced wholesale, or nothing changes; with a consistent store it commits iff no fault occurs |
| SolutionUpdate.UpdateSolution | app/services/solution_service.py:31-85 | the guard's error comes first, then RetrievalError, then ResourceNotFound for a solution outside the question; an error leaves the store unchanged unless it is the PersistenceError of a failed refresh after the commit or the ValidationError of a response `SolutionPublic` refuses; success stores the payload's blocks and returns them, in the order the store reloads them, with image values signed, and `SolutionPublic` accepts them |
| SolutionUpdate.StoredContentsArePayload | app/services/solution_service.py:59-85 | stored contents are the payload items in payload order; the response is a rearrangement of them in reload order, differing only in signed image values |
| SolutionUpdate.GuardRunsFirst | app/services/solution_service.py:37 | a missing question fails through the guard whatever the solution table says |
| SolutionUpdate.ForeignKeyOnlyFromStore | app/services/solution_service.py:68-76 | ForeignKeyViolation can come only from the write reporting 23503 |
| SolutionUpdate.WriteFailureMapping | app/services/solution_service.py:64-85 | once the guard and lookup pass, the update succeeds iff the write does not fail, the refresh works and `SolutionPublic` accepts the reloaded, signed contents; 23503 raises ForeignKeyViolation, every other store failure or a failed refresh raises PersistenceError, and a refused response raises ValidationError with the new contents already stored |
| SolutionUpdate.RefreshFailureKeepsCommit | app/repositories/solution_repository.py:21-28 | a refresh that fails after the commit raises PersistenceError while the store keeps the replaced contents |
| QuestionSchemas.ParseQuestionType | app/api/v1/question/schemas.py:20-25 | a `question_type_id` is accepted iff it is 1..5, and it parses to the member with that value |
| QuestionSchemas.QuestionTypeRoundTrip | app/api/v1/question/schemas.py:20-25 | every member parses back from its value, and the values are 1..5 without repeats |
| QuestionSchemas.CorrectCount | app/api/v1/question/schemas.py:76 | the number of correct choices is at most the number of choices |
| QuestionSchemas.UniqueResponses | app/api/v1/question/schemas.py:83-98 | the validator's walk over every block of every choice accepts iff the normalised values of all blocks of all choices are pairwise distinct |
| QuestionSchemas.ScanChoice | app/api/v1/question/schemas.py:90-96 | the inner loop over one choice stops exactly when a value repeats one seen so far, and otherwise extends the seen set by the choice's values |
| QuestionSchemas.CheckChoices | app/api/v1/question/schemas.py:68-98 | a sent `choices` list passes iff it has 4 to 5 entries, each valid, exactly one correct, and pairwise distinct normalised values; more than 5 gives the count error alone; otherwise an invalid entry is reported before the minimum; fewer than 4 valid entries give the count error; then the single-correct error, then the repeated value |
| QuestionSchemas.LengthErrorHidesItems | app/api/v1/question/schemas.py:68-70 | an invalid entry in a list of three is reported as an entry error, while the same entry in a list of six is hidden behind the count error |
| QuestionSchemas.ValidateCreateInput | app/api/v1/question/schemas.py:50-98 | `QuestionCreateInput` accepts iff the type id is 1..5, every sent list and block passes its rules and the solution is valid; the validated model holds the inputs, with omitted lists as empty; sent choices are 4 to 5 with one correct and distinct values, and sent `area_ids` are non-empty |
| QuestionSchemas.OmittedListsUnchecked | app/api/v1/question/schemas.py:51-70 | the list defaults are not validated: leaving `area_ids` or `choices` out of a valid request keeps it valid with an empty list, while sending an empty list is refused |
| QuestionSchemas.SingleCorrectIff | app/api/v1/question/schemas.py:72-81 | exactly one correct means one choice is correct and every other is not |
| QuestionSchemas.PaddingAndCaseCollide | app/api/v1/question/schemas.py:91-94 | values that differ only in surrounding whitespace collide across two choices |
| QuestionSchemas.EmptyContentsAccepted | app/api/v1/question/schemas.py:61-64 | the question's own content list has no minimum: emptying it or leaving it out keeps a valid request valid |
| LegacyStatement.ParseTypeTag | app/schemas/statement.py:102-105 | the `type` discriminator selects only a variant whose literal is exactly the given tag |
| LegacyStatement.TypeTagRoundTrip | app/schemas/statement.py:21-44 | each of the three literals selects its own variant, the literals are pairwise different, and a tag no variant carries is refused |
| LegacyStatement.ShapeErrors | app/schemas/statement.py:25-78 | no error exactly when the statement is well shaped (two to five items; equal columns of at most five); each column's bound is reported on its own, and the equal-length error appears alone, only once both columns are within bounds |
| LegacyStatement.CanonicalString | app/services/question_service.py:135-153 | a plain statement's canonical string is its stripped, lower-cased text; every variant's string starts with that text |
| LegacyStatement.StatementHash | app/services/question_service.py:135-155 | the fingerprint is the digest of the canonical string |
| LegacyStatement.CaseNeverMatters | app/crud/question.py:60-75 | two statements of the same variant that differ only in letter case (text, items, column entries) get the same fingerprint |
| LegacyStatement.MatchingIgnoresPadding | app/crud/question.py:66-75 | matching column entries that agree after stripping and lower-casing give the same fingerprint |
| LegacyStatement.ItemPaddingMatters | app/crud/question.py:62-64 | item texts are lower-cased but not stripped: a trailing space in an item gives a different fingerprint |
| LegacyStatement.VariantsCollide | app/services/question_service.py:136-142 | the canonical string carries no variant marker: a plain statement whose text ends in the bar-separated key of an item and the with-items statement holding that item are different requests with one fingerprint |
| LegacyStatement.LowerEqualIsNormalEqual | app/services/question_service.py:140-151 | entries equal after lower-casing are also equal after stripping and lower-casing |
| LegacyQuestion.ExpectedVariant | app/schemas/question.py:79-85 | true/false and ordering demand the with-items statement, matching the matching statement, and direct and completion the plain one |
| LegacyQuestion.EveryVariantUsable | app/schemas/question.py:79-87 | every statement variant is the one some question type demands |
| LegacyQuestion.KnownTexts | app/schemas/question.py:63-64 | the normalised texts of the choices up to the first without text, each the stripped, lower-cased content of its choice; all of them when every choice has text |
| LegacyQuestion.ScanResponses | app/schemas/question.py:57-71 | the walk reports a repeat exactly when the known texts repeat (or meet an earlier one), and success exactly when they do not and every choice has text; a choice without text ends the walk otherwise |
| LegacyQuestion.LabelErrors | app/schemas/choice.py:7-10 | one error per choice whose label is longer than one character, naming that choice's index, and no other |
| LegacyQuestion.NoLabelErrors | app/schemas/choice.py:7-10 | there is no label error exactly when every label has at most one character |
| LegacyQuestion.CheckLegacyChoices | app/schemas/question.py:42-71 | a sent list passes exactly when there are four or five choices, every label has at most one character, exactly one is correct, all have text and the texts are distinct after normalising; a missing text after all that crashes; more than five gives the count error alone; otherwise label errors come first and hide the minimum; a count error is always reported alone |
| LegacyQuestion.FieldErrors | app/schemas/question.py:29-35 | no field error exactly when the question number, if given, is positive and the statement is well shaped |
| LegacyQuestion.ValidateQuestion | app/schemas/question.py:32-95 | a request is valid exactly when every field rule holds, the choices, if sent, pass, and the statement variant is the one its type demands; it crashes exactly when sent choices crash; the type mismatch is reported alone and only when every field is valid |
| LegacyQuestion.OmittedChoicesAccepted | app/schemas/question.py:42-44 | the `choices` default is not validated: leaving the field out of an otherwise valid request is accepted with no choices, while an empty list is refused |
| LegacyQuestion.PaddedTwinRejected | app/schemas/question.py:57-71 | two choice texts equal after stripping and lower-casing make the request invalid |
| LegacyQuestion.FirstUnsupported | app/services/question_service.py:40-50 | the first choice with neither text nor a non-empty image, with every earlier choice supported; none exactly when all are |
| LegacyQuestion.FirstTextless | app/services/question_service.py:51-58 | the first choice without text (blank counts as none), every earlier one having text; none exactly when all have text |
| LegacyQuestion.CheckMaterial | app/services/question_service.py:31-58 | refuses with 400 exactly when the material is incomplete: with images, a count different from the choices' or a choice with neither text nor image; without images, a choice without text |
| LegacyQuestion.EmptyImageListIsNoImages | app/services/question_service.py:32 | an empty image list is treated as no images at all |
| LegacyQuestion.Destination | app/services/question_service.py:60-79 | the upload folder is the courses root followed by the subject's label and the folder of the image kind |
| LegacyQuestion.DestinationsDistinct | app/services/question_service.py:60-79 | different subjects or different image kinds never share an upload folder |
| LegacyCreate.PathsIfAny | app/services/question_service.py:84-90 | the paths are attached exactly when the upload returned some |
| LegacyCreate.ChoicePath | app/services/question_service.py:113 | a choice gets the path at its own index exactly when there are choice paths |
| LegacyCreate.ChoiceRows | app/services/question_service.py:108-117 | one row per choice, in request order, carrying its label, content, flag, path and the new question's key |
| LegacyCreate.Commit | app/services/question_service.py:119-129 | the commit succeeds exactly when the fingerprint is not taken and the store does not fail; a failure rolls back and answers 500 |
| LegacyCreate.InsertAsRequested | app/services/question_service.py:93-121 | adding the rows under fresh keys stores the question and its choices as requested and changes no earlier row |
| LegacyCreate.WriteQuestion | app/services/question_service.py:81-129 | creates exactly when the fingerprint is free and the store does not fail, storing the request with its statement, solution and choice paths; otherwise nothing changes and the answer is 500 |
| LegacyCreate.ServiceCreate | app/services/question_service.py:22-129 | incomplete material answers 400 with nothing written; otherwise the question is created exactly when the fingerprint is free and the store does not fail, as requested |
| LegacyCreate.CrudCreate | app/crud/question.py:19-46 | the crud create stores the same request without any image paths, under the same success condition |
| LegacyCreate.ServiceMatchesCrud | app/crud/question.py:54-106 | with complete material the service and the crud layer answer alike and store the same fingerprint |
| LegacyCreate.SecondCreateRefused | app/crud/question.py:40-46 | once a question is created, a second request whose statement has the same fingerprint is refused with 500 and changes nothing |
| SubjectCodes.Value | app/helpers/subject_code.py:25-43 | every member's value is two upper-case letters |
| SubjectCodes.LabelIsSlug | app/helpers/subject_code.py:3-22 | every course label is a lower-case slug: letters joined by single hyphens |
| SubjectCodes.EighteenCodes | app/helpers/subject_code.py:25-43 | the enum has eighteen members, each listed once |
| SubjectCodes.ValuesDistinct | app/helpers/subject_code.py:25-43 | different members have different values |
| SubjectCodes.LabelsDistinct | app/helpers/subject_code.py:3-22 | different members have different labels |
| SubjectCodes.Lookup | app/helpers/subject_code.py:25-43 | the first listed member with the given value, or none when no listed member has it |
| SubjectCodes.ParseSubject | app/helpers/subject_code.py:25-43 | a value parses only to the member that has it |
| SubjectCodes.SubjectRoundTrip | app/helpers/subject_code.py:25-47 | every member's value parses back to it, and a string parses exactly when some member has it |

## Left out

- SHA-256 and hex encoding: `Digest` is a constructor over the canonical string, so only equal-string-equal-hash is stated, never collision freedom.
- Unicode `strip()` and `lower()`: whitespace and case folding are modelled on ASCII characters only.
- `math.ceil(total / limit)` on floats: modelled as the exact integer ceiling, so float rounding for totals beyond 2^53 is not modelled; a zero `limit` with a positive total raises `ZeroDivisionError` in the source and is excluded by the precondition.
- The Redis count cache and its invalidation in every repository: external shared state with a time-to-live; the model only commits or rolls back.
- SQLAlchemy sessions, ORM models, cascades and eager loading: the store is a value of maps, and the summary and full question views are one listing.
- The `question_areas` link table: its key to `questions.id` declares `ondelete="CASCADE"` (app/models/question_areas.py:10), so the database drops a question's area links with it; they never refuse a delete and the store leaves them out.
- HTTP routers, dependency wiring, exception handlers, logging and configuration: wiring with no logic of the core.
- Object storage and the image service: signing is the abstract `sign` parameter, and its own failures are not modelled.
- `ImageService.upload_images`, which the legacy service calls, does not exist in the image service; the paths it returns are a parameter of `LegacyCreate.ServiceCreate`, assumed to hold one path per choice image.
- `UploadFile.size` being unknown (`None`): an upload is either absent or has a size.
- The read-then-write race between counting correct choices and updating a choice: concurrency.
- `RetrievalError` and `DeleteError`: the services import them from `app/core/exceptions/technical.py`, which declares only `PersistenceError` and the storage errors, so they are kinds without a status or a code.
- The HTTP answer to a pydantic `ValidationError` raised while a service builds its response: `app/core/exceptions/handlers.py` registers a handler for `AppException` only, so the framework's default for an unhandled exception applies; the model stops at the `ValidationError` kind.
- Area, source and institution repository calls: modelled by their outcomes (the ids found, a row or none, a constraint code), not by queries.
- The taxonomy services (topics, subtopics, courses, assessments) and their schemas: plain store calls and field bounds with no further logic.
- Public and read response shapes of choices, solutions and statements (`image_paths`, `id`, `question_id`): output formatting only.
- The payload schemas `QuestionContentUpdateInput`, `QuestionSourceUpdateInput` and `ChoiceUpdateInput`: the services import them, but `app/api/v1/question_content/schemas.py`, `app/api/v1/question_source/schemas.py` and `app/api/v1/choice/schemas.py` do not declare them, so their payloads are modelled as records of optional fields.
- The NOT NULL constraint on the legacy `choices.content` column and the difference between the crud layer's flush and the service's repository calls: both commit once, so only the single commit is modelled.
- The order in which pydantic lists errors beyond what the contracts state; the `case _` branch of the legacy type check, which a validated `QuestionType` never reaches.
- QuestionContent.UpdateQuestionContent: models the intended service. As written, `app/services/question_content_service.py` fails to import: `RetrievalError` is not declared in `app/core/exceptions/technical.py`, and `QuestionContentUpdateInput` is not declared in `app/api/v1/question_content/schemas.py`. Because that input schema is missing, the patch is taken with no bounds: a value or order that `QuestionContentResponse` refuses is committed and then raises ValidationError, where a declared input schema might have refused it before the write.
- ChoiceUpdate.UpdateChoice: models the intended service. As written, `app/services/choice_service.py` fails to import: `RetrievalError` is not declared in `app/core/exceptions/technical.py`, and `ChoiceUpdateInput` is not declared in `app/api/v1/choice/schemas.py`. Because that input schema is missing, the patch is taken with no bounds: contents that `ChoicePublic` refuses are committed and then raise ValidationError. `app/models/choice.py` also declares no `contents` relationship, which `ChoiceContent.choice` back-populates and the repository assigns; the model treats it as a relationship without an `order_by`, reloaded in the store's order.
- SolutionUpdate.UpdateSolution: models the intended service. As written, `app/services/solution_service.py` fails to import: `RetrievalError` is not declared in `app/core/exceptions/technical.py`.
- CitationUpdate.UpdateQuestionSource: models the intended service. As written, `app/services/question_source_service.py` fails to import: `RetrievalError` is not declared in `app/core/exceptions/technical.py`, and `QuestionSourceUpdateInput` is not declared in `app/api/v1/question_source/schemas.py`.
- QuestionGuard.EnsureExists: models the intended guard. As written, `app/services/question_guard_service.py` fails to import `RetrievalError`, which `app/core/exceptions/technical.py` does not declare, and `QuestionRepository` from `app/api/v1/question/repository.py`, which defines only `create_question_db` and `get_all_questions_db`.
- Catalog.GetOne: models the intended services. As written, `app/services/institution_service.py` and `app/services/source_service.py` fail to import `DeleteError` and `RetrievalError`, which `app/core/exceptions/technical.py` does not declare.
- Catalog.CreateInstitution: models the intended service. As written, `app/services/institution_service.py` fails to import `DeleteError` and `RetrievalError`, which `app/core/exceptions/technical.py` does not declare.
- Catalog.UpdateInstitution: models the intended service. As written, `app/services/institution_service.py` fails to import `DeleteError` and `RetrievalError`, which `app/core/exceptions/technical.py` does not declare.
- Catalog.DeleteOne: models the intended services. As written, `app/services/institution_service.py` and `app/services/source_service.py` fail to import `DeleteError` and `RetrievalError`, which `app/core/exceptions/technical.py` does not declare.
- Catalog.CreateSource: models the intended service. As written, `app/services/source_service.py` fails to import `DeleteError` and `RetrievalError`, which `app/core/exceptions/technical.py` does not declare.
- Catalog.UpdateSource: models the intended service. As written, `app/services/source_service.py` fails to import `DeleteError` and `RetrievalError`, which `app/core/exceptions/technical.py` does not declare.
- References.GetSourcesByIds: models the intended lookup; as written, `app/services/source_service.py` fails to import, for the same reason.
- References.GetInstitutionsByIds: models the intended lookup; as written, `app/services/institution_service.py` fails to import, for the same reason.
- QuestionSchemas.ValidateCreateInput: models the intended validation. As written, `app/api/v1/question/schemas.py` fails to import: it imports `ChoiceResponse`, `SolutionResponse` and `SubtopicResponse`, which the choice, solution and subtopic schema modules do not declare.
- LegacyCreate.WriteQuestion: models the intended write. As written, `app/services/question_service.py` cannot be imported: it imports `create_choices_db`, which the choice repository does not define, and statement classes that `app/api/v1/question/schemas.py` does not define. It also passes a dict to `create_question_db`, whose `.model_dump()` raises AttributeError, which the `except SQLAlchemyError` does not catch.
- LegacyCreate.ServiceCreate: models the intended service for the same reasons; as written, no request reaches it, because the module fails to import.
- LegacyCreate.CrudCreate: models the intended crud create. As written, `app/crud/question.py` cannot be imported: it imports `Statement`, `StatementWithItems` and `MatchingStatement`, which `app/schemas/question.py` does not define.
- LegacyCreate.ServiceMatchesCrud: relates the two intended routines; as written, neither module loads.
- LegacyCreate.SecondCreateRefused: states the intended refusal; as written, the crud module does not load.
- QuestionContent.FingerprintIgnoresScan: holds only when the patched orders are pairwise distinct. With two blocks of equal order, their texts join in scan order, so the fingerprint can depend on how the database breaks the tie.

=== FILE: catalog.dfy ===
/** The institution and source services. Their repositories are plain store
    calls, so each service is modelled over what its repository call returned or
    raised; what the model states is the services' own logic: which failures
    become which errors, and which checks run before a write is attempted. */
module Catalog {
  import opened Common
  import opened Errors

  /** What one repository call did: returned a value, or raised a store failure. */
  datatype Call<+T> = Returned(value: T) | Threw(failure: StoreFailure)

  /** A service call together with whether it reached its repository write. */
  datatype Served<+T> = Served(wrote: bool, result: Result<T>)

  /** `get_institution` and `get_source`: a failed read is a `RetrievalError`,
      an empty one `ResourceNotFound`. */
  function GetOne<T>(call: Call<Option<T>>): (r: Result<T>)
    ensures r.Ok? <==> call.Returned? && call.value.Some?
    ensures r.Ok? ==> r.value == call.value.value
    ensures r.Err? ==> r.error == Fail(if call.Threw? then RetrievalError else ResourceNotFound)
  {
    match call
    case Threw(_) => Err(Fail(RetrievalError))
    case Returned(None) => Err(Fail(ResourceNotFound))
    case Returned(Some(x)) => Ok(x)
  }

  /** `create_institution`: 23505 (the institution code is unique) is
      `DuplicateValue`, any other failure `PersistenceError`. */
  function CreateInstitution<T>(call: Call<T>): (r: Result<T>)
    ensures r.Raises(DuplicateValue) <==> call == Threw(IntegrityFailure(Some(UniqueViolationCode)))
    ensures r.Err? <==> call.Threw?
    ensures r.Err? ==> r.error.kind in {DuplicateValue, PersistenceError}
    ensures r.Ok? ==> r.value == call.value
  {
    match call
    case Threw(f) => Err(Fail(WriteErrorKind(f, UniquePolicy)))
    case Returned(x) => Ok(x)
  }

  /** `update_institution`: the same mapping, and `ResourceNotFound` when the
      repository found no row to update. */
  function UpdateInstitution<T>(call: Call<Option<T>>): (r: Result<T>)
    ensures r.Raises(DuplicateValue) <==> call == Threw(IntegrityFailure(Some(UniqueViolationCode)))
    ensures r.Raises(ResourceNotFound) <==> call == Returned(None)
    ensures r.Ok? <==> call.Returned? && call.value.Some?
    ensures r.Err? ==> r.error.kind in {DuplicateValue, PersistenceError, ResourceNotFound}
  {
    match call
    case Threw(f) => Err(Fail(WriteErrorKind(f, UniquePolicy)))
    case Returned(None) => Err(Fail(ResourceNotFound))
    case Returned(Some(x)) => Ok(x)
  }

  /** `delete_institution` and `delete_source`: any store failure is a `DeleteError`. */
  function DeleteOne<T>(call: Call<Option<T>>): (r: Result<T>)
    ensures r.Raises(DeleteError) <==> call.Threw?
    ensures r.Raises(ResourceNotFound) <==> call == Returned(None)
    ensures r.Ok? ==> call == Returned(Some(r.value))
  {
    match call
    case Threw(_) => Err(Fail(DeleteError))
    case Returned(None) => Err(Fail(ResourceNotFound))
    case Returned(Some(x)) => Ok(x)
  }

  /** `create_source`: the institution must be found before the source is written;
      a failed write is always a `PersistenceError`. */
  function CreateSource<I, S>(institution: Call<Option<I>>, create: Call<S>): (r: Served<S>)
    ensures r.wrote <==> GetOne(institution).Ok?
    ensures !r.wrote ==> r.result == Err(GetOne(institution).error)
    ensures r.wrote ==> (r.result.Ok? <==> create.Returned?)
    ensures r.wrote && r.result.Err? ==> r.result.error == Fail(PersistenceError)
  {
    var inst := GetOne(institution);
    if inst.Err? then Served(false, Err(inst.error))
    else
      match create
      case Threw(f) => Served(true, Err(Fail(WriteErrorKind(f, PlainPolicy))))
      case Returned(x) => Served(true, Ok(x))
  }

  /** `update_source`: the institution is checked only when the payload names one;
      a failed write is a `PersistenceError` and a missing row `ResourceNotFound`. */
  function UpdateSource<I, S>(institutionId: Option<Id>, institution: Call<Option<I>>, update: Call<Option<S>>): (r: Served<S>)
    ensures r.wrote <==> institutionId.None? || GetOne(institution).Ok?
    ensures !r.wrote ==> r.result == Err(GetOne(institution).error)
    ensures r.wrote ==> (r.result.Ok? <==> update.Returned? && update.value.Some?)
    ensures r.wrote && r.result.Err? ==>
      r.result.error == Fail(if update.Threw? then PersistenceError else ResourceNotFound)
  {
    if institutionId.Some? && GetOne(institution).Err? then Served(false, Err(GetOne(institution).error))
    else
      match update
      case Threw(f) => Served(true, Err(Fail(WriteErrorKind(f, PlainPolicy))))
      case Returned(None) => Served(true, Err(Fail(ResourceNotFound)))
      case Returned(Some(x)) => Served(true, Ok(x))
  }

  /** A missing or unreadable institution decides the outcome of a source create
      or update on its own: whatever the write would have done is never reached. */
  lemma InstitutionCheckedBeforeWrite<I, S>(institution: Call<Option<I>>, c1: Call<S>, c2: Call<S>,
                                            id: Id, u1: Call<Option<S>>, u2: Call<Option<S>>)
    requires GetOne(institution).Err?
    ensures CreateSource(institution, c1) == CreateSource(institution, c2)
    ensures UpdateSource(Some(id), institution, u1) == UpdateSource(Some(id), institution, u2)
  {
  }

  /** Without an institution id the update never consults the institution. */
  lemma UpdateWithoutInstitution<I, S>(i1: Call<Option<I>>, i2: Call<Option<I>>, u: Call<Option<S>>)
    ensures UpdateSource(None, i1, u) == UpdateSource(None, i2, u)
  {
  }

  /** The source service does no constraint-code mapping: even a unique
      violation on its write surfaces as `PersistenceError`, unlike the
      institution service. */
  lemma SourceWritesNeverDuplicate<I, S>(institution: Call<Option<I>>, c: Call<S>, id: Option<Id>, u: Call<Option<S>>)
    requires GetOne(institution).Ok?
    ensures !CreateSource(institution, c).result.Raises(DuplicateValue)
    ensures !UpdateSource(id, institution, u).result.Raises(DuplicateValue)
    ensures var dup: Call<S> := Threw(IntegrityFailure(Some(UniqueViolationCode)));
      CreateSource(institution, dup).result == Err(Fail(PersistenceError)) &&
      CreateInstitution(dup) == Err(Fail(DuplicateValue))
  {
  }
}

=== FILE: choice.dfy ===
/** The choice repository and the single-choice update service: lookup under the
    question, counting correct choices, the normalized values of the sibling
    choices, the update that can demote the siblings, and the checks that keep a
    question's choices distinct and with a correct one. */
module ChoiceUpdate {
  import opened Common
  import opened Text
  import opened Errors
  import opened Content
  import opened Signer
  import opened Store

  /** `get_choice_db`: found only under its own question. */
  function GetChoice(db: Db, questionId: Id, choiceId: Id): (r: Option<ChoiceRow>)
    ensures r.Some? <==> choiceId in db.choices && db.choices[choiceId].questionId == questionId
    ensures r.Some? ==> r.value == db.choices[choiceId]
  {
    if choiceId in db.choices && db.choices[choiceId].questionId == questionId then Some(db.choices[choiceId])
    else None
  }

  /** Whether choice `c` is a correct choice of question `q`. */
  predicate CorrectIn(db: Db, q: Id, c: Id) {
    c in db.choices && db.choices[c].questionId == q && db.choices[c].isCorrect
  }

  /** The correct choices of `q`, minus the excluded one when given. */
  function CorrectChoices(db: Db, q: Id, exclude: Option<Id>): set<Id> {
    set c | c in db.choices && CorrectIn(db, q, c) && exclude != Some(c)
  }

  /** `count_correct_choices_db`: `COUNT(*)` is never null, so the result is a plain number. */
  function CountCorrect(db: Db, q: Id, exclude: Option<Id>): (n: nat)
    ensures n == 0 <==> forall c :: CorrectIn(db, q, c) ==> exclude == Some(c)
  {
    var s := CorrectChoices(db, q, exclude);
    if |s| == 0 then
      assert forall c :: CorrectIn(db, q, c) ==> exclude == Some(c) by {
        forall c | CorrectIn(db, q, c) ensures exclude == Some(c) {
          assert c !in s;
        }
      }
      0
    else
      assert exists c :: c in s;
      |s|
  }

  /** Counting with an exclusion misses exactly the excluded choice when it is correct. */
  lemma CountWithoutExclusion(db: Db, q: Id, c: Id)
    ensures CountCorrect(db, q, None) == CountCorrect(db, q, Some(c)) + (if CorrectIn(db, q, c) then 1 else 0)
  {
    var all := CorrectChoices(db, q, None);
    var rest := CorrectChoices(db, q, Some(c));
    if CorrectIn(db, q, c) {
      assert all == rest + {c};
    } else {
      assert all == rest;
    }
  }

  /** `get_other_choice_content_values_db`: the normalized content values of every
      other choice of the same question. */
  function OtherChoiceValues(db: Db, q: Id, choiceId: Id): set<string> {
    set c, b | c in db.choices && db.choices[c].questionId == q && c != choiceId && b in db.choices[c].contents
      :: Normalize(b.value)
  }

  /** A value is a sibling value exactly when some other choice of the question has
      a block that normalizes to it; the choice's own blocks and other questions'
      choices do not count. */
  lemma OtherChoiceValuesMembers(db: Db, q: Id, choiceId: Id, v: string)
    ensures v in OtherChoiceValues(db, q, choiceId) <==>
      exists c, k :: c in db.choices && db.choices[c].questionId == q && c != choiceId &&
        0 <= k < |db.choices[c].contents| && Normalize(db.choices[c].contents[k].value) == v
  {
    if v in OtherChoiceValues(db, q, choiceId) {
      var c, b :| c in db.choices && db.choices[c].questionId == q && c != choiceId &&
        b in db.choices[c].contents && Normalize(b.value) == v;
      var k :| 0 <= k < |db.choices[c].contents| && db.choices[c].contents[k] == b;
    }
  }

  /** The first incoming value already used by a sibling choice, in incoming order. */
  function FirstDuplicate(incoming: seq<string>, others: set<string>): (r: Option<string>)
    ensures r.None? <==> forall k :: 0 <= k < |incoming| ==> incoming[k] !in others
    ensures r.Some? ==>
      exists k :: 0 <= k < |incoming| && incoming[k] == r.value && r.value in others &&
        forall j :: 0 <= j < k ==> incoming[j] !in others
  {
    if |incoming| == 0 then None
    else if incoming[0] in others then Some(incoming[0])
    else
      var r := FirstDuplicate(incoming[1..], others);
      if r.Some? then
        var k :| 0 <= k < |incoming[1..]| && incoming[1..][k] == r.value && r.value in others &&
          forall j :: 0 <= j < k ==> incoming[1..][j] !in others;
        assert incoming[k + 1] == r.value;
        r
      else
        r
  }

  /** `_validate_unique_choice_contents`: no normalized value repeats within the
      incoming blocks, and none is already used by a sibling choice. */
  function CheckUniqueContents(db: Db, faults: Faults, q: Id, choiceId: Id, contents: seq<Block>): (r: Result<()>)
    ensures var incoming := MapSeq(contents, NormalizedValue);
      (r == Err(Fail(DuplicateChoiceContent)) <==> !Distinct(incoming)) &&
      (r.Ok? <==>
        Distinct(incoming) && SiblingValuesQuery !in faults.failing &&
        forall k :: 0 <= k < |incoming| ==> incoming[k] !in OtherChoiceValues(db, q, choiceId))
    ensures r.Err? ==> r.error.kind in {DuplicateChoiceContent, RetrievalError}
    ensures r.Err? && r.error.detail.DuplicateText? ==> r.error.detail.value in OtherChoiceValues(db, q, choiceId)
  {
    var incoming := MapSeq(contents, NormalizedValue);
    DistinctIffNoShrink(incoming);
    if |SetOf(incoming)| != |incoming| then Err(Fail(DuplicateChoiceContent))
    else if SiblingValuesQuery in faults.failing then Err(Fail(RetrievalError))
    else
      var d := FirstDuplicate(incoming, OtherChoiceValues(db, q, choiceId));
      if d.Some? then Err(Error(DuplicateChoiceContent, DuplicateText(d.value)))
      else Ok(())
  }

  /** `_validate_other_correct_choice_exists`. */
  function CheckOtherCorrect(db: Db, faults: Faults, q: Id, choiceId: Id): (r: Result<()>)
    ensures r.Ok? <==>
      CorrectCountQuery !in faults.failing && exists c :: CorrectIn(db, q, c) && c != choiceId
    ensures r.Err? ==> r.error in {Fail(RetrievalError), Fail(NoCorrectChoice)}
  {
    if CorrectCountQuery in faults.failing then Err(Fail(RetrievalError))
    else if CountCorrect(db, q, Some(choiceId)) == 0 then Err(Fail(NoCorrectChoice))
    else Ok(())
  }

  /** The update payload; `None` leaves the field as it is, and `contents` replaces the whole list. */
  datatype ChoicePatch = ChoicePatch(letter: Option<string>, isCorrect: Option<bool>, contents: Option<seq<Block>>)

  function ApplyChoicePatch(row: ChoiceRow, p: ChoicePatch): (r: ChoiceRow)
    ensures r.questionId == row.questionId
    ensures r.letter == p.letter.GetOr(row.letter)
    ensures r.isCorrect == p.isCorrect.GetOr(row.isCorrect)
    ensures r.contents == p.contents.GetOr(row.contents)
  {
    ChoiceRow(row.questionId, p.letter.GetOr(row.letter), p.isCorrect.GetOr(row.isCorrect), p.contents.GetOr(row.contents))
  }

  /** The choices table after `update_choice_db`: the patched choice and, with
      `demote`, every other choice of the same question marked incorrect. */
  function UpdatedChoices(db: Db, choiceId: Id, p: ChoicePatch, demote: bool): (r: map<Id, ChoiceRow>)
    requires choiceId in db.choices
    ensures r.Keys == db.choices.Keys
    ensures r[choiceId] == ApplyChoicePatch(db.choices[choiceId], p)
    ensures forall c :: c in db.choices && c != choiceId ==>
      r[c] == (if demote && db.choices[c].questionId == db.choices[choiceId].questionId
               then db.choices[c].(isCorrect := false) else db.choices[c])
  {
    var q := db.choices[choiceId].questionId;
    map c | c in db.choices ::
      if c == choiceId then ApplyChoicePatch(db.choices[c], p)
      else if demote && db.choices[c].questionId == q && db.choices[c].isCorrect then db.choices[c].(isCorrect := false)
      else db.choices[c]
  }

  /** `update_choice_db`: commits the demotion and the patch together or not at all. */
  function UpdateChoiceDb(db: Db, choiceId: Id, p: ChoicePatch, demote: bool, fault: Option<StoreFailure>): (w: Write<ChoiceRow>)
    requires choiceId in db.choices
    ensures w.Wrote? ==>
      w.db == db.(choices := UpdatedChoices(db, choiceId, p, demote)) && w.value == w.db.choices[choiceId]
    ensures Consistent(db) ==> (w.Wrote? <==> fault.None?) && (w.Raised? ==> Some(w.failure) == fault)
  {
    var next := db.(choices := UpdatedChoices(db, choiceId, p, demote));
    assert Consistent(db) ==> Consistent(next) by {
      assert next.questions == db.questions && next.citations == db.citations && next.sources == db.sources;
    }
    Commit(next, next.choices[choiceId], fault)
  }

  /** `ChoicePublic`. */
  datatype ChoicePublic = ChoicePublic(isCorrect: bool, letter: string, contents: seq<Block>)

  /** `ChoicePublic.model_validate`: every content block meets `ChoiceContentPublic`. */
  predicate ChoicePublicValid(c: ChoicePublic) {
    forall k :: 0 <= k < |c.contents| ==> ChoiceContentPublicValid(c.contents[k])
  }

  /** How many content blocks the choice holds once patched. */
  function UpdatedContentCount(db: Db, choiceId: Id, p: ChoicePatch): nat {
    if choiceId in db.choices then |ApplyChoicePatch(db.choices[choiceId], p).contents| else 0
  }

  /** The response built from the committed choice: its `contents` come back in
      the order `reload` of the refresh, with image values signed. */
  function ChoiceResponse(row: ChoiceRow, sign: string -> string, reload: seq<nat>): (r: ChoicePublic)
    requires IsReorder(reload, |row.contents|)
    ensures r.isCorrect == row.isCorrect && r.letter == row.letter && |r.contents| == |row.contents|
    ensures forall k :: 0 <= k < |reload| ==> r.contents[k] == SignBlock(row.contents[reload[k]], sign)
  {
    ChoicePublic(row.isCorrect, row.letter, SignImageContents(Reorder(row.contents, reload), sign))
  }

  /** `update_choice`. The response is built from the refreshed `contents`,
      which no `order_by` sorts: `reload` is the order in which the store hands
      them back. `ChoicePublic.model_validate` runs after the commit, so a
      response it refuses raises `ValidationError` with the change stored. */
  function UpdateChoice(db: Db, faults: Faults, sign: string -> string, q: Id, choiceId: Id, p: ChoicePatch,
                        reload: seq<nat>): (o: Outcome<ChoicePublic>)
    requires IsReorder(reload, UpdatedContentCount(db, choiceId, p))
    ensures o.result.Err? && RefreshQuery !in faults.failing && !o.result.Raises(ValidationError) ==> o.db == db
    ensures o.result.Err? && o.db != db ==>
      (RefreshQuery in faults.failing && o.result == Err(Fail(PersistenceError))) || o.result == Err(Fail(ValidationError))
    ensures ChoiceQuery in faults.failing ==> o.result == Err(Fail(RetrievalError))
    ensures ChoiceQuery !in faults.failing && GetChoice(db, q, choiceId).None? ==> o.result == Err(Fail(ResourceNotFound))
    ensures o.result.Ok? ==> choiceId in db.choices && db.choices[choiceId].questionId == q && RefreshQuery !in faults.failing
    ensures o.result.Ok? && p.contents.Some? ==> CheckUniqueContents(db, faults, q, choiceId, p.contents.value).Ok?
    ensures o.result.Ok? ==>
      o.db == db.(choices := UpdatedChoices(db, choiceId, p, p.isCorrect == Some(true))) &&
      var row := o.db.choices[choiceId];
      |reload| == |row.contents| &&
      o.result.value.isCorrect == row.isCorrect && o.result.value.letter == row.letter &&
      |o.result.value.contents| == |row.contents| &&
      (forall k :: 0 <= k < |reload| ==> o.result.value.contents[k] == SignBlock(row.contents[reload[k]], sign)) &&
      ChoicePublicValid(o.result.value)
    ensures o.result.Err? ==>
      o.result.error.kind in {RetrievalError, ResourceNotFound, DuplicateChoiceContent, NoCorrectChoice, ForeignKeyViolation, PersistenceError, ValidationError}
  {
    if ChoiceQuery in faults.failing then Outcome(db, Err(Fail(RetrievalError)))
    else
      var found := GetChoice(db, q, choiceId);
      if found.None? then Outcome(db, Err(Fail(ResourceNotFound)))
      else
        var unique := if p.contents.Some? then CheckUniqueContents(db, faults, q, choiceId, p.contents.value) else Ok(());
        if unique.Err? then Outcome(db, Err(unique.error))
        else
          var correct := if p.isCorrect == Some(false) && found.value.isCorrect then CheckOtherCorrect(db, faults, q, choiceId) else Ok(());
          if correct.Err? then Outcome(db, Err(correct.error))
          else CommitChoice(db, faults, sign, choiceId, p, reload)
  }

  /** The write, the refresh and the response once every check has passed. */
  function CommitChoice(db: Db, faults: Faults, sign: string -> string, choiceId: Id, p: ChoicePatch,
                        reload: seq<nat>): (o: Outcome<ChoicePublic>)
    requires choiceId in db.choices
    requires IsReorder(reload, UpdatedContentCount(db, choiceId, p))
    ensures o.result.Err? && RefreshQuery !in faults.failing && !o.result.Raises(ValidationError) ==> o.db == db
    ensures o.result.Err? && o.db != db ==>
      (RefreshQuery in faults.failing && o.result == Err(Fail(PersistenceError))) || o.result == Err(Fail(ValidationError))
    ensures o.result.Ok? ==>
      RefreshQuery !in faults.failing &&
      o.db == db.(choices := UpdatedChoices(db, choiceId, p, p.isCorrect == Some(true))) &&
      o.result.value == ChoiceResponse(o.db.choices[choiceId], sign, reload) &&
      ChoicePublicValid(o.result.value)
    ensures o.result.Err? ==> o.result.error.kind in {ForeignKeyViolation, PersistenceError, ValidationError}
  {
    var w := UpdateChoiceDb(db, choiceId, p, p.isCorrect == Some(true), faults.write);
    if w.Raised? then Outcome(db, Err(Fail(WriteErrorKind(w.failure, ForeignKeyPolicy))))
    else if RefreshQuery in faults.failing then Outcome(w.db, Err(Fail(PersistenceError)))
    else
      var response := ChoiceResponse(w.value, sign, reload);
      if ChoicePublicValid(response) then Outcome(w.db, Ok(response))
      else Outcome(w.db, Err(Fail(ValidationError)))
  }

  /** The question has at least one correct choice. */
  predicate HasCorrect(db: Db, q: Id) {
    exists c :: c in db.choices && CorrectIn(db, q, c)
  }

  /** A successful update never leaves a question without a correct choice if it had one. */
  lemma CorrectChoiceSurvives(db: Db, faults: Faults, sign: string -> string, q: Id, choiceId: Id, p: ChoicePatch, reload: seq<nat>)
    requires IsReorder(reload, UpdatedContentCount(db, choiceId, p))
    requires HasCorrect(db, q)
    requires UpdateChoice(db, faults, sign, q, choiceId, p, reload).result.Ok?
    ensures HasCorrect(UpdateChoice(db, faults, sign, q, choiceId, p, reload).db, q)
  {
    var db' := UpdateChoice(db, faults, sign, q, choiceId, p, reload).db;
    var c :| c in db.choices && CorrectIn(db, q, c);
    if p.isCorrect == Some(true) {
      assert CorrectIn(db', q, choiceId);
    } else if c != choiceId {
      assert db'.choices == UpdatedChoices(db, choiceId, p, false);
      assert db'.choices[c] == db.choices[c];
    } else if p.isCorrect == Some(false) {
      var found := GetChoice(db, q, choiceId);
      assert CheckOtherCorrect(db, faults, q, choiceId).Ok?;
      var d :| CorrectIn(db, q, d) && d != choiceId;
      assert CorrectIn(db', q, d);
    } else {
      assert CorrectIn(db', q, choiceId);
    }
  }

  /** Marking a choice correct leaves it the only correct choice of its question. */
  lemma MarkingCorrectIsExclusive(db: Db, faults: Faults, sign: string -> string, q: Id, choiceId: Id, p: ChoicePatch, reload: seq<nat>)
    requires IsReorder(reload, UpdatedContentCount(db, choiceId, p))
    requires p.isCorrect == Some(true)
    requires UpdateChoice(db, faults, sign, q, choiceId, p, reload).result.Ok?
    ensures var db' := UpdateChoice(db, faults, sign, q, choiceId, p, reload).db;
      CorrectIn(db', q, choiceId) && forall c :: CorrectIn(db', q, c) ==> c == choiceId
  {
  }

  /** Choices of other questions are never touched. */
  lemma OtherQuestionsUntouched(db: Db, faults: Faults, sign: string -> string, q: Id, choiceId: Id, p: ChoicePatch, reload: seq<nat>, c: Id)
    requires IsReorder(reload, UpdatedContentCount(db, choiceId, p))
    requires c in db.choices && db.choices[c].questionId != q
    ensures UpdateChoice(db, faults, sign, q, choiceId, p, reload).db.choices[c] == db.choices[c]
  {
  }

  /** The uniqueness check runs before the correctness check: a payload with a
      repeated value is refused as a duplicate even when it also un-marks the only
      correct choice. */
  lemma UniquenessBeforeCorrectness(db: Db, faults: Faults, sign: string -> string, q: Id, choiceId: Id, p: ChoicePatch, reload: seq<nat>)
    requires IsReorder(reload, UpdatedContentCount(db, choiceId, p))
    requires ChoiceQuery !in faults.failing && GetChoice(db, q, choiceId).Some?
    requires p.contents.Some? && !Distinct(MapSeq(p.contents.value, NormalizedValue))
    ensures UpdateChoice(db, faults, sign, q, choiceId, p, reload).result == Err(Fail(DuplicateChoiceContent))
  {
  }

  /** Un-marking the only correct choice is refused with `NoCorrectChoice` once
      the contents, if any, pass the uniqueness checks. */
  lemma UnmarkingLastCorrectRefused(db: Db, faults: Faults, sign: string -> string, q: Id, choiceId: Id, p: ChoicePatch, reload: seq<nat>)
    requires IsReorder(reload, UpdatedContentCount(db, choiceId, p))
    requires ChoiceQuery !in faults.failing && CorrectCountQuery !in faults.failing
    requires CorrectIn(db, q, choiceId) && forall c :: CorrectIn(db, q, c) ==> c == choiceId
    requires p.isCorrect == Some(false)
    requires p.contents.None? || CheckUniqueContents(db, faults, q, choiceId, p.contents.value).Ok?
    ensures UpdateChoice(db, faults, sign, q, choiceId, p, reload).result == Err(Fail(NoCorrectChoice))
  {
  }

  /** Once every check has passed, the write decides the outcome: a foreign-key
      failure (23503) raises `ForeignKeyViolation`, every other store failure
      `PersistenceError`, and so does a failed refresh after the commit. After a
      committed and refreshed write, the response schema decides: the update
      succeeds iff it accepts the reloaded, signed choice, and otherwise raises
      `ValidationError` with the change stored. */
  lemma WriteFailureMapping(db: Db, faults: Faults, sign: string -> string, q: Id, choiceId: Id, p: ChoicePatch, reload: seq<nat>)
    requires IsReorder(reload, UpdatedContentCount(db, choiceId, p))
    requires Consistent(db)
    requires ChoiceQuery !in faults.failing && GetChoice(db, q, choiceId).Some?
    requires p.contents.None? || CheckUniqueContents(db, faults, q, choiceId, p.contents.value).Ok?
    requires !(p.isCorrect == Some(false) && db.choices[choiceId].isCorrect) || CheckOtherCorrect(db, faults, q, choiceId).Ok?
    ensures var o := UpdateChoice(db, faults, sign, q, choiceId, p, reload);
      var r := o.result;
      var committed := db.(choices := UpdatedChoices(db, choiceId, p, p.isCorrect == Some(true)));
      var valid := ChoicePublicValid(ChoiceResponse(committed.choices[choiceId], sign, reload));
      (r.Ok? <==> faults.write.None? && RefreshQuery !in faults.failing && valid) &&
      (r.Raises(ValidationError) <==> faults.write.None? && RefreshQuery !in faults.failing && !valid) &&
      (r.Raises(ValidationError) ==> o.db == committed) &&
      (r.Raises(ForeignKeyViolation) <==> faults.write == Some(IntegrityFailure(Some(ForeignKeyViolationCode)))) &&
      (r.Raises(PersistenceError) <==>
        (faults.write.Some? && faults.write != Some(IntegrityFailure(Some(ForeignKeyViolationCode)))) ||
        (faults.write.None? && RefreshQuery in faults.failing))
  {
    var w := UpdateChoiceDb(db, choiceId, p, p.isCorrect == Some(true), faults.write);
    if w.Raised? {
      assert Some(w.failure) == faults.write;
    }
  }

  /** A failed refresh after the commit raises `PersistenceError`, yet the store
      keeps exactly the change a refresh that worked would have reported. */
  lemma RefreshFailureKeepsCommit(db: Db, faults: Faults, sign: string -> string, q: Id, choiceId: Id, p: ChoicePatch, reload: seq<nat>)
    requires IsReorder(reload, UpdatedContentCount(db, choiceId, p))
    requires RefreshQuery in faults.failing
    requires UpdateChoice(db, faults.(failing := faults.failing - {RefreshQuery}), sign, q, choiceId, p, reload).result.Ok?
    ensures UpdateChoice(db, faults, sign, q, choiceId, p, reload) ==
      Outcome(UpdateChoice(db, faults.(failing := faults.failing - {RefreshQuery}), sign, q, choiceId, p, reload).db, Err(Fail(PersistenceError)))
  {
    var f := faults.(failing := faults.failing - {RefreshQuery});
    assert forall x :: x != RefreshQuery ==> (x in f.failing <==> x in faults.failing);
    if p.contents.Some? {
      assert CheckUniqueContents(db, f, q, choiceId, p.contents.value) == CheckUniqueContents(db, faults, q, choiceId, p.contents.value);
    }
    assert CheckOtherCorrect(db, f, q, choiceId) == CheckOtherCorrect(db, faults, q, choiceId);
  }

  /** The stored contents are the payload's, or the old ones when the payload
      has none; the response holds the same blocks, in the order the store
      reloads them, with image values signed: a rearrangement of the signed
      stored list. */
  lemma ResponseIsReloadedChoice(db: Db, faults: Faults, sign: string -> string, q: Id, choiceId: Id, p: ChoicePatch, reload: seq<nat>)
    requires IsReorder(reload, UpdatedContentCount(db, choiceId, p))
    requires UpdateChoice(db, faults, sign, q, choiceId, p, reload).result.Ok?
    ensures var o := UpdateChoice(db, faults, sign, q, choiceId, p, reload);
      var stored := o.db.choices[choiceId].contents;
      stored == (if p.contents.Some? then p.contents.value else db.choices[choiceId].contents) &&
      multiset(o.result.value.contents) == multiset(SignImageContents(stored, sign))
  {
    var o := UpdateChoice(db, faults, sign, q, choiceId, p, reload);
    var stored := o.db.choices[choiceId].contents;
    var signed := SignImageContents(stored, sign);
    assert o.result.value.contents == Reorder(signed, reload) by {
      var r := o.result.value.contents;
      forall k | 0 <= k < |reload| ensures r[k] == signed[reload[k]] {
      }
    }
    ReorderPermutes(signed, reload);
  }

  /** The sibling check names the first incoming value, in payload order, that
      another choice already uses. */
  lemma DuplicateNamesFirstClash(db: Db, faults: Faults, q: Id, choiceId: Id, contents: seq<Block>, v: string)
    requires CheckUniqueContents(db, faults, q, choiceId, contents) == Err(Error(DuplicateChoiceContent, DuplicateText(v)))
    ensures var incoming := MapSeq(contents, NormalizedValue);
      exists k :: 0 <= k < |incoming| && incoming[k] == v && v in OtherChoiceValues(db, q, choiceId) &&
        forall j :: 0 <= j < k ==> incoming[j] !in OtherChoiceValues(db, q, choiceId)
  {
    var incoming := MapSeq(contents, NormalizedValue);
    var others := OtherChoiceValues(db, q, choiceId);
    assert FirstDuplicate(incoming, others) == Some(v);
  }
}

=== FILE: citation.dfy ===
/** Citations of a question (`question_sources` rows): the repository lookup and
    partial update, and `QuestionSourceService.update_question_source_specific`. */
module CitationUpdate {
  import opened Common
  import opened Errors
  import opened Store
  import opened QuestionGuard
  import opened References

  /** `get_question_source_db`: found only under its own question. */
  function GetCitation(db: Db, q: Id, citationId: Id): (r: Option<Citation>)
    ensures r.Some? <==> citationId in db.citations && db.citations[citationId].questionId == q
    ensures r.Some? ==> r.value == db.citations[citationId]
  {
    if citationId in db.citations && db.citations[citationId].questionId == q then Some(db.citations[citationId])
    else None
  }

  /** The update payload; `None` leaves the column as it is. */
  datatype CitationPatch = CitationPatch(sourceId: Option<Id>, page: Option<int>)

  function ApplyCitationPatch(c: Citation, p: CitationPatch): (r: Citation)
    ensures r.questionId == c.questionId
    ensures r.sourceId == p.sourceId.GetOr(c.sourceId) && r.page == p.page.GetOr(c.page)
  {
    Citation(c.questionId, p.sourceId.GetOr(c.sourceId), p.page.GetOr(c.page))
  }

  /** `update_question_source_db`: the citation keeps its question; the commit
      fails with foreign_key_violation when the new source does not exist. */
  function UpdateCitationDb(db: Db, citationId: Id, p: CitationPatch, fault: Option<StoreFailure>): (w: Write<Citation>)
    requires citationId in db.citations
    ensures w.Wrote? ==>
      w.value == ApplyCitationPatch(db.citations[citationId], p) &&
      w.db == db.(citations := db.citations[citationId := w.value])
    ensures Consistent(db) ==>
      (w.Raised? <==> fault.Some? || ApplyCitationPatch(db.citations[citationId], p).sourceId !in db.sources)
    ensures Consistent(db) && ApplyCitationPatch(db.citations[citationId], p).sourceId !in db.sources ==>
      w == Raised(IntegrityFailure(Some(ForeignKeyViolationCode)))
  {
    var row := ApplyCitationPatch(db.citations[citationId], p);
    var next := db.(citations := db.citations[citationId := row]);
    assert next.questions == db.questions;
    assert Consistent(db) ==> (CitationsResolve(next) <==> row.sourceId in db.sources) by {
      if Consistent(db) && row.sourceId !in db.sources {
        assert next.citations[citationId].sourceId !in next.sources;
      }
    }
    Commit(next, row, fault)
  }

  /** `update_question_source_specific`: guard, lookup, the new source checked
      when given, then the write; the call returns nothing. */
  function UpdateQuestionSource(db: Db, faults: Faults, q: Id, citationId: Id, p: CitationPatch): (o: Outcome<()>)
    ensures o.result.Err? && RefreshQuery !in faults.failing ==> o.db == db
    ensures o.result.Err? && o.db != db ==> RefreshQuery in faults.failing && o.result == Err(Fail(PersistenceError))
    ensures EnsureExists(db, faults, q).Err? ==> o.result == Err(EnsureExists(db, faults, q).error)
    ensures EnsureExists(db, faults, q).Ok? && CitationQuery in faults.failing ==> o.result == Err(Fail(RetrievalError))
    ensures EnsureExists(db, faults, q).Ok? && CitationQuery !in faults.failing && GetCitation(db, q, citationId).None? ==>
      o.result == Err(Fail(ResourceNotFound))
    ensures o.result.Ok? ==>
      q in db.questions && GetCitation(db, q, citationId).Some? && RefreshQuery !in faults.failing &&
      (p.sourceId.Some? ==> p.sourceId.value in db.sources) &&
      o.db == db.(citations := db.citations[citationId := ApplyCitationPatch(db.citations[citationId], p)])
    ensures o.result.Err? ==>
      o.result.error.kind in {RetrievalError, ResourceNotFound, ForeignKeyViolation, PersistenceError}
  {
    var guard := EnsureExists(db, faults, q);
    if guard.Err? then Outcome(db, Err(guard.error))
    else if CitationQuery in faults.failing then Outcome(db, Err(Fail(RetrievalError)))
    else if GetCitation(db, q, citationId).None? then Outcome(db, Err(Fail(ResourceNotFound)))
    else
      var check := if p.sourceId.Some? then GetSourcesByIds(db, faults, [p.sourceId.value]) else Ok({});
      if check.Err? then Outcome(db, Err(check.error))
      else
        assert p.sourceId.Some? ==> p.sourceId.value in db.sources by {
          if p.sourceId.Some? {
            assert [p.sourceId.value][0] == p.sourceId.value;
          }
        }
        var w := UpdateCitationDb(db, citationId, p, faults.write);
        if w.Raised? then Outcome(db, Err(Fail(WriteErrorKind(w.failure, ForeignKeyPolicy))))
        else if RefreshQuery in faults.failing then Outcome(w.db, Err(Fail(PersistenceError)))
        else Outcome(w.db, Ok(()))
  }

  /** A source id that does not exist is refused by the lookup, naming it, before
      any write is attempted. */
  lemma UnknownSourceRefused(db: Db, faults: Faults, q: Id, citationId: Id, p: CitationPatch)
    requires EnsureExists(db, faults, q).Ok? && CitationQuery !in faults.failing && SourcesQuery !in faults.failing
    requires GetCitation(db, q, citationId).Some?
    requires p.sourceId.Some? && p.sourceId.value !in db.sources
    ensures UpdateQuestionSource(db, faults, q, citationId, p) ==
      Outcome(db, Err(Error(ResourceNotFound, MissingIds({p.sourceId.value}))))
  {
    assert SetOf([p.sourceId.value]) == {p.sourceId.value};
    assert Unanswered(db.sources, [p.sourceId.value]) == {p.sourceId.value};
  }

  /** With the source checked first, a consistent store cannot produce its own
      foreign-key failure: `ForeignKeyViolation` is raised exactly when the write
      reports 23503 for a reason the data does not explain. */
  lemma ForeignKeyOnlyFromStore(db: Db, faults: Faults, q: Id, citationId: Id, p: CitationPatch)
    requires Consistent(db)
    requires EnsureExists(db, faults, q).Ok? && CitationQuery !in faults.failing && SourcesQuery !in faults.failing
    requires GetCitation(db, q, citationId).Some?
    requires p.sourceId.None? || p.sourceId.value in db.sources
    ensures UpdateQuestionSource(db, faults, q, citationId, p).result.Raises(ForeignKeyViolation) <==>
      faults.write == Some(IntegrityFailure(Some(ForeignKeyViolationCode)))
  {
    if p.sourceId.Some? {
      assert SetOf([p.sourceId.value]) == {p.sourceId.value};
    }
    assert ApplyCitationPatch(db.citations[citationId], p).sourceId in db.sources;
  }

  /** A successful update keeps the citation under the same question and keeps
      every citation's source resolvable. */
  lemma UpdateKeepsQuestionAndKeys(db: Db, faults: Faults, q: Id, citationId: Id, p: CitationPatch)
    requires Consistent(db)
    requires UpdateQuestionSource(db, faults, q, citationId, p).result.Ok?
    ensures var db' := UpdateQuestionSource(db, faults, q, citationId, p).db;
      db'.citations[citationId].questionId == q && CitationsResolve(db')
  {
  }

  /** A failed refresh after the commit raises `PersistenceError`, yet the store
      keeps exactly the change a refresh that worked would have left. */
  lemma RefreshFailureKeepsCommit(db: Db, faults: Faults, q: Id, citationId: Id, p: CitationPatch)
    requires RefreshQuery in faults.failing
    requires UpdateQuestionSource(db, faults.(failing := faults.failing - {RefreshQuery}), q, citationId, p).result.Ok?
    ensures UpdateQuestionSource(db, faults, q, citationId, p) ==
      Outcome(UpdateQuestionSource(db, faults.(failing := faults.failing - {RefreshQuery}), q, citationId, p).db, Err(Fail(PersistenceError)))
  {
    var f := faults.(failing := faults.failing - {RefreshQuery});
    assert forall x :: x != RefreshQuery ==> (x in f.failing <==> x in faults.failing);
    assert EnsureExists(db, f, q) == EnsureExists(db, faults, q);
    if p.sourceId.Some? {
      assert GetSourcesByIds(db, f, [p.sourceId.value]) == GetSourcesByIds(db, faults, [p.sourceId.value]);
    }
  }
}

=== FILE: common.dfy ===
/** Small shared vocabulary: optional values, identifiers and sequence facts
    used by every other module of the question-bank model. */
module Common {

  /** Row identifiers are the store's integer primary keys. */
  type Id = int

  /** Python's `X | None`. */
  datatype Option<+T> = None | Some(value: T) {
    function GetOr(default: T): T {
      match this
      case Some(v) => v
      case None => default
    }
  }

  /** The elements of a sequence, as Python's `set(xs)`. */
  function SetOf<T>(xs: seq<T>): set<T> {
    set x | x in xs
  }

  /** No element occurs twice. */
  predicate Distinct<T(==)>(xs: seq<T>) {
    forall i, j :: 0 <= i < j < |xs| ==> xs[i] != xs[j]
  }

  lemma {:induction false} SetOfNoLonger<T>(xs: seq<T>)
    ensures |SetOf(xs)| <= |xs|
  {
    if |xs| > 0 {
      SetOfNoLonger(xs[1..]);
      assert SetOf(xs) == {xs[0]} + SetOf(xs[1..]);
    } else {
      assert SetOf(xs) == {};
    }
  }

  /** A sequence has no repeated element exactly when it is as long as its set of
      elements: the test `len(xs) != len(set(xs))` detects a repetition. */
  lemma {:induction false} DistinctIffNoShrink<T>(xs: seq<T>)
    ensures Distinct(xs) <==> |SetOf(xs)| == |xs|
  {
    if |xs| == 0 {
      assert SetOf(xs) == {};
    } else {
      var t := xs[1..];
      DistinctIffNoShrink(t);
      assert SetOf(xs) == {xs[0]} + SetOf(t);
      if xs[0] in t {
        assert SetOf(xs) == SetOf(t);
        SetOfNoLonger(t);
        var j :| 0 <= j < |t| && t[j] == xs[0];
        assert xs[0] == xs[j + 1];
        assert !Distinct(xs);
      } else {
        assert |SetOf(xs)| == |SetOf(t)| + 1;
        if Distinct(t) {
          forall i, j | 0 <= i < j < |xs| ensures xs[i] != xs[j] {
            if i == 0 {
              assert xs[j] == t[j - 1];
            } else {
              assert xs[i] == t[i - 1] && xs[j] == t[j - 1];
            }
          }
        } else {
          var i, j :| 0 <= i < j < |t| && t[i] == t[j];
          assert xs[i + 1] == xs[j + 1];
        }
      }
    }
  }

  /** In a sequence without repetitions every element occurs exactly once. */
  lemma {:induction false} DistinctCount<T>(xs: seq<T>, x: T)
    requires Distinct(xs)
    ensures multiset(xs)[x] == if x in xs then 1 else 0
  {
    if |xs| > 0 {
      var t := xs[1..];
      assert xs == [xs[0]] + t;
      assert Distinct(t) by {
        forall i, j | 0 <= i < j < |t| ensures t[i] != t[j] {
          assert t[i] == xs[i + 1] && t[j] == xs[j + 1];
        }
      }
      DistinctCount(t, x);
      assert xs[0] !in t by {
        forall j | 0 <= j < |t| ensures t[j] != xs[0] {
          assert t[j] == xs[j + 1];
        }
      }
    }
  }

  /** Two repetition-free sequences with the same elements are rearrangements of each other. */
  lemma SameSetSameMultiset<T>(a: seq<T>, b: seq<T>)
    requires Distinct(a) && Distinct(b) && SetOf(a) == SetOf(b)
    ensures multiset(a) == multiset(b)
  {
    forall x ensures multiset(a)[x] == multiset(b)[x] {
      DistinctCount(a, x);
      DistinctCount(b, x);
      assert x in a <==> x in SetOf(a);
      assert x in b <==> x in SetOf(b);
    }
  }

  /** A rearrangement of a repetition-free sequence is repetition-free. */
  lemma DistinctPermutation<T>(a: seq<T>, b: seq<T>)
    requires Distinct(a) && multiset(a) == multiset(b)
    ensures Distinct(b)
  {
    forall i, j | 0 <= i < j < |b| ensures b[i] != b[j] {
      if b[i] == b[j] {
        var x := b[i];
        assert b == b[..j] + b[j..];
        assert x in b[..j] && x == b[j..][0];
        assert multiset(b) == multiset(b[..j]) + multiset(b[j..]);
        assert multiset(b)[x] >= 2;
        DistinctCount(a, x);
        assert false;
      }
    }
  }

  /** `perm` lists every position of a length-`n` sequence exactly once. */
  predicate IsReorder(perm: seq<nat>, n: nat) {
    |perm| == n && Distinct(perm) && forall k :: 0 <= k < n ==> perm[k] < n
  }

  /** The elements of `s` at the positions `perm` lists, in that order. */
  function Reorder<T>(s: seq<T>, perm: seq<nat>): (r: seq<T>)
    requires forall k :: 0 <= k < |perm| ==> perm[k] < |s|
    ensures |r| == |perm|
    ensures forall k :: 0 <= k < |perm| ==> r[k] == s[perm[k]]
  {
    seq(|perm|, k requires 0 <= k < |perm| => s[perm[k]])
  }

  function Positions(n: nat): (r: seq<nat>)
    ensures |r| == n && forall k :: 0 <= k < n ==> r[k] == k
  {
    seq(n, k requires 0 <= k < n => k)
  }

  /** A reordering lists every position, so it rearranges the sequence's elements. */
  lemma ReorderPermutes<T>(s: seq<T>, perm: seq<nat>)
    requires IsReorder(perm, |s|)
    ensures multiset(Reorder(s, perm)) == multiset(s)
  {
    var n := |s|;
    if n > 0 {
      var all := Positions(n);
      assert Distinct(all);
      assert SetOf(perm) <= SetOf(all) by {
        forall x | x in SetOf(perm) ensures x in SetOf(all) {
          var k :| 0 <= k < n && perm[k] == x;
          assert all[x] == x;
        }
      }
      DistinctIffNoShrink(perm);
      DistinctIffNoShrink(all);
      assert SetOf(all) - SetOf(perm) == {} by {
        assert |SetOf(all) - SetOf(perm)| == |SetOf(all)| - |SetOf(perm)|;
      }
      SameSetSameMultiset(perm, all);
      var d := s[0];
      var f := (i: nat) => if i < n then s[i] else d;
      MultisetMapSeq(perm, all, f);
      assert MapSeq(all, f) == s;
      assert MapSeq(perm, f) == Reorder(s, perm);
    }
  }

  lemma SeqAssoc<T>(a: seq<T>, b: seq<T>, c: seq<T>)
    ensures a + b + c == a + (b + c)
  {
  }

  lemma SeqSplit<T>(s: seq<T>, k: nat)
    requires k <= |s|
    ensures s == s[..k] + s[k..]
  {
  }

  /** Pointwise image of a sequence (a list comprehension). */
  function MapSeq<T, U>(xs: seq<T>, f: T -> U): (r: seq<U>)
    ensures |r| == |xs|
    ensures forall i :: 0 <= i < |xs| ==> r[i] == f(xs[i])
  {
    seq(|xs|, i requires 0 <= i < |xs| => f(xs[i]))
  }

  lemma MapSeqAppend<T, U>(a: seq<T>, b: seq<T>, f: T -> U)
    ensures MapSeq(a + b, f) == MapSeq(a, f) + MapSeq(b, f)
  {
  }

  lemma MapSeqSlice<T, U>(xs: seq<T>, k: nat, f: T -> U)
    requires k <= |xs|
    ensures MapSeq(xs[..k], f) == MapSeq(xs, f)[..k]
    ensures MapSeq(xs[k..], f) == MapSeq(xs, f)[k..]
  {
  }

  /** Replacing one element by another with the same image leaves the mapped sequence unchanged. */
  lemma MapSeqUpdate<T, U>(xs: seq<T>, k: nat, y: T, f: T -> U)
    requires k < |xs| && f(y) == f(xs[k])
    ensures MapSeq(xs[k := y], f) == MapSeq(xs, f)
  {
  }

  /** Number of set flags: `sum(1 for b in flags if b)`. */
  function CountTrue(flags: seq<bool>): (n: nat)
    ensures n <= |flags|
  {
    if |flags| == 0 then 0 else (if flags[0] then 1 else 0) + CountTrue(flags[1..])
  }

  /** Exactly one flag is set: one index is, and no other. */
  predicate SingleTrue(flags: seq<bool>) {
    exists k :: 0 <= k < |flags| && flags[k] && forall j :: 0 <= j < |flags| && j != k ==> !flags[j]
  }

  /** Counting the set flags finds one exactly when one index is set and no other is. */
  lemma CountOneIff(flags: seq<bool>)
    ensures CountTrue(flags) == 1 <==> SingleTrue(flags)
  {
    if CountTrue(flags) == 1 {
      var k := OnlyTrue(flags);
    } else {
      forall k | 0 <= k < |flags| && flags[k] && forall j :: 0 <= j < |flags| && j != k ==> !flags[j]
        ensures false
      {
        CountOfOnlyTrue(flags, k);
      }
    }
  }

  /** The set index when exactly one is. */
  lemma {:induction false} OnlyTrue(flags: seq<bool>) returns (k: nat)
    requires CountTrue(flags) == 1
    ensures k < |flags| && flags[k] && forall j :: 0 <= j < |flags| && j != k ==> !flags[j]
  {
    assert forall j :: 1 <= j < |flags| ==> flags[j] == flags[1..][j - 1];
    if flags[0] {
      NoneTrue(flags[1..]);
      k := 0;
    } else {
      var k' := OnlyTrue(flags[1..]);
      k := k' + 1;
    }
  }

  lemma {:induction false} CountOfOnlyTrue(flags: seq<bool>, k: nat)
    requires k < |flags| && flags[k] && forall j :: 0 <= j < |flags| && j != k ==> !flags[j]
    ensures CountTrue(flags) == 1
  {
    assert forall j :: 1 <= j < |flags| ==> flags[j] == flags[1..][j - 1];
    if k == 0 {
      NoneTrue(flags[1..]);
    } else {
      CountOfOnlyTrue(flags[1..], k - 1);
    }
  }

  lemma {:induction false} NoneTrue(flags: seq<bool>)
    ensures CountTrue(flags) == 0 <==> forall j :: 0 <= j < |flags| ==> !flags[j]
  {
    if |flags| > 0 {
      NoneTrue(flags[1..]);
      assert forall j :: 1 <= j < |flags| ==> flags[j] == flags[1..][j - 1];
    }
  }

  /** Strictly ascending. */
  predicate Increasing(r: seq<Id>) {
    forall i, j :: 0 <= i < j < |r| ==> r[i] < r[j]
  }

  lemma {:induction false} MinExists(s: set<Id>)
    requires s != {}
    ensures exists m :: m in s && forall x :: x in s ==> m <= x
    decreases s
  {
    if forall z :: z !in s {
      assert false;
    }
    var x :| x in s;
    var rest := s - {x};
    if rest == {} {
      forall z | z in s ensures x <= z {
        assert z !in rest;
      }
    } else {
      MinExists(rest);
      var y :| y in rest && forall z :: z in rest ==> y <= z;
      var m := if x < y then x else y;
      forall z | z in s ensures m <= z {
        if z != x {
          assert z in rest;
        }
      }
    }
  }

  function MinOf(s: set<Id>): (m: Id)
    requires s != {}
    ensures m in s && forall x :: x in s ==> m <= x
  {
    MinExists(s);
    var m :| m in s && forall x :: x in s ==> m <= x;
    m
  }

  lemma PrependMin(m: Id, s: set<Id>, rest: seq<Id>)
    requires m in s && (forall x :: x in s ==> m <= x)
    requires SetOf(rest) == s - {m} && Increasing(rest) && |rest| == |s - {m}|
    ensures SetOf([m] + rest) == s && Increasing([m] + rest) && |[m] + rest| == |s|
  {
    SetOfCons(m, rest);
    assert s == (s - {m}) + {m};
    forall k | 0 <= k < |rest| ensures m < rest[k] {
      assert rest[k] in SetOf(rest);
    }
  }

  lemma SetOfCons(m: Id, rest: seq<Id>)
    ensures SetOf([m] + rest) == {m} + SetOf(rest)
  {
    assert forall x :: x in [m] + rest <==> x == m || x in rest;
  }

  /** The keys of a table in ascending order, as `ORDER BY id` lists them. */
  function SortedIds(s: set<Id>): (r: seq<Id>)
    ensures SetOf(r) == s && Increasing(r) && |r| == |s|
    decreases s
  {
    if s == {} then []
    else
      var m := MinOf(s);
      var rest := SortedIds(s - {m});
      PrependMin(m, s, rest);
      [m] + rest
  }

  /** Mapping two arrangements of the same elements gives two arrangements of the same images. */
  lemma {:induction false} MultisetMapSeq<T, U>(a: seq<T>, b: seq<T>, f: T -> U)
    requires multiset(a) == multiset(b)
    ensures multiset(MapSeq(a, f)) == multiset(MapSeq(b, f))
  {
    if |a| > 0 {
      var x := a[0];
      assert x in multiset(b);
      var j :| 0 <= j < |b| && b[j] == x;
      var rest := b[..j] + b[j + 1..];
      PermutationTail(a, b, j);
      calc {
        multiset(MapSeq(a, f));
        { MapSeqCons(a, f); }
        multiset(MapSeq(a[1..], f)) + multiset{f(x)};
        { MultisetMapSeq(a[1..], rest, f); }
        multiset(MapSeq(rest, f)) + multiset{f(x)};
        { MapSeqRemove(b, j, f); }
        multiset(MapSeq(b, f));
      }
    }
  }

  lemma PermutationTail<T>(a: seq<T>, b: seq<T>, j: nat)
    requires multiset(a) == multiset(b) && |a| > 0 && j < |b| && b[j] == a[0]
    ensures multiset(a[1..]) == multiset(b[..j] + b[j + 1..])
  {
    MultisetRemove(b, j);
    MultisetDropFirst(a);
  }

  lemma MultisetDropFirst<T>(a: seq<T>)
    requires |a| > 0
    ensures multiset(a[1..]) == multiset(a) - multiset{a[0]}
  {
    assert a == [a[0]] + a[1..];
  }

  lemma MapSeqCons<T, U>(a: seq<T>, f: T -> U)
    requires |a| > 0
    ensures multiset(MapSeq(a, f)) == multiset(MapSeq(a[1..], f)) + multiset{f(a[0])}
  {
    assert MapSeq(a, f) == [f(a[0])] + MapSeq(a[1..], f);
  }

  lemma MapSeqRemove<T, U>(b: seq<T>, j: nat, f: T -> U)
    requires j < |b|
    ensures multiset(MapSeq(b, f)) == multiset(MapSeq(b[..j] + b[j + 1..], f)) + multiset{f(b[j])}
  {
    var m := MapSeq(b, f);
    assert MapSeq(b[..j] + b[j + 1..], f) == m[..j] + m[j + 1..];
    MultisetRemove(m, j);
  }

  /** Dropping one position removes one occurrence of its element. */
  lemma MultisetRemove<T>(b: seq<T>, j: nat)
    requires j < |b|
    ensures multiset(b[..j] + b[j + 1..]) == multiset(b) - multiset{b[j]}
  {
    assert b == b[..j] + [b[j]] + b[j + 1..];
    assert multiset(b) == multiset(b[..j]) + multiset{b[j]} + multiset(b[j + 1..]);
  }
}

=== FILE: content.dfy ===
/** Content blocks shared by question statements, choices and solutions: the
    `ContentType` enum, the loosely typed `type` attribute the hash and the signer
    inspect, and the field bounds each API schema puts on a block. */
module Content {
  import opened Common
  import opened Text

  /** The `ContentType` string enum. */
  datatype ContentType = TextType | ImageType

  function ContentTypeValue(c: ContentType): string {
    match c
    case TextType => "text"
    case ImageType => "image"
  }

  /** Enum lookup by value, as pydantic does when it validates the `type` field. */
  function ParseContentType(s: string): (r: Option<ContentType>)
    ensures r.Some? ==> ContentTypeValue(r.value) == s
  {
    if s == "text" then Some(TextType)
    else if s == "image" then Some(ImageType)
    else None
  }

  lemma {:induction false} ContentTypeRoundTrip(c: ContentType, s: string)
    ensures ParseContentType(ContentTypeValue(c)) == Some(c)
    ensures ParseContentType(s).None? <==> s != "text" && s != "image"
  {
  }

  /** A block's `type` attribute as the duck-typed helpers see it: either an enum
      member or a plain string read back from the store. */
  datatype Tag = Enum(member: ContentType) | Raw(raw: string)

  /** `getattr(t, "value", t)`. */
  function TagValue(t: Tag): string {
    match t
    case Enum(c) => ContentTypeValue(c)
    case Raw(s) => s
  }

  /** The image test of the hash helper and the signer. */
  predicate IsImage(t: Tag) {
    TagValue(t) == "image"
  }

  /** The image test of the service, `t == ContentType.IMAGE`: a string enum member
      also compares equal to its plain value. */
  predicate EqualsImageMember(t: Tag) {
    t == Enum(ImageType) || t == Raw("image")
  }

  /** Both image tests accept the enum member and the raw string "image", and nothing else. */
  lemma ImageTestsAgree(t: Tag)
    ensures IsImage(t) <==> EqualsImageMember(t)
    ensures IsImage(Enum(ImageType)) && IsImage(Raw("image"))
    ensures !IsImage(Enum(TextType)) && !IsImage(Raw("text")) && !IsImage(Raw("IMAGE"))
  {
  }

  /** One stored or submitted content block. Only question contents carry a label. */
  datatype Block = Block(letter: Option<string>, tag: Tag, value: string, order: int)

  /** A block's value as the uniqueness checks compare it: `value.strip().lower()`. */
  function NormalizedValue(b: Block): string {
    Normalize(b.value)
  }

  predicate LabelFits(letter: Option<string>) {
    letter.None? || |letter.value| <= 1
  }

  /** `QuestionContentBase`: optional label of at most one character, a typed
      `type`, a value of at least 5 characters (the stray `min_length=10` field
      tuple in the class body constrains nothing) and `order >= 1`. */
  predicate QuestionContentValid(b: Block) {
    LabelFits(b.letter) && b.tag.Enum? && |b.value| >= 5 && b.order >= 1
  }

  /** `ChoiceContentBase`: no label, a value of at least 1 character, `order >= 1`. */
  predicate ChoiceContentValid(b: Block) {
    b.letter.None? && b.tag.Enum? && |b.value| >= 1 && b.order >= 1
  }

  /** `SolutionContentBase`: no label, a value of at least 10 characters, `order >= 1`. */
  predicate SolutionContentValid(b: Block) {
    b.letter.None? && b.tag.Enum? && |b.value| >= 10 && b.order >= 1
  }

  /** The three block schemas differ only in the minimum value length, so a valid
      solution block is a valid question block, which is a valid choice block, and
      each inclusion is strict at its length threshold. */
  lemma SchemaInclusions(b: Block)
    ensures SolutionContentValid(b) ==> QuestionContentValid(b)
    ensures QuestionContentValid(b) && b.letter.None? ==> ChoiceContentValid(b)
    ensures QuestionContentValid(Block(None, Enum(TextType), "abcde", 1))
    ensures !SolutionContentValid(Block(None, Enum(TextType), "abcde", 1))
    ensures ChoiceContentValid(Block(None, Enum(ImageType), "a", 1))
    ensures !QuestionContentValid(Block(None, Enum(ImageType), "abcd", 1))
  {
  }

  /** A question content row as the service lists it: its id plus the block. */
  datatype Entry = Entry(id: Id, block: Block)

  /** The `type` field as pydantic reads it back from a row: the enum member, or
      a plain string that is one of its values. */
  predicate TagParses(t: Tag) {
    ParseContentType(TagValue(t)).Some?
  }

  /** `QuestionContentResponse.model_validate` of a row: a positive id and the
      bounds of `QuestionContentBase`, with the `type` read back leniently. */
  predicate QuestionContentResponseValid(e: Entry) {
    e.id > 0 && LabelFits(e.block.letter) && TagParses(e.block.tag) && |e.block.value| >= 5 && e.block.order >= 1
  }

  /** `ChoiceContentPublic`: the bounds of `ChoiceContentBase`; the label is not a field. */
  predicate ChoiceContentPublicValid(b: Block) {
    TagParses(b.tag) && |b.value| >= 1 && b.order >= 1
  }

  /** `SolutionContentPublic`: the bounds of `SolutionContentBase`; the label is not a field. */
  predicate SolutionContentPublicValid(b: Block) {
    TagParses(b.tag) && |b.value| >= 10 && b.order >= 1
  }

  /** The response schemas accept every block their input schemas accept, and
      also a plain stored `type` string; each refuses an order below 1 or a value
      shorter than its input bound. */
  lemma ResponseSchemasAcceptInputs(b: Block, id: Id)
    ensures id > 0 && QuestionContentValid(b) ==> QuestionContentResponseValid(Entry(id, b))
    ensures ChoiceContentValid(b) ==> ChoiceContentPublicValid(b)
    ensures SolutionContentValid(b) ==> SolutionContentPublicValid(b)
    ensures ChoiceContentPublicValid(b.(tag := Raw("image"))) <==> |b.value| >= 1 && b.order >= 1
    ensures b.order < 1 ==> !QuestionContentResponseValid(Entry(id, b)) && !ChoiceContentPublicValid(b) && !SolutionContentPublicValid(b)
    ensures !QuestionContentResponseValid(Entry(id, Block(None, Enum(TextType), "abc", 1)))
    ensures !SolutionContentPublicValid(Block(None, Enum(TextType), "abcde", 1))
  {
  }
}

=== FILE: errors.dfy ===
/** The application's exception hierarchy (`AppException` and its domain and
    technical subclasses), the fixed code and HTTP status of each kind, and the
    translation of store constraint codes into those kinds. */
module Errors {
  import opened Common

  /** Every exception class the services raise. The services import
      `RetrievalError` (and two of them `DeleteError`) from
      `app/core/exceptions/technical.py`, which does not declare them, so they
      carry no code or status here. `ValidationError` is pydantic's, raised when
      a response model refuses the row it is built from; it lies outside the
      `AppException` hierarchy. */
  datatype Kind =
    | AppError | DomainError | TechnicalError
    | ResourceNotFound | DuplicateValue | ForeignKeyViolation
    | MultipleCorrectChoices | NoCorrectChoice | DuplicateChoiceContent | ContentTypeError
    | PersistenceError | StorageError | StorageBucketNotFound | StoragePermissionDenied
    | RetrievalError | DeleteError
    | ValidationError

  /** The kinds whose class the application's exception hierarchy declares. */
  predicate Declared(k: Kind) {
    !k.RetrievalError? && !k.DeleteError? && !k.ValidationError?
  }

  /** Direct superclass. */
  function Parent(k: Kind): Option<Kind> {
    match k
    case AppError | ValidationError => None
    case DomainError | TechnicalError => Some(AppError)
    case ResourceNotFound | DuplicateValue | ForeignKeyViolation
      | MultipleCorrectChoices | NoCorrectChoice | DuplicateChoiceContent | ContentTypeError
      => Some(DomainError)
    case PersistenceError | StorageError | RetrievalError | DeleteError => Some(TechnicalError)
    case StorageBucketNotFound | StoragePermissionDenied => Some(StorageError)
  }

  function Depth(k: Kind): nat {
    match Parent(k)
    case None => 0
    case Some(p) =>
      match Parent(p)
      case None => 1
      case Some(q) => if Parent(q).None? then 2 else 3
  }

  /** `isinstance(e, a)` for an exception of kind `k`. */
  predicate IsA(k: Kind, a: Kind)
    decreases Depth(k)
  {
    k == a || (Parent(k).Some? && IsA(Parent(k).value, a))
  }

  /** The `status_code` class attribute: only the three base classes assign it,
      every subclass inherits its parent's. */
  function ClassStatus(k: Kind): int
    requires Declared(k)
    decreases Depth(k)
  {
    match k
    case AppError => 500
    case DomainError => 400
    case TechnicalError => 500
    case ResourceNotFound | DuplicateValue | ForeignKeyViolation
      | MultipleCorrectChoices | NoCorrectChoice | DuplicateChoiceContent | ContentTypeError
      => ClassStatus(DomainError)
    case PersistenceError | StorageError => ClassStatus(TechnicalError)
    case StorageBucketNotFound | StoragePermissionDenied => ClassStatus(StorageError)
  }

  /** The `error_code` class attribute; every declared class assigns its own. */
  function Code(k: Kind): string
    requires Declared(k)
  {
    match k
    case AppError => "app_error"
    case DomainError => "domain_error"
    case TechnicalError => "technical_error"
    case ResourceNotFound => "resource_not_found"
    case DuplicateValue => "duplicate_value"
    case ForeignKeyViolation => "foreign_key_violation"
    case MultipleCorrectChoices => "multiple_correct_choices"
    case NoCorrectChoice => "no_correct_choice"
    case DuplicateChoiceContent => "duplicate_choice_content"
    case ContentTypeError => "content_type_error"
    case PersistenceError => "persistence_error"
    case StorageError => "storage_error"
    case StorageBucketNotFound => "storage_bucket_not_found"
    case StoragePermissionDenied => "storage_permission_denied"
  }

  /** The `status_code` argument each class's own constructor hands to
      `AppException.__init__`; the base classes pass none. The two storage
      refinements delegate to `StorageError.__init__`, which passes 500. */
  function ConstructorStatus(k: Kind): Option<int>
    requires Declared(k)
  {
    match k
    case AppError | DomainError | TechnicalError => None
    case ResourceNotFound => Some(404)
    case DuplicateValue => Some(409)
    case ForeignKeyViolation | MultipleCorrectChoices | NoCorrectChoice
      | DuplicateChoiceContent | ContentTypeError => Some(400)
    case PersistenceError | StorageError | StorageBucketNotFound | StoragePermissionDenied => Some(500)
  }

  /** An exception instance as the handler serialises it: status plus `{code, message}`. */
  datatype AppException = AppException(kind: Kind, status: int, code: string, message: string)

  /** `AppException.__init__`: an explicit status overrides the class attribute, otherwise the class attribute stays. */
  function Construct(k: Kind, message: string, explicit: Option<int>): (e: AppException)
    requires Declared(k)
  {
    AppException(k, if explicit.Some? then explicit.value else ClassStatus(k), Code(k), message)
  }

  /** The status an exception of kind `k` carries when raised through its own constructor. */
  function Status(k: Kind): int
    requires Declared(k)
  {
    Construct(k, "", ConstructorStatus(k)).status
  }

  /** The base classes' defaults, and the override rule of the base constructor. */
  lemma BaseDefaults(message: string, s: int)
    ensures Construct(AppError, message, None) == AppException(AppError, 500, "app_error", message)
    ensures Construct(DomainError, message, None) == AppException(DomainError, 400, "domain_error", message)
    ensures Construct(TechnicalError, message, None) == AppException(TechnicalError, 500, "technical_error", message)
    ensures forall k :: Declared(k) ==> Construct(k, message, Some(s)).status == s
    ensures forall k :: Declared(k) ==> Construct(k, message, None).status == ClassStatus(k)
  {
  }

  /** The fixed status of each domain kind. `ResourceNotFound` inherits the class
      attribute 400 from `DomainException`, but its constructor overrides it with 404. */
  lemma DomainStatuses()
    ensures Status(ResourceNotFound) == 404 && ClassStatus(ResourceNotFound) == 400
    ensures Status(DuplicateValue) == 409 && ClassStatus(DuplicateValue) == 400
    ensures Status(ForeignKeyViolation) == 400
    ensures Status(MultipleCorrectChoices) == 400
    ensures Status(NoCorrectChoice) == 400
    ensures Status(DuplicateChoiceContent) == 400
    ensures Status(ContentTypeError) == 400
    ensures forall k :: Declared(k) && IsA(k, DomainError) ==> 400 <= Status(k) < 500
  {
    forall k | Declared(k) && IsA(k, DomainError)
      ensures 400 <= Status(k) < 500
    {
      DomainKindStatus(k);
    }
  }

  lemma DomainKindStatus(k: Kind)
    requires Declared(k) && IsA(k, DomainError)
    ensures 400 <= Status(k) < 500
  {
    assert k.DomainError? || Parent(k) == Some(DomainError);
  }

  /** Every declared technical kind, the storage refinements included, answers 500. */
  lemma TechnicalStatuses()
    ensures forall k :: Declared(k) && IsA(k, TechnicalError) ==> Status(k) == 500
    ensures IsA(StorageBucketNotFound, StorageError) && IsA(StoragePermissionDenied, StorageError)
  {
    forall k | Declared(k) && IsA(k, TechnicalError)
      ensures Status(k) == 500
    {
    }
  }

  /** No two declared kinds share an error code, so clients can branch on it. */
  lemma CodesDistinct()
    ensures forall k1, k2 :: Declared(k1) && Declared(k2) && k1 != k2 ==> Code(k1) != Code(k2)
  {
  }

  /** What the exception's message reports besides its kind. */
  datatype Detail =
    | NoDetail
    | MissingIds(ids: set<Id>)          // "IDs not found: {...}"
    | DuplicateText(value: string)      // "Contenido duplicado: '...'"

  datatype Error = Error(kind: Kind, detail: Detail)

  function Fail(k: Kind): Error {
    Error(k, NoDetail)
  }

  /** Outcome of a service call: a value or the exception it raises. */
  datatype Result<+T> = Ok(value: T) | Err(error: Error) {
    predicate IsFailure() {
      Err?
    }

    function PropagateFailure<U>(): Result<U>
      requires Err?
    {
      Err(error)
    }

    function Extract(): T
      requires Ok?
    {
      value
    }

    predicate Raises(k: Kind) {
      Err? && error.kind == k
    }
  }

  /** A failed store call: an `IntegrityError` carrying the driver's `pgcode`
      (possibly absent), or any other `SQLAlchemyError`. */
  datatype StoreFailure = IntegrityFailure(pgcode: Option<string>) | OtherStoreFailure

  /** PostgreSQL's unique_violation and foreign_key_violation codes. */
  const UniqueViolationCode: string := "23505"
  const ForeignKeyViolationCode: string := "23503"

  /** Which constraint codes a service's write handler singles out. */
  datatype ConstraintPolicy = ConstraintPolicy(mapsUnique: bool, mapsForeignKey: bool)

  /** question_content_service maps both codes; choice, solution and citation
      services only the foreign-key code; the institution service only the unique
      code; the source service neither. */
  const ContentPolicy := ConstraintPolicy(true, true)
  const ForeignKeyPolicy := ConstraintPolicy(false, true)
  const UniquePolicy := ConstraintPolicy(true, false)
  const PlainPolicy := ConstraintPolicy(false, false)

  /** The error a failed write is re-raised as. */
  function WriteErrorKind(f: StoreFailure, p: ConstraintPolicy): (k: Kind)
    ensures k == DuplicateValue <==> p.mapsUnique && f == IntegrityFailure(Some(UniqueViolationCode))
    ensures k == ForeignKeyViolation <==> p.mapsForeignKey && f == IntegrityFailure(Some(ForeignKeyViolationCode))
    ensures k == PersistenceError || k == DuplicateValue || k == ForeignKeyViolation
  {
    match f
    case IntegrityFailure(code) =>
      if p.mapsUnique && code == Some(UniqueViolationCode) then DuplicateValue
      else if p.mapsForeignKey && code == Some(ForeignKeyViolationCode) then ForeignKeyViolation
      else PersistenceError
    case OtherStoreFailure => PersistenceError
  }

  /** A non-integrity failure and an unrecognised constraint code always surface as `PersistenceError`. */
  lemma UnrecognisedFailuresArePersistence(p: ConstraintPolicy, code: Option<string>)
    requires code != Some(UniqueViolationCode) && code != Some(ForeignKeyViolationCode)
    ensures WriteErrorKind(OtherStoreFailure, p) == PersistenceError
    ensures WriteErrorKind(IntegrityFailure(code), p) == PersistenceError
    ensures WriteErrorKind(IntegrityFailure(Some(UniqueViolationCode)), ForeignKeyPolicy) == PersistenceError
    ensures WriteErrorKind(IntegrityFailure(Some(ForeignKeyViolationCode)), UniquePolicy) == PersistenceError
  {
  }
}

=== FILE: guard.dfy ===
/** `QuestionGuardService.ensure_exists`: the existence check that several
    services run before touching anything that hangs off a question. */
module QuestionGuard {
  import opened Common
  import opened Errors
  import opened Store
  import QuestionRepository

  /** `ensure_exists`: a failed read raises `RetrievalError`, a missing question
      `ResourceNotFound`; the store is only read. */
  function EnsureExists(db: Db, faults: Faults, q: Id): (r: Result<()>)
    ensures r.Ok? <==> QuestionQuery !in faults.failing && q in db.questions
    ensures QuestionQuery in faults.failing ==> r == Err(Fail(RetrievalError))
    ensures QuestionQuery !in faults.failing && q !in db.questions ==> r == Err(Fail(ResourceNotFound))
  {
    if QuestionQuery in faults.failing then Err(Fail(RetrievalError))
    else if !QuestionRepository.QuestionExists(db, q) then Err(Fail(ResourceNotFound))
    else Ok(())
  }

  /** Once a delete has committed, the guard refuses the question. */
  lemma GuardAfterDelete(db: Db, q: Id, fault: Option<StoreFailure>, faults: Faults)
    requires QuestionQuery !in faults.failing
    requires QuestionRepository.DeleteQuestion(db, q, fault).Wrote?
    ensures EnsureExists(QuestionRepository.DeleteQuestion(db, q, fault).db, faults, q) == Err(Fail(ResourceNotFound))
  {
    QuestionRepository.DeleteThenAbsent(db, q, fault, None);
  }

  /** Only question rows matter to the guard: editing any other table never changes its answer. */
  lemma GuardReadsOnlyQuestions(db: Db, other: Db, faults: Faults, q: Id)
    requires other.questions.Keys == db.questions.Keys
    ensures EnsureExists(other, faults, q) == EnsureExists(db, faults, q)
  {
  }
}

=== FILE: hash.dfy ===
/** The question fingerprint: blocks sorted by `order`, the normalised text of the
    blocks before the first image concatenated without separator, then digested.
    SHA-256 is kept symbolic: a digest is identified by the string it digests. */
module QuestionHash {
  import opened Common
  import opened Text
  import opened Content
  import opened Sorting

  /** `sha256(canonical).hexdigest()`, uninterpreted. */
  datatype Hash = Digest(canonical: string)

  function OrderOf(b: Block): int {
    b.order
  }

  /** Index of the first image block, or the length when there is none. */
  function FirstImage(s: seq<Block>): (r: nat)
    ensures r <= |s|
    ensures forall i :: 0 <= i < r ==> !IsImage(s[i].tag)
    ensures r < |s| ==> IsImage(s[r].tag)
  {
    if |s| == 0 || IsImage(s[0].tag) then 0 else 1 + FirstImage(s[1..])
  }

  /** `"".join(v.strip().lower() for v in values)` over a block list. */
  function JoinedText(s: seq<Block>): (r: string)
    ensures |s| == 0 ==> r == ""
  {
    if |s| == 0 then "" else Normalize(s[0].value) + JoinedText(s[1..])
  }

  lemma {:induction false} JoinedTextAppend(s: seq<Block>, b: Block)
    ensures JoinedText(s + [b]) == JoinedText(s) + Normalize(b.value)
  {
    if |s| == 0 {
      assert [b][1..] == [];
    } else {
      var head := Normalize(s[0].value);
      assert (s + [b])[1..] == s[1..] + [b];
      JoinedTextAppend(s[1..], b);
      SeqAssoc(head, JoinedText(s[1..]), Normalize(b.value));
    }
  }

  lemma JoinedTextStep(s: seq<Block>, i: nat)
    requires i < |s|
    ensures JoinedText(s[..i + 1]) == JoinedText(s[..i]) + Normalize(s[i].value)
  {
    assert s[..i + 1] == s[..i] + [s[i]];
    JoinedTextAppend(s[..i], s[i]);
  }

  lemma JoinedTextStart(s: seq<Block>)
    ensures JoinedText(s[..0]) == ""
  {
  }

  lemma FirstImageAt(s: seq<Block>, i: nat)
    requires i < |s| && i <= FirstImage(s) && IsImage(s[i].tag)
    ensures i == FirstImage(s)
  {
  }

  lemma FirstImageStep(s: seq<Block>, i: nat)
    requires i < |s| && i <= FirstImage(s) && !IsImage(s[i].tag)
    ensures i + 1 <= FirstImage(s)
  {
  }

  /** The normalised text of an already ordered list up to, not including, its first image. */
  function TextPrefix(s: seq<Block>): string {
    JoinedText(s[..FirstImage(s)])
  }

  /** The text prefix of a list that starts with a text block is that block's
      normalised value followed by the text prefix of the rest. */
  lemma TextPrefixCons(s: seq<Block>)
    requires |s| > 0 && !IsImage(s[0].tag)
    ensures TextPrefix(s) == Normalize(s[0].value) + TextPrefix(s[1..])
  {
    var f := FirstImage(s);
    assert s[..f][1..] == s[1..][..f - 1];
  }

  /** A list that starts with an image block has an empty text prefix. */
  lemma TextPrefixImage(s: seq<Block>)
    requires |s| > 0 && IsImage(s[0].tag)
    ensures TextPrefix(s) == ""
  {
  }

  /** The string the fingerprint digests. */
  function Canonical(contents: seq<Block>): string {
    TextPrefix(SortByKey(contents, OrderOf))
  }

  function QuestionHashOf(contents: seq<Block>): Hash {
    Digest(Canonical(contents))
  }

  /** `generate_question_hash`: sort by order, then accumulate normalised text
      until the first image block. */
  method GenerateQuestionHash(contents: seq<Block>) returns (h: Hash)
    ensures h == Digest(TextPrefix(SortByKey(contents, OrderOf)))
  {
    var ordered := SortByKey(contents, OrderOf);
    var base := AccumulateTextPrefix(ordered);
    h := Digest(base);
  }

  /** The accumulation loop of `generate_question_hash` over the ordered blocks:
      append each block's normalised value, stop at the first image. */
  method AccumulateTextPrefix(ordered: seq<Block>) returns (base: string)
    ensures base == JoinedText(ordered[..FirstImage(ordered)])
  {
    base := "";
    var i := 0;
    JoinedTextStart(ordered);
    while i < |ordered|
      invariant i <= FirstImage(ordered)
      invariant base == JoinedText(ordered[..i])
    {
      if IsImage(ordered[i].tag) {
        FirstImageAt(ordered, i);
        break;
      }
      FirstImageStep(ordered, i);
      JoinedTextStep(ordered, i);
      base := base + Normalize(ordered[i].value);
      i := i + 1;
    }
  }

  /** Once an image block has been reached nothing after it contributes. */
  lemma TextPrefixStopsAtImage(a: seq<Block>, b: seq<Block>)
    requires exists i :: 0 <= i < |a| && IsImage(a[i].tag)
    ensures TextPrefix(a + b) == TextPrefix(a)
  {
    var f := FirstImage(a);
    assert FirstImage(a + b) == f by {
      FirstImageOfPrefix(a, b);
    }
    assert (a + b)[..f] == a[..f];
  }

  lemma {:induction false} FirstImageOfPrefix(a: seq<Block>, b: seq<Block>)
    requires exists i :: 0 <= i < |a| && IsImage(a[i].tag)
    ensures FirstImage(a + b) == FirstImage(a)
  {
    if !IsImage(a[0].tag) {
      assert (a + b)[1..] == a[1..] + b;
      var i :| 0 <= i < |a| && IsImage(a[i].tag);
      assert a[1..][i - 1] == a[i];
      FirstImageOfPrefix(a[1..], b);
    }
  }

  /** A block appended to the input whose order is at least that of some image
      block lands after the first image and never changes the fingerprint. */
  lemma TrailingBlockIgnored(contents: seq<Block>, b: Block)
    requires exists i :: 0 <= i < |contents| && IsImage(contents[i].tag) && contents[i].order <= b.order
    ensures QuestionHashOf(contents + [b]) == QuestionHashOf(contents)
  {
    var sorted := SortByKey(contents, OrderOf);
    assert SortByKey(contents + [b], OrderOf) == InsertByKey(sorted, b, OrderOf) by {
      assert (contents + [b])[..|contents|] == contents;
    }
    var p := InsertShape(sorted, b, OrderOf);
    ImageBeforeInsertionPoint(contents, sorted, b, p);
    TextPrefixInsertAfterImage(sorted, b, p);
  }

  lemma TextPrefixInsertAfterImage(s: seq<Block>, b: Block, p: nat)
    requires p <= |s|
    requires exists j :: 0 <= j < p && IsImage(s[..p][j].tag)
    ensures TextPrefix(s[..p] + [b] + s[p..]) == TextPrefix(s)
  {
    var a, c := s[..p], s[p..];
    TextPrefixStopsAtImage(a, [b] + c);
    TextPrefixStopsAtImage(a, c);
    SeqAssoc(a, [b], c);
    SeqSplit(s, p);
  }

  lemma ImageBeforeInsertionPoint(contents: seq<Block>, sorted: seq<Block>, b: Block, p: nat)
    requires multiset(sorted) == multiset(contents)
    requires p <= |sorted|
    requires forall i :: p <= i < |sorted| ==> sorted[i].order > b.order
    requires exists i :: 0 <= i < |contents| && IsImage(contents[i].tag) && contents[i].order <= b.order
    ensures exists j :: 0 <= j < p && IsImage(sorted[..p][j].tag)
  {
    var i :| 0 <= i < |contents| && IsImage(contents[i].tag) && contents[i].order <= b.order;
    assert contents[i] in multiset(sorted);
    var j :| 0 <= j < |sorted| && sorted[j] == contents[i];
    assert sorted[..p][j] == sorted[j];
  }

  /** No content, or an image among the lowest-order blocks, digests the empty string. */
  lemma EmptyCanonical(contents: seq<Block>)
    requires |contents| == 0 ||
      forall i :: 0 <= i < |contents| && (forall j :: 0 <= j < |contents| ==> contents[i].order <= contents[j].order)
        ==> IsImage(contents[i].tag)
    ensures QuestionHashOf(contents) == Digest("")
  {
    var sorted := SortByKey(contents, OrderOf);
    if |contents| > 0 {
      assert sorted[0] in multiset(contents);
      var i :| 0 <= i < |contents| && contents[i] == sorted[0];
      forall j | 0 <= j < |contents| ensures contents[i].order <= contents[j].order {
        assert contents[j] in multiset(sorted);
        var k :| 0 <= k < |sorted| && sorted[k] == contents[j];
        if k > 0 {
          assert OrderOf(sorted[0]) <= OrderOf(sorted[k]);
        }
      }
    }
  }

  /** With pairwise distinct orders, the arrangement of the input does not matter. */
  lemma PermutationInvariant(contents: seq<Block>, shuffled: seq<Block>)
    requires multiset(shuffled) == multiset(contents)
    requires KeysDistinct(contents, OrderOf)
    ensures QuestionHashOf(shuffled) == QuestionHashOf(contents)
  {
    SortPermutationInvariant(contents, shuffled, OrderOf);
  }

  /** Two text blocks listed in non-decreasing order whose values are already in
      normal form digest to the two values run together. */
  lemma TwoTextBlocks(a: Block, b: Block)
    requires !IsImage(a.tag) && !IsImage(b.tag) && a.order <= b.order
    requires LowerLetters(a.value) && LowerLetters(b.value)
    ensures QuestionHashOf([a, b]) == Digest(a.value + b.value)
  {
    calc {
      QuestionHashOf([a, b]);
      Digest(TextPrefix(SortByKey([a, b], OrderOf)));
      { assert SortedBy([a, b], OrderOf);
        SortOfSorted([a, b], OrderOf); }
      Digest(TextPrefix([a, b]));
      { TwoTextPrefix(a, b); }
      Digest(Normalize(a.value) + Normalize(b.value));
      { NormalizeOfLowerLetters(a.value);
        NormalizeOfLowerLetters(b.value); }
      Digest(a.value + b.value);
    }
  }

  lemma TwoTextPrefix(a: Block, b: Block)
    requires !IsImage(a.tag) && !IsImage(b.tag)
    ensures TextPrefix([a, b]) == Normalize(a.value) + Normalize(b.value)
  {
    TextPrefixCons([a, b]);
    assert [a, b][1..] == [b];
    TextPrefixCons([b]);
    assert [b][1..] == [];
    assert TextPrefix([b]) == Normalize(b.value) + "";
  }

  /** With a tie in `order` the stable sort keeps input order, and the fingerprint
      follows it: swapping two tied text blocks that start differently changes the
      digest. Distinct orders are what make the fingerprint order-independent. */
  lemma TiesFollowInputOrder(a: Block, b: Block)
    requires !IsImage(a.tag) && !IsImage(b.tag) && a.order == b.order
    requires LowerLetters(a.value) && LowerLetters(b.value)
    requires |a.value| > 0 && |b.value| > 0 && a.value[0] != b.value[0]
    ensures multiset([b, a]) == multiset([a, b])
    ensures QuestionHashOf([a, b]) != QuestionHashOf([b, a])
  {
    TwoTextBlocks(a, b);
    TwoTextBlocks(b, a);
    SwapChangesText(a.value, b.value);
  }

  lemma SwapChangesText(x: string, y: string)
    requires |x| > 0 && |y| > 0 && x[0] != y[0]
    ensures x + y != y + x
  {
    assert (x + y)[0] == x[0] && (y + x)[0] == y[0];
  }

  /** No separator is inserted: the same text split differently across two blocks
      gives the same fingerprint. */
  lemma NoSeparator(x: string, y: string, z: string, b1: Block, b2: Block)
    requires LowerLetters(x) && LowerLetters(y) && LowerLetters(z)
    requires !IsImage(b1.tag) && !IsImage(b2.tag) && b1.order < b2.order
    ensures QuestionHashOf([b1.(value := x + y), b2.(value := z)])
         == QuestionHashOf([b1.(value := x), b2.(value := y + z)])
  {
    calc {
      QuestionHashOf([b1.(value := x + y), b2.(value := z)]);
      { LowerLettersConcat(x, y);
        TwoTextBlocks(b1.(value := x + y), b2.(value := z)); }
      Digest(x + y + z);
      { assert x + y + z == x + (y + z); }
      Digest(x + (y + z));
      { LowerLettersConcat(y, z);
        TwoTextBlocks(b1.(value := x), b2.(value := y + z)); }
      QuestionHashOf([b1.(value := x), b2.(value := y + z)]);
    }
  }

  /** What the fingerprint sees of a block: whether it is an image, the
      normalised text of a non-image block, and its order. Labels, ids, raw
      spelling and the value of an image block are invisible. */
  datatype View = View(image: bool, text: string, order: int)

  function ViewOf(b: Block): View {
    View(IsImage(b.tag), if IsImage(b.tag) then "" else Normalize(b.value), b.order)
  }

  function ViewOrder(v: View): int {
    v.order
  }

  lemma {:induction false} JoinedTextByViews(s: seq<Block>, t: seq<Block>)
    requires MapSeq(s, ViewOf) == MapSeq(t, ViewOf)
    requires forall i :: 0 <= i < |s| ==> !IsImage(s[i].tag)
    ensures JoinedText(s) == JoinedText(t)
  {
    if |s| > 0 {
      assert ViewOf(s[0]) == ViewOf(t[0]);
      assert !IsImage(s[0].tag);
      MapSeqSlice(s, 1, ViewOf);
      MapSeqSlice(t, 1, ViewOf);
      JoinedTextByViews(s[1..], t[1..]);
    }
  }

  lemma {:induction false} FirstImageByViews(s: seq<Block>, t: seq<Block>)
    requires MapSeq(s, ViewOf) == MapSeq(t, ViewOf)
    ensures FirstImage(s) == FirstImage(t)
  {
    if |s| > 0 {
      assert ViewOf(s[0]) == ViewOf(t[0]);
      MapSeqSlice(s, 1, ViewOf);
      MapSeqSlice(t, 1, ViewOf);
      FirstImageByViews(s[1..], t[1..]);
    }
  }

  lemma TextPrefixByViews(s: seq<Block>, t: seq<Block>)
    requires MapSeq(s, ViewOf) == MapSeq(t, ViewOf)
    ensures TextPrefix(s) == TextPrefix(t)
  {
    FirstImageByViews(s, t);
    var f := FirstImage(s);
    MapSeqSlice(s, f, ViewOf);
    MapSeqSlice(t, f, ViewOf);
    JoinedTextByViews(s[..f], t[..f]);
  }

  /** The fingerprint is a function of the blocks' views alone. */
  lemma HashByViews(contents: seq<Block>, other: seq<Block>)
    requires MapSeq(contents, ViewOf) == MapSeq(other, ViewOf)
    ensures QuestionHashOf(contents) == QuestionHashOf(other)
  {
    SortMapCommute(contents, OrderOf, ViewOf, ViewOrder);
    SortMapCommute(other, OrderOf, ViewOf, ViewOrder);
    TextPrefixByViews(SortByKey(contents, OrderOf), SortByKey(other, OrderOf));
  }

  /** Surrounding whitespace and letter case of any block's value do not change
      the fingerprint. */
  lemma HashIgnoresPaddingAndCase(contents: seq<Block>, k: nat, pre: string, v: string, post: string)
    requires k < |contents|
    requires AllSpace(pre) && AllSpace(post)
    requires Lower(v) == Lower(contents[k].value)
    ensures QuestionHashOf(contents[k := contents[k].(value := pre + v + post)]) == QuestionHashOf(contents)
  {
    var other := contents[k := contents[k].(value := pre + v + post)];
    NormalizeIgnoresPadding(pre, v, post);
    NormalizeIgnoresCase(v, contents[k].value);
    MapSeqUpdate(contents, k, contents[k].(value := pre + v + post), ViewOf);
    HashByViews(other, contents);
  }
}

=== FILE: legacy_create.dfy ===
/** The two legacy create routines. The service checks the choices' material,
    takes the image paths the storage returned, and writes the question with its
    statement and solution (each with its paths, when there are any) and then one
    row per choice; the crud layer writes the same rows without any image data.
    Both commit once: a fingerprint that another question already has, or any
    other store failure, rolls everything back and answers 500. */
module LegacyCreate {
  import opened Common
  import opened QuestionHash
  import opened LegacyStatement
  import opened LegacyQuestion
  import QuestionSchemas
  import Errors

  /** The `statement` column: the request's statement, with `image_paths` only when there are paths. */
  datatype StoredStatement = StoredStatement(statement: Statement, imagePaths: Option<seq<string>>)

  /** The `solution` column, likewise. */
  datatype StoredSolution = StoredSolution(explanation: string, imagePaths: Option<seq<string>>)

  datatype QuestionRow = QuestionRow(
    number: Option<int>, hash: Hash, statement: StoredStatement, solution: StoredSolution,
    topicId: int, assessmentId: int, questionType: QuestionSchemas.QuestionType)

  datatype ChoiceRow = ChoiceRow(
    questionId: Id, letter: string, content: Option<string>, isCorrect: bool, imagePath: Option<string>)

  /** The legacy `questions` and `choices` tables. */
  datatype LegacyDb = LegacyDb(questions: map<Id, QuestionRow>, choices: map<Id, ChoiceRow>)

  /** The unique `question_hash` column already holds `h`. */
  predicate HashTaken(db: LegacyDb, h: Hash) {
    exists q :: q in db.questions && db.questions[q].hash == h
  }

  /** The paths the storage returned for the statement, choice and solution uploads. */
  datatype Uploaded = Uploaded(statement: seq<string>, choices: seq<string>, solution: seq<string>)

  /** `paths` when the list is non-empty, nothing otherwise. */
  function PathsIfAny(paths: seq<string>): (r: Option<seq<string>>)
    ensures r.Some? <==> |paths| > 0
    ensures r.Some? ==> r.value == paths
  {
    if |paths| > 0 then Some(paths) else None
  }

  /** `choice_paths[i] if choice_paths else None`. */
  function ChoicePath(paths: seq<string>, i: nat): (r: Option<string>)
    requires |paths| == 0 || i < |paths|
    ensures r.Some? <==> |paths| > 0
    ensures r.Some? ==> r.value == paths[i]
  {
    if |paths| > 0 then Some(paths[i]) else None
  }

  /** The choice rows, in request order, all pointing at question `qid`. */
  function ChoiceRows(qid: Id, cs: seq<LegacyChoice>, paths: seq<string>): (rows: seq<ChoiceRow>)
    requires |paths| == 0 || |paths| >= |cs|
    ensures |rows| == |cs|
    ensures forall k :: 0 <= k < |cs| ==>
      rows[k] == ChoiceRow(qid, cs[k].letter, cs[k].content, cs[k].isCorrect, ChoicePath(paths, k))
  {
    seq(|cs|, k requires 0 <= k < |cs| =>
      ChoiceRow(qid, cs[k].letter, cs[k].content, cs[k].isCorrect, ChoicePath(paths, k)))
  }

  /** Keys the store hands out: a new question key and one new key per choice. */
  predicate FreshKeys(db: LegacyDb, qid: Id, cids: seq<Id>, n: nat) {
    qid !in db.questions && |cids| == n && Distinct(cids) &&
    forall k :: 0 <= k < |cids| ==> cids[k] !in db.choices
  }

  /** The table contents after adding the question row and the choice rows. */
  function Insert(db: LegacyDb, qid: Id, row: QuestionRow, cids: seq<Id>, rows: seq<ChoiceRow>): LegacyDb
    requires |cids| == |rows| && Distinct(cids)
  {
    db.(questions := db.questions[qid := row],
        choices := db.choices + map k | 0 <= k < |cids| :: cids[k] := rows[k])
  }

  datatype Reply = Created(question: Id) | Refused(failure: HttpFailure)

  /** What a create call leaves behind: the tables and the answer. */
  datatype LegacyOutcome = LegacyOutcome(db: LegacyDb, reply: Reply)

  /** `db.commit()` inside `try`: a taken fingerprint or any other store failure
      rolls back and answers 500. */
  function Commit(db: LegacyDb, qid: Id, row: QuestionRow, cids: seq<Id>, rows: seq<ChoiceRow>,
                  fault: Option<Errors.StoreFailure>): (o: LegacyOutcome)
    requires |cids| == |rows| && Distinct(cids)
    ensures o.reply.Created? <==> !HashTaken(db, row.hash) && fault.None?
    ensures o.reply.Created? ==> o == LegacyOutcome(Insert(db, qid, row, cids, rows), Created(qid))
    ensures o.reply.Refused? ==> o == LegacyOutcome(db, Refused(HttpFailure(500, CreateFailed)))
  {
    if HashTaken(db, row.hash) || fault.Some? then LegacyOutcome(db, Refused(HttpFailure(500, CreateFailed)))
    else LegacyOutcome(Insert(db, qid, row, cids, rows), Created(qid))
  }

  /** The request's question and choices were added as asked, under the new keys,
      and nothing that was there before changed. */
  predicate CreatedAsRequested(db: LegacyDb, db': LegacyDb, x: QuestionInput, qid: Id, cids: seq<Id>)
    requires |cids| == |x.choices|
  {
    qid in db'.questions &&
    db'.questions == db.questions[qid := db'.questions[qid]] &&
    db'.questions[qid].hash == StatementHash(x.statement) &&
    db'.questions[qid].statement.statement == x.statement &&
    db'.questions[qid].solution.explanation == x.solution.explanation &&
    db'.questions[qid].number == x.questionNumber &&
    db'.choices.Keys == db.choices.Keys + SetOf(cids) &&
    (forall c :: c in db.choices ==> db'.choices[c] == db.choices[c]) &&
    forall k :: 0 <= k < |cids| ==>
      db'.choices[cids[k]].questionId == qid &&
      db'.choices[cids[k]].letter == x.choices[k].letter &&
      db'.choices[cids[k]].content == x.choices[k].content &&
      db'.choices[cids[k]].isCorrect == x.choices[k].isCorrect
  }

  lemma InsertAsRequested(db: LegacyDb, x: QuestionInput, qid: Id, cids: seq<Id>, row: QuestionRow, rows: seq<ChoiceRow>)
    requires FreshKeys(db, qid, cids, |x.choices|) && |rows| == |cids|
    requires row.hash == StatementHash(x.statement) && row.statement.statement == x.statement
    requires row.solution.explanation == x.solution.explanation && row.number == x.questionNumber
    requires forall k :: 0 <= k < |rows| ==>
      rows[k].questionId == qid && rows[k].letter == x.choices[k].letter &&
      rows[k].content == x.choices[k].content && rows[k].isCorrect == x.choices[k].isCorrect
    ensures CreatedAsRequested(db, Insert(db, qid, row, cids, rows), x, qid, cids)
  {
    InsertedKeys(db, qid, row, cids, rows);
    InsertedRows(db, qid, row, cids, rows);
    InsertKeepsOld(db, qid, row, cids, rows);
  }

  lemma InsertedKeys(db: LegacyDb, qid: Id, row: QuestionRow, cids: seq<Id>, rows: seq<ChoiceRow>)
    requires |cids| == |rows| && Distinct(cids)
    ensures Insert(db, qid, row, cids, rows).choices.Keys == db.choices.Keys + SetOf(cids)
  {
    var added := map k | 0 <= k < |cids| :: cids[k] := rows[k];
    forall c | c in SetOf(cids) ensures c in added {
      var k :| 0 <= k < |cids| && cids[k] == c;
    }
    assert added.Keys == SetOf(cids);
  }

  lemma InsertKeepsOld(db: LegacyDb, qid: Id, row: QuestionRow, cids: seq<Id>, rows: seq<ChoiceRow>)
    requires |cids| == |rows| && Distinct(cids)
    requires forall k :: 0 <= k < |cids| ==> cids[k] !in db.choices
    ensures forall c :: c in db.choices ==> Insert(db, qid, row, cids, rows).choices[c] == db.choices[c]
  {
    var added := map k | 0 <= k < |cids| :: cids[k] := rows[k];
    forall c | c in db.choices ensures c !in added {
    }
  }

  lemma InsertedRows(db: LegacyDb, qid: Id, row: QuestionRow, cids: seq<Id>, rows: seq<ChoiceRow>)
    requires |cids| == |rows| && Distinct(cids)
    ensures forall k :: 0 <= k < |cids| ==> Insert(db, qid, row, cids, rows).choices[cids[k]] == rows[k]
  {
    var added := map k | 0 <= k < |cids| :: cids[k] := rows[k];
    forall k | 0 <= k < |cids| ensures cids[k] in added && added[cids[k]] == rows[k] {
    }
  }

  /** The question row the service writes. */
  function ServiceRow(x: QuestionInput, uploaded: Uploaded): QuestionRow {
    QuestionRow(x.questionNumber, StatementHash(x.statement),
      StoredStatement(x.statement, PathsIfAny(uploaded.statement)),
      StoredSolution(x.solution.explanation, PathsIfAny(uploaded.solution)),
      x.topicId, x.assessmentId, x.questionType)
  }

  /** The rows of one request, added in a single commit: the question row with
      the statement and solution paths, and one row per choice carrying the
      path at its own index. */
  function WriteQuestion(db: LegacyDb, x: QuestionInput, uploaded: Uploaded, qid: Id, cids: seq<Id>,
                         fault: Option<Errors.StoreFailure>): (o: LegacyOutcome)
    requires FreshKeys(db, qid, cids, |x.choices|)
    requires |uploaded.choices| == 0 || |uploaded.choices| >= |x.choices|
    ensures o.reply.Created? <==> !HashTaken(db, StatementHash(x.statement)) && fault.None?
    ensures o.reply.Refused? ==> o == LegacyOutcome(db, Refused(HttpFailure(500, CreateFailed)))
    ensures o.reply.Created? ==> o.reply.question == qid && CreatedAsRequested(db, o.db, x, qid, cids)
    ensures o.reply.Created? ==>
      o.db.questions[qid].statement.imagePaths == PathsIfAny(uploaded.statement) &&
      o.db.questions[qid].solution.imagePaths == PathsIfAny(uploaded.solution) &&
      forall k :: 0 <= k < |cids| ==> o.db.choices[cids[k]].imagePath == ChoicePath(uploaded.choices, k)
  {
    var row := ServiceRow(x, uploaded);
    var rows := ChoiceRows(qid, x.choices, uploaded.choices);
    var o := Commit(db, qid, row, cids, rows, fault);
    if o.reply.Created? then
      InsertAsRequested(db, x, qid, cids, row, rows);
      InsertedRows(db, qid, row, cids, rows);
      o
    else o
  }

  /** `QuestionService.create_question`, given what the storage returned for the
      three upload folders and the keys the store hands out: the material check
      answers 400 before anything is written. */
  function ServiceCreate(db: LegacyDb, x: QuestionInput, images: Option<seq<Upload>>, uploaded: Uploaded,
                         qid: Id, cids: seq<Id>, fault: Option<Errors.StoreFailure>): (o: LegacyOutcome)
    requires FreshKeys(db, qid, cids, |x.choices|)
    requires |uploaded.choices| == 0 || |uploaded.choices| >= |x.choices|
    ensures !MaterialComplete(x.choices, images) ==>
      o.db == db && o.reply.Refused? && o.reply.failure.status == 400
    ensures o.reply.Created? <==>
      MaterialComplete(x.choices, images) && !HashTaken(db, StatementHash(x.statement)) && fault.None?
    ensures o.reply.Refused? ==> o.db == db
    ensures o.reply.Created? ==> o.reply.question == qid && CreatedAsRequested(db, o.db, x, qid, cids)
  {
    match CheckMaterial(x.choices, images)
    case Some(failure) => LegacyOutcome(db, Refused(failure))
    case None => WriteQuestion(db, x, uploaded, qid, cids, fault)
  }

  /** `crud.question.create_question`: the same rows, without any image data. */
  function CrudCreate(db: LegacyDb, x: QuestionInput, qid: Id, cids: seq<Id>,
                      fault: Option<Errors.StoreFailure>): (o: LegacyOutcome)
    requires FreshKeys(db, qid, cids, |x.choices|)
    ensures o.reply.Created? <==> !HashTaken(db, StatementHash(x.statement)) && fault.None?
    ensures o.reply.Refused? ==> o == LegacyOutcome(db, Refused(HttpFailure(500, CreateFailed)))
    ensures o.reply.Created? ==> o.reply.question == qid && CreatedAsRequested(db, o.db, x, qid, cids)
    ensures o.reply.Created? ==>
      o.db.questions[qid].statement.imagePaths.None? &&
      forall k :: 0 <= k < |cids| ==> o.db.choices[cids[k]].imagePath.None?
  {
    WriteQuestion(db, x, Uploaded([], [], []), qid, cids, fault)
  }

  /** Once the choices' material is complete, the service and the crud layer
      succeed or fail together and store the same fingerprint: images never
      enter it. */
  lemma ServiceMatchesCrud(db: LegacyDb, x: QuestionInput, images: Option<seq<Upload>>, uploaded: Uploaded,
                           qid: Id, cids: seq<Id>, fault: Option<Errors.StoreFailure>)
    requires FreshKeys(db, qid, cids, |x.choices|)
    requires |uploaded.choices| == 0 || |uploaded.choices| >= |x.choices|
    requires MaterialComplete(x.choices, images)
    ensures var s := ServiceCreate(db, x, images, uploaded, qid, cids, fault);
      var c := CrudCreate(db, x, qid, cids, fault);
      s.reply == c.reply &&
      (s.reply.Created? ==> s.db.questions[qid].hash == c.db.questions[qid].hash)
  {
  }

  /** A second request with a statement of the same fingerprint, after the first
      was created, is refused with 500 and changes nothing. */
  lemma SecondCreateRefused(db: LegacyDb, x: QuestionInput, y: QuestionInput, images: Option<seq<Upload>>,
                            uploaded: Uploaded, qid: Id, cids: seq<Id>, fault: Option<Errors.StoreFailure>,
                            qid2: Id, cids2: seq<Id>, fault2: Option<Errors.StoreFailure>)
    requires FreshKeys(db, qid, cids, |x.choices|)
    requires |uploaded.choices| == 0 || |uploaded.choices| >= |x.choices|
    requires ServiceCreate(db, x, images, uploaded, qid, cids, fault).reply.Created?
    requires StatementHash(y.statement) == StatementHash(x.statement)
    requires FreshKeys(ServiceCreate(db, x, images, uploaded, qid, cids, fault).db, qid2, cids2, |y.choices|)
    ensures var db' := ServiceCreate(db, x, images, uploaded, qid, cids, fault).db;
      CrudCreate(db', y, qid2, cids2, fault2) == LegacyOutcome(db', Refused(HttpFailure(500, CreateFailed)))
  {
    var db' := ServiceCreate(db, x, images, uploaded, qid, cids, fault).db;
    assert db'.questions[qid].hash == StatementHash(y.statement);
  }
}

=== FILE: legacy_question.dfy ===
/** The legacy question-create path: the `QuestionCreate` request and its
    validators, the service's check that every choice has text or an image, the
    storage folders images go to, and the two create routines (the service's and
    the crud layer's) that write a question and its choices in one transaction. */
module LegacyQuestion {
  import opened Common
  import opened Text
  import opened QuestionHash
  import opened LegacyStatement
  import opened SubjectCodes
  import QuestionSchemas
  import Errors

  /** `ChoiceCreate`: a label, optional text and the correctness flag. */
  datatype LegacyChoice = LegacyChoice(letter: string, content: Option<string>, isCorrect: bool)

  /** `SolutionCreate`. */
  datatype Solution = Solution(explanation: string)

  /** The validated `QuestionCreate`. */
  datatype QuestionInput = QuestionInput(
    topicId: int, assessmentId: int, questionNumber: Option<int>,
    subject: SubjectCode, solution: Solution, statement: Statement,
    questionType: QuestionSchemas.QuestionType, choices: seq<LegacyChoice>)

  /** A `QuestionCreate` body as sent: `choices` may be left out (`None`), and
      pydantic then fills in the `default_factory=list` default without
      validating it. */
  datatype QuestionRequest = QuestionRequest(
    topicId: int, assessmentId: int, questionNumber: Option<int>,
    subject: SubjectCode, solution: Solution, statement: Statement,
    questionType: QuestionSchemas.QuestionType, choices: Option<seq<LegacyChoice>>)

  /** The model a request becomes: an omitted `choices` is empty. */
  function Model(req: QuestionRequest): QuestionInput {
    QuestionInput(req.topicId, req.assessmentId, req.questionNumber, req.subject, req.solution,
      req.statement, req.questionType, req.choices.GetOr([]))
  }

  // ----- validators of `QuestionCreate` -----

  /** The statement variant each question type demands: direct and completion
      questions a plain statement, true/false and ordering questions one with
      items, matching questions a matching statement. */
  function ExpectedVariant(t: QuestionSchemas.QuestionType): (v: Variant)
    ensures v == WithItemsVariant <==> t == QuestionSchemas.TrueFalse || t == QuestionSchemas.Ordering
    ensures v == MatchingVariant <==> t == QuestionSchemas.Matching
  {
    match t
    case Direct | Completion => WithoutItemsVariant
    case TrueFalse | Ordering => WithItemsVariant
    case Matching => MatchingVariant
  }

  /** Every statement variant is the expected one of some question type, so no
      variant is unusable. */
  lemma EveryVariantUsable(v: Variant)
    ensures exists t :: ExpectedVariant(t) == v
  {
    match v
    case WithoutItemsVariant => assert ExpectedVariant(QuestionSchemas.Direct) == v;
    case WithItemsVariant => assert ExpectedVariant(QuestionSchemas.TrueFalse) == v;
    case MatchingVariant => assert ExpectedVariant(QuestionSchemas.Matching) == v;
  }

  function CorrectFlags(cs: seq<LegacyChoice>): (r: seq<bool>)
    ensures |r| == |cs| && forall k :: 0 <= k < |cs| ==> r[k] == cs[k].isCorrect
  {
    MapSeq(cs, (c: LegacyChoice) => c.isCorrect)
  }

  /** Every choice has text. */
  predicate AllTexted(cs: seq<LegacyChoice>) {
    forall k :: 0 <= k < |cs| ==> cs[k].content.Some?
  }

  /** The normalised texts of the choices before the first one without text. */
  function KnownTexts(cs: seq<LegacyChoice>): (r: seq<string>)
    ensures |r| <= |cs|
    ensures forall k :: 0 <= k < |r| ==> cs[k].content.Some? && r[k] == Normalize(cs[k].content.value)
    ensures AllTexted(cs) ==> |r| == |cs|
  {
    if |cs| == 0 || cs[0].content.None? then []
    else
      var rest := KnownTexts(cs[1..]);
      assert cs == [cs[0]] + cs[1..];
      PrependText(cs[0], cs[1..], rest);
      [Normalize(cs[0].content.value)] + rest
  }

  /** The recursive case of `KnownTexts`: a choice with text in front adds its
      normalised text in front. */
  lemma PrependText(c: LegacyChoice, tail: seq<LegacyChoice>, rest: seq<string>)
    requires c.content.Some? && |rest| <= |tail|
    requires forall k :: 0 <= k < |rest| ==> tail[k].content.Some? && rest[k] == Normalize(tail[k].content.value)
    requires AllTexted(tail) ==> |rest| == |tail|
    ensures var cs, r := [c] + tail, [Normalize(c.content.value)] + rest;
      |r| <= |cs| &&
      (forall k :: 0 <= k < |r| ==> cs[k].content.Some? && r[k] == Normalize(cs[k].content.value)) &&
      (AllTexted(cs) ==> |r| == |cs|)
  {
    var cs, r := [c] + tail, [Normalize(c.content.value)] + rest;
    forall k | 0 < k < |r| ensures cs[k].content.Some? && r[k] == Normalize(cs[k].content.value) {
      assert r[k] == rest[k - 1] && cs[k] == tail[k - 1];
    }
    if AllTexted(cs) {
      forall k | 0 <= k < |tail| ensures tail[k].content.Some? {
        assert tail[k] == cs[k + 1];
      }
    }
  }

  /** A run of values that repeats nothing and avoids `seen`. */
  predicate FreshDistinct(xs: seq<string>, seen: set<string>) {
    Distinct(xs) && forall i :: 0 <= i < |xs| ==> xs[i] !in seen
  }

  lemma FreshDistinctCons(v: string, xs: seq<string>, seen: set<string>)
    requires v !in seen
    ensures FreshDistinct([v] + xs, seen) <==> FreshDistinct(xs, seen + {v})
  {
    var ys := [v] + xs;
    assert forall i :: 1 <= i < |ys| ==> ys[i] == xs[i - 1];
    if FreshDistinct(ys, seen) {
      forall i, j | 0 <= i < j < |xs| ensures xs[i] != xs[j] {
        assert ys[i + 1] != ys[j + 1];
      }
      forall i | 0 <= i < |xs| ensures xs[i] !in seen + {v} {
        assert ys[0] != ys[i + 1];
      }
    }
    if FreshDistinct(xs, seen + {v}) {
      forall i, j | 0 <= i < j < |ys| ensures ys[i] != ys[j] {
        if i > 0 {
          assert ys[i] == xs[i - 1];
        }
      }
    }
  }

  /** How the walk of `validate_unique_responses` ends. */
  datatype Scan =
    | AllDistinct
    | Repeat
    | NoText  // `None.strip()` raises AttributeError, which pydantic does not catch

  /** `validate_unique_responses`: walks the choices remembering the normalised
      texts seen so far; it stops at the first repeat, or fails at the first
      choice without text. */
  function ScanResponses(cs: seq<LegacyChoice>, seen: set<string>): (r: Scan)
    ensures r == Repeat <==> !FreshDistinct(KnownTexts(cs), seen)
    ensures r == AllDistinct <==> FreshDistinct(KnownTexts(cs), seen) && AllTexted(cs)
  {
    if |cs| == 0 then AllDistinct
    else if cs[0].content.None? then NoText
    else
      var v := Normalize(cs[0].content.value);
      if v in seen then Repeat
      else
        ScanStep(cs);
        FreshDistinctCons(v, KnownTexts(cs[1..]), seen);
        ScanResponses(cs[1..], seen + {v})
  }

  lemma ScanStep(cs: seq<LegacyChoice>)
    requires |cs| > 0 && cs[0].content.Some?
    ensures KnownTexts(cs) == [Normalize(cs[0].content.value)] + KnownTexts(cs[1..])
    ensures AllTexted(cs) <==> AllTexted(cs[1..])
  {
    assert forall k :: 0 <= k < |cs| - 1 ==> cs[1..][k] == cs[k + 1];
  }

  /** The errors a `choices` check reports. */
  datatype Violation =
    | QuestionNumberNotPositive
    | LabelTooLong(index: nat)
    | Shape(shape: ShapeViolation)
    | ChoiceCountOutOfRange
    | NotSingleCorrect
    | RepeatedResponse
    | StatementTypeMismatch

  /** One error per choice, from index `offset` on, whose label is longer than one character. */
  function LabelErrors(cs: seq<LegacyChoice>, offset: nat): (r: seq<Violation>)
    ensures forall e :: e in r ==> e.LabelTooLong?
    ensures forall i: nat :: LabelTooLong(i) in r <==> offset <= i < offset + |cs| && |cs[i - offset].letter| > 1
  {
    if |cs| == 0 then []
    else
      var rest := LabelErrors(cs[1..], offset + 1);
      assert forall k :: 0 <= k < |cs| - 1 ==> cs[1..][k] == cs[k + 1];
      (if |cs[0].letter| > 1 then [LabelTooLong(offset)] else []) + rest
  }

  /** The result of validating the `choices` field. */
  datatype ChoicesCheck = ChoicesOk | ChoicesRejected(errors: seq<Violation>) | ChoicesCrash

  /** Every label has at most one character. */
  predicate LabelsFit(cs: seq<LegacyChoice>) {
    forall k :: 0 <= k < |cs| ==> |cs[k].letter| <= 1
  }

  /** A sent `choices` list the validators accept, stated rule by rule. */
  predicate ChoicesValid(cs: seq<LegacyChoice>) {
    4 <= |cs| <= 5 && LabelsFit(cs) && SingleTrue(CorrectFlags(cs)) && AllTexted(cs) && Distinct(KnownTexts(cs))
  }

  lemma NoLabelErrors(cs: seq<LegacyChoice>)
    ensures |LabelErrors(cs, 0)| == 0 <==> LabelsFit(cs)
  {
    var itemErrors := LabelErrors(cs, 0);
    if |itemErrors| > 0 {
      assert itemErrors[0] in itemErrors;
    }
    forall k | 0 <= k < |cs| && |cs[k].letter| > 1 ensures LabelTooLong(k) in itemErrors {
    }
  }

  /** A sent `choices` field. The list validator counts items as it validates
      them and stops with a length error alone once a sixth item arrives,
      dropping the label errors seen so far; the minimum length is checked only
      once every item is valid; then `validate_single_correct` and
      `validate_unique_responses` run, in that order. */
  function CheckLegacyChoices(cs: seq<LegacyChoice>): (r: ChoicesCheck)
    ensures r == ChoicesOk <==> ChoicesValid(cs)
    ensures r == ChoicesCrash <==>
      4 <= |cs| <= 5 && LabelsFit(cs) && SingleTrue(CorrectFlags(cs)) && !AllTexted(cs) && Distinct(KnownTexts(cs))
    ensures r.ChoicesRejected? ==> |r.errors| > 0
    ensures r == ChoicesRejected([ChoiceCountOutOfRange]) <==> |cs| > 5 || (|cs| < 4 && LabelsFit(cs))
    ensures |cs| <= 5 && !LabelsFit(cs) ==> r == ChoicesRejected(LabelErrors(cs, 0))
    ensures r.ChoicesRejected? && ChoiceCountOutOfRange in r.errors ==> r.errors == [ChoiceCountOutOfRange]
    ensures r.ChoicesRejected? ==> StatementTypeMismatch !in r.errors
  {
    var itemErrors := LabelErrors(cs, 0);
    NoLabelErrors(cs);
    CountOneIff(CorrectFlags(cs));
    if |cs| > 5 then ChoicesRejected([ChoiceCountOutOfRange])
    else if |itemErrors| > 0 then
      assert itemErrors[0] in itemErrors;
      ChoicesRejected(itemErrors)
    else if |cs| < 4 then ChoicesRejected([ChoiceCountOutOfRange])
    else if CountTrue(CorrectFlags(cs)) != 1 then ChoicesRejected([NotSingleCorrect])
    else
      match ScanResponses(cs, {})
      case AllDistinct => ChoicesOk
      case Repeat => ChoicesRejected([RepeatedResponse])
      case NoText => ChoicesCrash
  }

  /** How validating a whole request ends. */
  datatype Validation = Valid | Invalid(errors: seq<Violation>) | Crashed

  /** A request the create path accepts, stated rule by rule: an omitted
      `choices` is not checked at all. */
  predicate RequestValid(req: QuestionRequest) {
    FieldsValid(Model(req)) &&
    (req.choices.None? || ChoicesValid(req.choices.value)) &&
    VariantOf(req.statement) == ExpectedVariant(req.questionType)
  }

  /** The question number, if given, is positive, and the statement is well shaped. */
  predicate FieldsValid(x: QuestionInput) {
    (x.questionNumber.None? || x.questionNumber.value > 0) && WellShaped(x.statement)
  }

  /** The errors of the fields before `choices`: the question number, then the statement. */
  function FieldErrors(x: QuestionInput): (r: seq<Violation>)
    ensures |r| == 0 <==> FieldsValid(x)
    ensures StatementTypeMismatch !in r
  {
    var numberErrors :=
      if x.questionNumber.Some? && x.questionNumber.value <= 0 then [QuestionNumberNotPositive] else [];
    var shapeErrors := MapSeq(ShapeErrors(x.statement), (v: ShapeViolation) => Shape(v));
    numberErrors + shapeErrors
  }

  /** How the `choices` field of a request fares: an omitted one passes unchecked. */
  function CheckRequestChoices(req: QuestionRequest): ChoicesCheck {
    if req.choices.None? then ChoicesOk else CheckLegacyChoices(req.choices.value)
  }

  /** `QuestionCreate` validation: the field errors in field order (question
      number, statement, choices); an exception in a `choices` validator escapes
      at once; the statement/type consistency check runs only when every field is
      valid. */
  function ValidateQuestion(req: QuestionRequest): (v: Validation)
    ensures v == Valid <==> RequestValid(req)
    ensures v == Crashed <==> req.choices.Some? && CheckLegacyChoices(req.choices.value) == ChoicesCrash
    ensures v.Invalid? ==> |v.errors| > 0
    ensures v.Invalid? && StatementTypeMismatch in v.errors ==>
      v.errors == [StatementTypeMismatch] && FieldsValid(Model(req)) &&
      (req.choices.None? || ChoicesValid(req.choices.value))
    ensures var consistent := VariantOf(req.statement) == ExpectedVariant(req.questionType);
      FieldsValid(Model(req)) && (req.choices.None? || ChoicesValid(req.choices.value)) && !consistent ==>
        v == Invalid([StatementTypeMismatch])
  {
    var fieldErrors := FieldErrors(Model(req));
    match CheckRequestChoices(req)
    case ChoicesCrash => Crashed
    case ChoicesRejected(errors) => Invalid(fieldErrors + errors)
    case ChoicesOk =>
      if |fieldErrors| > 0 then Invalid(fieldErrors)
      else if VariantOf(req.statement) != ExpectedVariant(req.questionType) then Invalid([StatementTypeMismatch])
      else Valid
  }

  /** The default is not validated: a request that leaves `choices` out is
      accepted with no choices at all, while one sending an empty list is
      refused for its length. */
  lemma OmittedChoicesAccepted(req: QuestionRequest)
    requires req.choices.None? && FieldsValid(Model(req))
    requires VariantOf(req.statement) == ExpectedVariant(req.questionType)
    ensures ValidateQuestion(req) == Valid && Model(req).choices == []
    ensures ValidateQuestion(req.(choices := Some([]))).Invalid?
  {
    assert CheckLegacyChoices([]) == ChoicesRejected([ChoiceCountOutOfRange]);
  }

  /** Two texts that agree after stripping and lower-casing make the request invalid. */
  lemma PaddedTwinRejected(req: QuestionRequest, i: nat, j: nat)
    requires req.choices.Some? && i < j < |req.choices.value|
    requires req.choices.value[i].content.Some? && req.choices.value[j].content.Some?
    requires Normalize(req.choices.value[i].content.value) == Normalize(req.choices.value[j].content.value)
    ensures ValidateQuestion(req) != Valid
  {
    var cs := req.choices.value;
    var t := KnownTexts(cs);
    if AllTexted(cs) {
      assert t[i] == t[j];
    }
  }

  // ----- the service's choice material check -----

  /** An uploaded file: its size in bytes, or no file in that slot. */
  type Upload = Option<nat>

  /** `choice.content and choice.content.strip()` is truthy. */
  predicate HasText(c: LegacyChoice) {
    c.content.Some? && Strip(c.content.value) != ""
  }

  /** `choice_images[i] is not None and choice_images[i].size > 0`. */
  predicate HasImage(u: Upload) {
    u.Some? && u.value > 0
  }

  datatype Reason =
    | ImageCountMismatch
    | NeedsTextOrImage(letter: string)
    | NeedsText(letter: string)
    | CreateFailed

  /** An `HTTPException`. */
  datatype HttpFailure = HttpFailure(status: int, reason: Reason)

  /** The index of the first choice from `from` on that has neither text nor a usable image. */
  function FirstUnsupported(cs: seq<LegacyChoice>, images: seq<Upload>, from: nat): (r: Option<nat>)
    requires |images| == |cs| && from <= |cs|
    ensures r.None? <==> forall k :: from <= k < |cs| ==> HasText(cs[k]) || HasImage(images[k])
    ensures r.Some? ==> from <= r.value < |cs| && !HasText(cs[r.value]) && !HasImage(images[r.value])
    ensures r.Some? ==> forall k :: from <= k < r.value ==> HasText(cs[k]) || HasImage(images[k])
    decreases |cs| - from
  {
    if from == |cs| then None
    else if !HasText(cs[from]) && !HasImage(images[from]) then Some(from)
    else FirstUnsupported(cs, images, from + 1)
  }

  /** The index of the first choice from `from` on without text. */
  function FirstTextless(cs: seq<LegacyChoice>, from: nat): (r: Option<nat>)
    requires from <= |cs|
    ensures r.None? <==> forall k :: from <= k < |cs| ==> HasText(cs[k])
    ensures r.Some? ==> from <= r.value < |cs| && !HasText(cs[r.value])
    ensures r.Some? ==> forall k :: from <= k < r.value ==> HasText(cs[k])
    decreases |cs| - from
  {
    if from == |cs| then None
    else if !HasText(cs[from]) then Some(from)
    else FirstTextless(cs, from + 1)
  }

  /** Every choice can be shown: with images, as many images as choices and each
      choice with text or a non-empty image; without images (none, or an empty
      list), every choice with text. */
  predicate MaterialComplete(cs: seq<LegacyChoice>, images: Option<seq<Upload>>) {
    if images.Some? && |images.value| > 0 then
      |images.value| == |cs| && forall k :: 0 <= k < |cs| ==> HasText(cs[k]) || HasImage(images.value[k])
    else
      forall k :: 0 <= k < |cs| ==> HasText(cs[k])
  }

  /** The service's first check, refusing with 400 and naming the first choice at fault. */
  function CheckMaterial(cs: seq<LegacyChoice>, images: Option<seq<Upload>>): (r: Option<HttpFailure>)
    ensures r.None? <==> MaterialComplete(cs, images)
    ensures r.Some? ==> r.value.status == 400
    ensures r.Some? && r.value.reason.NeedsTextOrImage? ==>
      exists k :: 0 <= k < |cs| && cs[k].letter == r.value.reason.letter && !HasText(cs[k])
    ensures r.Some? && r.value.reason.NeedsText? ==>
      exists k :: 0 <= k < |cs| && cs[k].letter == r.value.reason.letter && !HasText(cs[k])
  {
    if images.Some? && |images.value| > 0 then
      if |images.value| != |cs| then Some(HttpFailure(400, ImageCountMismatch))
      else
        match FirstUnsupported(cs, images.value, 0)
        case None => None
        case Some(k) => Some(HttpFailure(400, NeedsTextOrImage(cs[k].letter)))
    else
      match FirstTextless(cs, 0)
      case None => None
      case Some(k) => Some(HttpFailure(400, NeedsText(cs[k].letter)))
  }

  /** An image can stand in for text only when images are sent: an empty image
      list is treated as no images at all. */
  lemma EmptyImageListIsNoImages(cs: seq<LegacyChoice>)
    ensures CheckMaterial(cs, Some([])) == CheckMaterial(cs, None)
  {
  }

  // ----- storage folders -----

  datatype Folder = Statements | Choices | Solutions

  function FolderName(f: Folder): string {
    match f
    case Statements => "statements"
    case Choices => "choices"
    case Solutions => "solutions"
  }

  const CoursesRoot := "unmsm/courses/"

  /** `unmsm/courses/{label}/{folder}`, where the images of one kind go. */
  function Destination(s: SubjectCode, f: Folder): (d: string)
    ensures |d| == |CoursesRoot| + |Label(s)| + 1 + |FolderName(f)|
    ensures d[..|CoursesRoot|] == CoursesRoot
  {
    CoursesRoot + (Label(s) + "/" + FolderName(f))
  }

  /** Position of the first `/`, or the length when there is none. */
  function SlashIndex(s: string): (n: nat)
    ensures n <= |s|
  {
    if |s| == 0 || s[0] == '/' then 0 else 1 + SlashIndex(s[1..])
  }

  lemma {:induction false} SlashAfter(l: string, rest: string)
    requires forall i :: 0 <= i < |l| ==> l[i] != '/'
    ensures SlashIndex(l + "/" + rest) == |l|
  {
    if |l| > 0 {
      assert (l + "/" + rest)[1..] == l[1..] + "/" + rest;
      SlashAfter(l[1..], rest);
    }
  }

  /** A string split at its first `/` has one head and one tail. */
  lemma SplitAtSlash(l: string, a: string, l': string, b: string)
    requires forall i :: 0 <= i < |l| ==> l[i] != '/'
    requires forall i :: 0 <= i < |l'| ==> l'[i] != '/'
    requires l + "/" + a == l' + "/" + b
    ensures l == l' && a == b
  {
    SlashAfter(l, a);
    SlashAfter(l', b);
    assert l == (l + "/" + a)[..|l|];
    assert l' == (l' + "/" + b)[..|l'|];
    assert a == (l + "/" + a)[|l| + 1..];
    assert b == (l' + "/" + b)[|l'| + 1..];
  }

  lemma SlugHasNoSlash(s: SubjectCode)
    ensures forall i :: 0 <= i < |Label(s)| ==> Label(s)[i] != '/'
  {
    LabelIsSlug(s);
  }

  lemma SamePrefixSameTail(root: string, tail: string, tail': string)
    requires root + tail == root + tail'
    ensures tail == tail'
  {
    assert tail == (root + tail)[|root|..];
    assert tail' == (root + tail')[|root|..];
  }

  lemma FolderNamesDistinct(f: Folder, f': Folder)
    ensures FolderName(f) == FolderName(f') ==> f == f'
  {
    if FolderName(f) == FolderName(f') {
      assert |FolderName(f)| == |FolderName(f')|;
    }
  }

  /** Different subjects or different kinds never share a folder. */
  lemma DestinationsDistinct(s: SubjectCode, f: Folder, s': SubjectCode, f': Folder)
    ensures Destination(s, f) == Destination(s', f') ==> s == s' && f == f'
  {
    if Destination(s, f) == Destination(s', f') {
      var l, l' := Label(s), Label(s');
      assert CoursesRoot + (l + "/" + FolderName(f)) == CoursesRoot + (l' + "/" + FolderName(f'));
      SamePrefixSameTail(CoursesRoot, l + "/" + FolderName(f), l' + "/" + FolderName(f'));
      SlugHasNoSlash(s);
      SlugHasNoSlash(s');
      SplitAtSlash(l, FolderName(f), l', FolderName(f'));
      LabelsDistinct(s, s');
      FolderNamesDistinct(f, f');
    }
  }
}

=== FILE: legacy_statement.dfy ===
/** The statement variants of the legacy create path: a plain statement, one
    with a list of items, and a matching statement with two columns. Each variant
    has its own shape rules and its own canonical string, whose digest is the
    legacy question fingerprint. */
module LegacyStatement {
  import opened Common
  import opened Text
  import opened QuestionHash

  /** `StatementItem`: an identifier such as "I" or "A" and its text. */
  datatype Item = Item(id: string, content: string)

  /** The `type`-discriminated union of the three create shapes. */
  datatype Statement =
    | WithItems(text: string, items: seq<Item>)
    | WithoutItems(text: string)
    | Matching(text: string, left: seq<Item>, right: seq<Item>)

  datatype Variant = WithItemsVariant | WithoutItemsVariant | MatchingVariant

  function VariantOf(s: Statement): Variant {
    match s
    case WithItems(_, _) => WithItemsVariant
    case WithoutItems(_) => WithoutItemsVariant
    case Matching(_, _, _) => MatchingVariant
  }

  /** The literal of each variant's `type` field. */
  function TypeTag(v: Variant): string {
    match v
    case WithItemsVariant => "standard_with_items"
    case WithoutItemsVariant => "standard_without_items"
    case MatchingVariant => "matching"
  }

  /** The discriminator: the variant whose tag is `t`, if any. */
  function ParseTypeTag(t: string): (r: Option<Variant>)
    ensures r.Some? ==> TypeTag(r.value) == t
  {
    if t == "standard_with_items" then Some(WithItemsVariant)
    else if t == "standard_without_items" then Some(WithoutItemsVariant)
    else if t == "matching" then Some(MatchingVariant)
    else None
  }

  /** Every tag selects its own variant, the three tags differ, and nothing else is accepted. */
  lemma TypeTagRoundTrip(v: Variant, t: string)
    ensures ParseTypeTag(TypeTag(v)) == Some(v)
    ensures ParseTypeTag(t).None? <==> forall w: Variant :: TypeTag(w) != t
  {
    assert TypeTag(WithItemsVariant) != TypeTag(WithoutItemsVariant) by {
      assert TypeTag(WithItemsVariant)[13] != TypeTag(WithoutItemsVariant)[13];
    }
    if ParseTypeTag(t).None? {
      forall w: Variant ensures TypeTag(w) != t {
      }
    }
  }

  /** What the field constraints and the column validator report. */
  datatype ShapeViolation =
    | TooFewItems | TooManyItems
    | LeftColumnTooLong | RightColumnTooLong | ColumnLengthsDiffer

  /** The statement's shape rules as one predicate: two to five items; matching
      columns of one common length of at most five, possibly zero. */
  predicate WellShaped(s: Statement) {
    match s
    case WithItems(_, items) => 2 <= |items| <= 5
    case WithoutItems(_) => true
    case Matching(_, left, right) => |left| == |right| <= 5
  }

  /** The errors validation reports: the item bounds; both column bounds, each
      reported on its own; and the equal-length rule, which runs only once the
      columns themselves are valid. */
  function ShapeErrors(s: Statement): (r: seq<ShapeViolation>)
    ensures |r| == 0 <==> WellShaped(s)
    ensures ColumnLengthsDiffer in r ==> r == [ColumnLengthsDiffer]
    ensures s.Matching? ==> (LeftColumnTooLong in r <==> |s.left| > 5)
    ensures s.Matching? ==> (RightColumnTooLong in r <==> |s.right| > 5)
    ensures s.WithItems? ==> (|r| == 0 || r == [TooFewItems] || r == [TooManyItems])
  {
    match s
    case WithItems(_, items) =>
      if |items| < 2 then [TooFewItems]
      else if |items| > 5 then [TooManyItems]
      else []
    case WithoutItems(_) => []
    case Matching(_, left, right) =>
      var fields := (if |left| > 5 then [LeftColumnTooLong] else []) +
        (if |right| > 5 then [RightColumnTooLong] else []);
      if |fields| > 0 then fields
      else if |left| != |right| then [ColumnLengthsDiffer]
      else []
  }

  /** An item of a with-items statement: lower-cased, not stripped. */
  function ItemKey(i: Item): string {
    Lower(i.id) + ":" + Lower(i.content)
  }

  /** An entry of a matching column: stripped and lower-cased. */
  function EntryKey(i: Item): string {
    Normalize(i.id) + ":" + Normalize(i.content)
  }

  /** What follows the normalised text: nothing for a plain statement; `|` and
      the item keys joined by `|`; or `|`, the left keys, `|` and the right keys. */
  function VariantPart(s: Statement): string {
    match s
    case WithoutItems(_) => ""
    case WithItems(_, items) => "|" + Join("|", MapSeq(items, ItemKey))
    case Matching(_, left, right) =>
      "|" + Join("|", MapSeq(left, EntryKey)) + "|" + Join("|", MapSeq(right, EntryKey))
  }

  /** The string the legacy fingerprint digests: the normalised text, then the variant part. */
  function CanonicalString(s: Statement): (r: string)
    ensures s.WithoutItems? ==> r == Normalize(s.text)
    ensures |Normalize(s.text)| <= |r| && r[..|Normalize(s.text)|] == Normalize(s.text)
  {
    var base := Normalize(s.text);
    var r := base + VariantPart(s);
    assert r[..|base|] == base;
    r
  }

  /** `generate_question_hash`, the rule the legacy service and the legacy crud layer share. */
  function StatementHash(s: Statement): (h: Hash)
    ensures h.canonical == CanonicalString(s)
  {
    Digest(CanonicalString(s))
  }

  /** Two statements of the same variant that differ only in letter case, in text,
      items and column entries alike. */
  predicate SameUpToCase(s: Statement, t: Statement) {
    VariantOf(s) == VariantOf(t) && Lower(s.text) == Lower(t.text) &&
    (s.WithItems? ==> LowerEqual(s.items, t.items)) &&
    (s.Matching? ==> LowerEqual(s.left, t.left) && LowerEqual(s.right, t.right))
  }

  predicate LowerEqual(a: seq<Item>, b: seq<Item>) {
    |a| == |b| &&
    forall k :: 0 <= k < |a| ==> Lower(a[k].id) == Lower(b[k].id) && Lower(a[k].content) == Lower(b[k].content)
  }

  /** Two column lists whose entries agree after stripping and lower-casing. */
  predicate NormalEqual(a: seq<Item>, b: seq<Item>) {
    |a| == |b| &&
    forall k :: 0 <= k < |a| ==>
      Normalize(a[k].id) == Normalize(b[k].id) && Normalize(a[k].content) == Normalize(b[k].content)
  }

  lemma LowerEqualItemKeys(a: seq<Item>, b: seq<Item>)
    requires LowerEqual(a, b)
    ensures MapSeq(a, ItemKey) == MapSeq(b, ItemKey)
  {
    forall k | 0 <= k < |a| ensures ItemKey(a[k]) == ItemKey(b[k]) {
      LowerIdempotent(a[k].id);
      LowerIdempotent(a[k].content);
    }
  }

  lemma NormalEqualEntryKeys(a: seq<Item>, b: seq<Item>)
    requires NormalEqual(a, b)
    ensures MapSeq(a, EntryKey) == MapSeq(b, EntryKey)
  {
    forall k | 0 <= k < |a| ensures EntryKey(a[k]) == EntryKey(b[k]) {
    }
  }

  lemma LowerEqualIsNormalEqual(a: seq<Item>, b: seq<Item>)
    requires LowerEqual(a, b)
    ensures NormalEqual(a, b)
  {
    forall k | 0 <= k < |a|
      ensures Normalize(a[k].id) == Normalize(b[k].id) && Normalize(a[k].content) == Normalize(b[k].content)
    {
      NormalizeIgnoresCase(a[k].id, b[k].id);
      NormalizeIgnoresCase(a[k].content, b[k].content);
    }
  }

  /** Letter case never changes the legacy fingerprint, in any variant. */
  lemma CaseNeverMatters(s: Statement, t: Statement)
    requires SameUpToCase(s, t)
    ensures StatementHash(s) == StatementHash(t)
  {
    NormalizeIgnoresCase(s.text, t.text);
    match s
    case WithoutItems(_) =>
    case WithItems(_, items) =>
      LowerEqualItemKeys(items, t.items);
    case Matching(_, left, right) =>
      LowerEqualIsNormalEqual(left, t.left);
      LowerEqualIsNormalEqual(right, t.right);
      NormalEqualEntryKeys(left, t.left);
      NormalEqualEntryKeys(right, t.right);
  }

  /** Matching entries are compared after stripping: padding an entry, or changing
      its case, leaves the fingerprint unchanged. */
  lemma MatchingIgnoresPadding(text: string, left: seq<Item>, right: seq<Item>, left': seq<Item>, right': seq<Item>)
    requires NormalEqual(left, left') && NormalEqual(right, right')
    ensures StatementHash(Matching(text, left, right)) == StatementHash(Matching(text, left', right'))
  {
    NormalEqualEntryKeys(left, left');
    NormalEqualEntryKeys(right, right');
  }

  /** Items, unlike matching entries, are not stripped: a trailing space after an
      item's text gives a different fingerprint. */
  lemma ItemPaddingMatters(text: string, id: string, content: string)
    ensures StatementHash(WithItems(text, [Item(id, content)])) !=
      StatementHash(WithItems(text, [Item(id, content + " ")]))
  {
    var a := MapSeq([Item(id, content)], ItemKey);
    var b := MapSeq([Item(id, content + " ")], ItemKey);
    assert Join("|", a) == ItemKey(Item(id, content));
    assert Join("|", b) == ItemKey(Item(id, content + " "));
    assert |CanonicalString(WithItems(text, [Item(id, content)]))| + 1 ==
      |CanonicalString(WithItems(text, [Item(id, content + " ")]))|;
  }

  /** The canonical string does not mark the variant: a plain statement whose text
      spells out `|id:content` has the fingerprint of the with-items statement
      holding that one item. */
  lemma VariantsCollide(text: string, id: string, content: string)
    requires Folded(text) && Folded(id) && Folded(content)
    ensures var plain := WithoutItems(text + "|" + (id + ":" + content));
      plain != WithItems(text, [Item(id, content)]) &&
      StatementHash(plain) == StatementHash(WithItems(text, [Item(id, content)]))
  {
    PlainCanonical(text, id, content);
    ItemsCanonical(text, id, content);
  }

  lemma PlainCanonical(text: string, id: string, content: string)
    requires Folded(text) && Folded(id) && Folded(content)
    ensures CanonicalString(WithoutItems(text + "|" + (id + ":" + content))) == text + "|" + (id + ":" + content)
  {
    FoldedLine(text, id, content);
    NormalizeOfFolded(text + "|" + (id + ":" + content));
  }

  lemma ItemsCanonical(text: string, id: string, content: string)
    requires Folded(text) && Folded(id) && Folded(content)
    ensures CanonicalString(WithItems(text, [Item(id, content)])) == text + "|" + (id + ":" + content)
  {
    var key := id + ":" + content;
    NormalizeOfFolded(text);
    KeyOfFoldedItem(id, content);
    assert Join("|", MapSeq([Item(id, content)], ItemKey)) == key;
    assert VariantPart(WithItems(text, [Item(id, content)])) == "|" + key;
  }

  lemma KeyOfFoldedItem(id: string, content: string)
    requires Folded(id) && Folded(content)
    ensures ItemKey(Item(id, content)) == id + ":" + content
  {
    LowerOfFolded(id);
    LowerOfFolded(content);
  }

  lemma FoldedLine(text: string, id: string, content: string)
    requires Folded(text) && Folded(id) && Folded(content)
    ensures Folded(text + "|" + (id + ":" + content))
  {
    var key := id + ":" + content;
    assert Folded(":") && Folded("|");
    FoldedConcat(id, ":");
    FoldedConcat(id + ":", content);
    FoldedConcat(text, "|");
    FoldedConcat(text + "|", key);
  }
}

=== FILE: pagination.dfy ===
/** `build_paginated_response`: a page of items plus its metadata. */
module Pagination {

  datatype Meta = Meta(page: int, size: nat, total: int, pages: int)

  datatype Paginated<T> = Paginated(data: seq<T>, meta: Meta)

  /** Integer ceiling of `total / limit` for a positive total. */
  function CeilDiv(total: nat, limit: nat): (r: nat)
    requires limit > 0
    ensures total > 0 ==> r >= 1 && (r - 1) * limit < total <= r * limit
  {
    var r := (total + limit - 1) / limit;
    assert r * limit + (total + limit - 1) % limit == total + limit - 1;
    r
  }

  /** The page count: `ceil(total / limit)` for a positive total, 1 otherwise.
      The division happens only for a positive total, so only then must `limit`
      be non-zero; a negative `limit` gives the ceiling of a negative quotient. */
  function PageCount(total: int, limit: int): (pages: int)
    requires total > 0 ==> limit != 0
    ensures total > 0 && limit > 0 ==> pages >= 1 && (pages - 1) * limit < total <= pages * limit
    ensures total > 0 && limit < 0 ==> pages <= 0 && pages * limit <= total < (pages - 1) * limit
    ensures total <= 0 ==> pages == 1
  {
    if total <= 0 then 1
    else if limit > 0 then CeilDiv(total, limit)
    else NegativeCeil(total, -limit)
  }

  /** `ceil(total / -m)` for a positive total and a positive `m`: minus the floor of `total / m`. */
  function NegativeCeil(total: int, m: int): (pages: int)
    requires total > 0 && m > 0
    ensures pages <= 0 && pages * -m <= total < (pages - 1) * -m
  {
    var q := total / m;
    assert q * m <= total < q * m + m by {
      DivMod(total, m);
    }
    assert (-q) * -m == q * m;
    assert (-q - 1) * -m == q * m + m;
    -q
  }

  /** `build_paginated_response(items, total, page, limit)`. */
  function BuildPaginated<T>(items: seq<T>, total: int, page: int, limit: int): (r: Paginated<T>)
    requires total > 0 ==> limit != 0
    ensures r.data == items && r.meta.size == |items|
    ensures r.meta.page == page && r.meta.total == total
    ensures total <= 0 ==> r.meta.pages == 1
    ensures total > 0 && limit > 0 ==> r.meta.pages >= 1 && (r.meta.pages - 1) * limit < total <= r.meta.pages * limit
    ensures total > 0 && limit < 0 ==> r.meta.pages <= 0 && r.meta.pages * limit <= total < (r.meta.pages - 1) * limit
  {
    Paginated(items, Meta(page, |items|, total, PageCount(total, limit)))
  }

  /** The page count is the least count of `limit`-sized pages that holds `total` items. */
  lemma PageCountLeast(total: int, limit: int, n: int)
    requires limit > 0 && total > 0 && n >= 1 && n * limit >= total
    ensures PageCount(total, limit) <= n
  {
    MulOrder(n, PageCount(total, limit) - 1, limit);
  }

  lemma MulMonotone(a: int, b: int, c: nat)
    requires a <= b
    ensures a * c <= b * c
  {
    assert b * c - a * c == (b - a) * c;
    MulNonneg(b - a, c);
  }

  lemma {:induction false} MulNonneg(x: nat, c: nat)
    ensures x * c >= 0
  {
    if c > 0 {
      MulNonneg(x, c - 1);
      assert x * c == x * (c - 1) + x;
    }
  }

  lemma DivUnique(i: nat, limit: nat, q: int)
    requires limit > 0 && q * limit <= i < q * limit + limit
    ensures i / limit == q
  {
    var d := i / limit;
    assert d * limit + i % limit == i;
    assert (q - 1) * limit == q * limit - limit;
    assert (q + 1) * limit == q * limit + limit;
    MulOrder(d, q - 1, limit);
    MulOrder(q + 1, d, limit);
  }

  lemma MulOrder(a: int, b: int, c: nat)
    ensures a <= b ==> a * c <= b * c
  {
    if a <= b {
      MulMonotone(a, b, c);
    }
  }

  lemma DivMod(i: nat, limit: int)
    requires limit > 0
    ensures (i / limit) * limit + i % limit == i && 0 <= i % limit < limit && i / limit >= 0
  {
  }
}

=== FILE: question_content.dfy ===
/** Partial update of one question content block: look the block up under its
    question, patch the question's ordered block list in memory, recompute the
    question fingerprint from that list, write the block and the fingerprint in
    one transaction, and sign the returned block when it is an image. */
module QuestionContent {
  import opened Common
  import opened Text
  import opened Errors
  import opened Content
  import opened Sorting
  import opened QuestionHash
  import opened Store

  /** `get_question_content_db`: the block is found only under its own question. */
  function GetQuestionContent(db: Db, questionId: Id, contentId: Id): (r: Option<Block>)
    ensures r.Some? <==> contentId in db.contents && db.contents[contentId].questionId == questionId
    ensures r.Some? ==> r.value == db.contents[contentId].block
  {
    if contentId in db.contents && db.contents[contentId].questionId == questionId then
      Some(db.contents[contentId].block)
    else None
  }

  /** The keys of a question's content rows. */
  function ContentIds(db: Db, questionId: Id): set<Id> {
    set c | c in db.contents && db.contents[c].questionId == questionId
  }

  /** The rows at the given keys, in the given order. */
  function EntriesAt(db: Db, ids: seq<Id>): (r: seq<Entry>)
    requires forall k :: 0 <= k < |ids| ==> ids[k] in db.contents
    ensures |r| == |ids|
    ensures forall k :: 0 <= k < |ids| ==> r[k] == Entry(ids[k], db.contents[ids[k]].block)
  {
    seq(|ids|, k requires 0 <= k < |ids| => Entry(ids[k], db.contents[ids[k]].block))
  }

  function EntryOrder(e: Entry): int {
    e.block.order
  }

  function BlockOf(e: Entry): Block {
    e.block
  }

  /** `e` is one of the question's stored rows, as stored. */
  predicate IsRowOf(db: Db, questionId: Id, e: Entry) {
    e.id in db.contents && db.contents[e.id].questionId == questionId && e.block == db.contents[e.id].block
  }

  /** An order in which the database may produce the question's rows before
      sorting them: each of the question's keys exactly once. */
  predicate IsScan(db: Db, questionId: Id, scan: seq<Id>) {
    Distinct(scan) && SetOf(scan) == ContentIds(db, questionId)
  }

  /** No key is listed twice. */
  predicate UniqueIds(es: seq<Entry>) {
    forall i, j :: 0 <= i < j < |es| ==> es[i].id != es[j].id
  }

  function EntryId(e: Entry): Id {
    e.id
  }

  /** The question's rows in scan order. */
  function ScanEntries(db: Db, questionId: Id, scan: seq<Id>): (r: seq<Entry>)
    requires IsScan(db, questionId, scan)
    ensures forall k :: 0 <= k < |scan| ==> scan[k] in db.contents
    ensures r == EntriesAt(db, scan)
  {
    assert forall k :: 0 <= k < |scan| ==> scan[k] in SetOf(scan);
    EntriesAt(db, scan)
  }

  /** `get_question_contents_db`: the question's rows ordered by `order`. The
      query sorts on `order` alone, so rows with equal order come out in the
      order the database scans them, which `scan` stands for. */
  function ListContents(db: Db, questionId: Id, scan: seq<Id>): (r: seq<Entry>)
    requires IsScan(db, questionId, scan)
    ensures SortedBy(r, EntryOrder)
    ensures forall e :: e in r <==> IsRowOf(db, questionId, e)
    ensures UniqueIds(r)
    ensures forall k :: WithKey(r, EntryOrder, k) == WithKey(ScanEntries(db, questionId, scan), EntryOrder, k)
  {
    var es := ScanEntries(db, questionId, scan);
    var r := SortByKey(es, EntryOrder);
    ListedEntries(db, questionId, scan, r);
    assert Distinct(es) by {
      forall i, j | 0 <= i < j < |es| ensures es[i] != es[j] {
        assert es[i].id == scan[i] && es[j].id == scan[j];
      }
    }
    DistinctPermutation(es, r);
    RowsUnique(db, questionId, r);
    assert forall k :: WithKey(r, EntryOrder, k) == WithKey(es, EntryOrder, k) by {
      forall k ensures WithKey(r, EntryOrder, k) == WithKey(es, EntryOrder, k) {
        SortStable(es, EntryOrder, k);
      }
    }
    r
  }

  lemma ListedEntries(db: Db, questionId: Id, ids: seq<Id>, r: seq<Entry>)
    requires SetOf(ids) == ContentIds(db, questionId)
    requires forall k :: 0 <= k < |ids| ==> ids[k] in db.contents
    requires multiset(r) == multiset(EntriesAt(db, ids))
    ensures forall e :: e in r <==> IsRowOf(db, questionId, e)
  {
    var es := EntriesAt(db, ids);
    forall e ensures e in r <==> IsRowOf(db, questionId, e)
    {
      assert e in r <==> e in multiset(es);
      if e in es {
        var k :| 0 <= k < |es| && es[k] == e;
        assert ids[k] in SetOf(ids);
      }
      if IsRowOf(db, questionId, e) {
        assert e.id in SetOf(ids);
        var k :| 0 <= k < |ids| && ids[k] == e.id;
        assert es[k] == e;
      }
    }
  }

  /** Stored rows are keyed, so distinct listed rows carry distinct keys. */
  lemma RowsUnique(db: Db, questionId: Id, r: seq<Entry>)
    requires Distinct(r)
    requires forall e :: e in r ==> IsRowOf(db, questionId, e)
    ensures UniqueIds(r)
  {
    forall i, j | 0 <= i < j < |r| ensures r[i].id != r[j].id {
      assert r[i] in r && r[j] in r;
    }
  }

  /** Whatever order the database breaks ties in, its answer is `ListContents`
      of some scan: every listing of exactly the question's rows, each once,
      ascending by `order`, is the one the scan of its own keys gives. */
  lemma AnyListingIsAScan(db: Db, questionId: Id, t: seq<Entry>)
    requires SortedBy(t, EntryOrder) && UniqueIds(t)
    requires forall e :: e in t <==> IsRowOf(db, questionId, e)
    ensures IsScan(db, questionId, MapSeq(t, EntryId))
    ensures ListContents(db, questionId, MapSeq(t, EntryId)) == t
  {
    var scan := MapSeq(t, EntryId);
    forall c | c in ContentIds(db, questionId) ensures c in SetOf(scan) {
      var e := Entry(c, db.contents[c].block);
      assert IsRowOf(db, questionId, e);
      var k :| 0 <= k < |t| && t[k] == e;
      assert scan[k] == c;
    }
    forall c | c in SetOf(scan) ensures c in ContentIds(db, questionId) {
      var k :| 0 <= k < |scan| && scan[k] == c;
      assert t[k] in t;
    }
    assert forall k :: 0 <= k < |scan| ==> scan[k] in SetOf(scan);
    var es := EntriesAt(db, scan);
    forall k | 0 <= k < |t| ensures es[k] == t[k] {
      assert t[k] in t;
    }
    assert es == t;
    SortOfSorted(t, EntryOrder);
  }

  /** The payload of a partial update; `None` leaves the field as it is. */
  datatype ContentPatch = ContentPatch(
    letter: Option<string>, tag: Option<ContentType>, value: Option<string>, order: Option<int>)

  /** The field-by-field assignment the service loop and the repository both perform. */
  function ApplyPatch(b: Block, p: ContentPatch): (r: Block)
    ensures p.letter.None? ==> r.letter == b.letter
    ensures p.letter.Some? ==> r.letter == p.letter
    ensures p.tag.None? ==> r.tag == b.tag
    ensures p.tag.Some? ==> r.tag == Enum(p.tag.value)
    ensures r.value == p.value.GetOr(b.value) && r.order == p.order.GetOr(b.order)
  {
    Block(
      if p.letter.Some? then p.letter else b.letter,
      if p.tag.Some? then Enum(p.tag.value) else b.tag,
      p.value.GetOr(b.value),
      p.order.GetOr(b.order))
  }

  /** The in-memory block and the stored row both receive the same patch; applying
      it a second time changes nothing, and an empty patch changes nothing at all. */
  lemma ApplyPatchIdempotent(b: Block, p: ContentPatch)
    ensures ApplyPatch(ApplyPatch(b, p), p) == ApplyPatch(b, p)
    ensures ApplyPatch(b, ContentPatch(None, None, None, None)) == b
  {
  }

  /** The position of the first entry whose key is `contentId`, or `|es|` when there is none. */
  function FirstMatch(es: seq<Entry>, contentId: Id): (i: nat)
    ensures i <= |es|
    ensures i < |es| ==> es[i].id == contentId
    ensures forall j :: 0 <= j < i ==> es[j].id != contentId
  {
    if |es| == 0 || es[0].id == contentId then 0
    else
      var i := 1 + FirstMatch(es[1..], contentId);
      assert forall j :: 0 < j < i ==> es[1..][j - 1] == es[j];
      i
  }

  /** The service loop: patch the first row whose key is `contentId`, leave every
      other row, later rows with the same key included, alone. */
  function PatchEntries(es: seq<Entry>, contentId: Id, p: ContentPatch): (r: seq<Entry>)
    ensures |r| == |es|
    ensures forall k :: 0 <= k < |es| ==>
      r[k] == if k == FirstMatch(es, contentId) then Entry(contentId, ApplyPatch(es[k].block, p)) else es[k]
  {
    if |es| == 0 then []
    else if es[0].id == contentId then [Entry(contentId, ApplyPatch(es[0].block, p))] + es[1..]
    else
      var rest := PatchEntries(es[1..], contentId, p);
      assert FirstMatch(es, contentId) == 1 + FirstMatch(es[1..], contentId);
      assert forall k :: 0 < k < |es| ==> ([es[0]] + rest)[k] == rest[k - 1] && es[1..][k - 1] == es[k];
      [es[0]] + rest
  }

  /** The loop body applied to one row. */
  function PatchOne(contentId: Id, p: ContentPatch, e: Entry): Entry {
    if e.id == contentId then Entry(contentId, ApplyPatch(e.block, p)) else e
  }

  /** On a listing with unique keys the loop patches every row with the key, which is at most one. */
  lemma PatchAsMap(es: seq<Entry>, contentId: Id, p: ContentPatch)
    requires UniqueIds(es)
    ensures PatchEntries(es, contentId, p) == MapSeq(es, e => PatchOne(contentId, p, e))
  {
    var m := FirstMatch(es, contentId);
    forall k | 0 <= k < |es| ensures PatchEntries(es, contentId, p)[k] == PatchOne(contentId, p, es[k]) {
      if k > m {
        assert es[m].id == contentId;
      }
    }
  }

  /** `_generate_question_hash`'s accumulation over already ordered rows, with
      the service's own image test `item.type == ContentType.IMAGE`. */
  function ServiceTextPrefix(es: seq<Entry>): string {
    if |es| == 0 || EqualsImageMember(es[0].block.tag) then ""
    else Normalize(es[0].block.value) + ServiceTextPrefix(es[1..])
  }

  /** `_generate_question_hash`. */
  function ServiceHash(es: seq<Entry>): Hash {
    Digest(ServiceTextPrefix(SortByKey(es, EntryOrder)))
  }

  lemma {:induction false} ServicePrefixAgrees(es: seq<Entry>)
    ensures ServiceTextPrefix(es) == TextPrefix(MapSeq(es, BlockOf))
  {
    var bs := MapSeq(es, BlockOf);
    if |es| > 0 {
      ImageTestsAgree(es[0].block.tag);
      if IsImage(bs[0].tag) {
        TextPrefixImage(bs);
      } else {
        TextPrefixCons(bs);
        MapSeqSlice(es, 1, BlockOf);
        ServicePrefixAgrees(es[1..]);
      }
    }
  }

  /** The service's private fingerprint is the domain fingerprint of the same blocks. */
  lemma ServiceHashAgrees(es: seq<Entry>)
    ensures ServiceHash(es) == QuestionHashOf(MapSeq(es, BlockOf))
  {
    SortMapCommute(es, EntryOrder, BlockOf, OrderOf);
    ServicePrefixAgrees(SortByKey(es, EntryOrder));
  }

  /** The state `update_question_content_db` commits: the patched row and the
      owning question's new fingerprint. */
  function PatchedState(db: Db, contentId: Id, p: ContentPatch, h: Hash): (next: Db)
    requires contentId in db.contents
    ensures next.contents.Keys == db.contents.Keys && next.questions.Keys == db.questions.Keys
    ensures next.contents[contentId] == db.contents[contentId].(block := ApplyPatch(db.contents[contentId].block, p))
    ensures forall c :: c in db.contents && c != contentId ==> next.contents[c] == db.contents[c]
    ensures var q := db.contents[contentId].questionId;
      (q in db.questions ==> next.questions[q] == db.questions[q].(hash := h)) &&
      (forall o :: o in db.questions && o != q ==> next.questions[o] == db.questions[o])
    ensures next.choices == db.choices && next.solutions == db.solutions
    ensures next.citations == db.citations && next.sources == db.sources
  {
    var row := db.contents[contentId];
    var q := row.questionId;
    db.(contents := db.contents[contentId := row.(block := ApplyPatch(row.block, p))],
        questions := if q in db.questions then db.questions[q := db.questions[q].(hash := h)] else db.questions)
  }

  /** `update_question_content_db`: the patched row and the fingerprint commit
      together or not at all. */
  function UpdateContentDb(db: Db, contentId: Id, p: ContentPatch, h: Hash, fault: Option<StoreFailure>): (w: Write<Block>)
    requires contentId in db.contents
    ensures w.Wrote? ==> w.db == PatchedState(db, contentId, p, h) && w.value == ApplyPatch(db.contents[contentId].block, p)
    ensures var q := db.contents[contentId].questionId;
      Consistent(db) ==>
        (w == Raised(IntegrityFailure(Some(UniqueViolationCode))) <==>
          (q in db.questions && HashTaken(db, q, h)) || fault == Some(IntegrityFailure(Some(UniqueViolationCode))))
    ensures Consistent(db) && w.Raised? ==> w.failure == IntegrityFailure(Some(UniqueViolationCode)) || Some(w.failure) == fault
  {
    var next := PatchedState(db, contentId, p, h);
    var q := db.contents[contentId].questionId;
    assert Consistent(db) ==> (Consistent(next) <==> !(q in db.questions && HashTaken(db, q, h))) by {
      if Consistent(db) {
        if q in db.questions {
          RehashConsistent(db, q, h);
          assert next.questions == db.questions[q := db.questions[q].(hash := h)];
        } else {
          assert next.questions == db.questions;
        }
      }
    }
    Commit(next, ApplyPatch(db.contents[contentId].block, p), fault)
  }

  /** The block the service returns: its value signed when its type is the image member. */
  function SignIfImage(b: Block, sign: string -> string): (r: Block)
    ensures r.(value := b.value) == b
    ensures r.value == (if EqualsImageMember(b.tag) then sign(b.value) else b.value)
  {
    if EqualsImageMember(b.tag) then b.(value := sign(b.value)) else b
  }

  /** `update_question_content`; `scan` is the database's order among rows of equal `order`. */
  function UpdateQuestionContent(db: Db, faults: Faults, sign: string -> string,
                                 questionId: Id, contentId: Id, p: ContentPatch, scan: seq<Id>): (o: Outcome<Entry>)
    requires IsScan(db, questionId, scan)
    ensures o.result.Err? && RefreshQuery !in faults.failing && !o.result.Raises(ValidationError) ==> o.db == db
    ensures o.result.Err? && o.db != db ==>
      (RefreshQuery in faults.failing && o.result == Err(Fail(PersistenceError))) || o.result == Err(Fail(ValidationError))
    ensures ContentQuery in faults.failing ==> o.result == Err(Fail(RetrievalError))
    ensures ContentQuery !in faults.failing && GetQuestionContent(db, questionId, contentId).None? ==>
      o.result == Err(Fail(ResourceNotFound))
    ensures o.result.Ok? ==>
      contentId in db.contents && db.contents[contentId].questionId == questionId &&
      ContentQuery !in faults.failing && ContentListQuery !in faults.failing && RefreshQuery !in faults.failing
    ensures o.result.Ok? ==>
      var nb := ApplyPatch(db.contents[contentId].block, p);
      var h := ServiceHash(PatchEntries(ListContents(db, questionId, scan), contentId, p));
      o.db == PatchedState(db, contentId, p, h) &&
      o.result.value == Entry(contentId, SignIfImage(nb, sign)) &&
      QuestionContentResponseValid(o.result.value)
    ensures o.result.Err? ==>
      o.result.error.kind in {RetrievalError, ResourceNotFound, DuplicateValue, ForeignKeyViolation, PersistenceError, ValidationError}
  {
    if ContentQuery in faults.failing then Outcome(db, Err(Fail(RetrievalError)))
    else
      var found := GetQuestionContent(db, questionId, contentId);
      if found.None? then Outcome(db, Err(Fail(ResourceNotFound)))
      else if ContentListQuery in faults.failing then Outcome(db, Err(Fail(RetrievalError)))
      else
        var patched := PatchEntries(ListContents(db, questionId, scan), contentId, p);
        CommitPatch(db, faults, sign, contentId, p, ServiceHash(patched))
  }

  /** The write, the refresh and the response once the new fingerprint `h` is
      known. `QuestionContentResponse.model_validate` runs on the committed,
      signed row, so a row it refuses raises `ValidationError` with the change
      already stored. */
  function CommitPatch(db: Db, faults: Faults, sign: string -> string,
                       contentId: Id, p: ContentPatch, h: Hash): (o: Outcome<Entry>)
    requires contentId in db.contents
    ensures o.result.Err? && RefreshQuery !in faults.failing && !o.result.Raises(ValidationError) ==> o.db == db
    ensures o.result.Ok? ==> QuestionContentResponseValid(o.result.value)
  {
    var w := UpdateContentDb(db, contentId, p, h, faults.write);
    if w.Raised? then Outcome(db, Err(Fail(WriteErrorKind(w.failure, ContentPolicy))))
    else if RefreshQuery in faults.failing then Outcome(w.db, Err(Fail(PersistenceError)))
    else
      var response := Entry(contentId, SignIfImage(w.value, sign));
      if QuestionContentResponseValid(response) then Outcome(w.db, Ok(response))
      else Outcome(w.db, Err(Fail(ValidationError)))
  }

  /** Store failures on the write surface through the constraint-code mapping: a
      fingerprint already held by another question raises `DuplicateValue`, and
      so does an injected unique violation; nothing else does. */
  lemma DuplicateIffFingerprintTaken(db: Db, faults: Faults, sign: string -> string,
                                     questionId: Id, contentId: Id, p: ContentPatch, scan: seq<Id>)
    requires IsScan(db, questionId, scan)
    requires Consistent(db)
    requires ContentQuery !in faults.failing && ContentListQuery !in faults.failing
    requires contentId in db.contents && db.contents[contentId].questionId == questionId
    ensures var h := ServiceHash(PatchEntries(ListContents(db, questionId, scan), contentId, p));
      UpdateQuestionContent(db, faults, sign, questionId, contentId, p, scan).result.Raises(DuplicateValue) <==>
        (questionId in db.questions && HashTaken(db, questionId, h)) ||
        faults.write == Some(IntegrityFailure(Some(UniqueViolationCode)))
  {
    var h := ServiceHash(PatchEntries(ListContents(db, questionId, scan), contentId, p));
    var w := UpdateContentDb(db, contentId, p, h, faults.write);
    if w.Raised? {
      assert WriteErrorKind(w.failure, ContentPolicy) == DuplicateValue <==>
        w.failure == IntegrityFailure(Some(UniqueViolationCode));
    }
  }

  /** Once the reads pass, the write decides the outcome: a fingerprint held by
      another question or a reported 23505 raises `DuplicateValue`; otherwise
      23503 raises `ForeignKeyViolation`, every other store failure
      `PersistenceError`, and so does a failed refresh after the commit. After a
      committed and refreshed write, the response schema decides: the update
      succeeds iff it accepts the signed row, and otherwise raises
      `ValidationError` with the patch stored. */
  lemma WriteFailureMapping(db: Db, faults: Faults, sign: string -> string,
                            questionId: Id, contentId: Id, p: ContentPatch, scan: seq<Id>)
    requires IsScan(db, questionId, scan)
    requires Consistent(db)
    requires ContentQuery !in faults.failing && ContentListQuery !in faults.failing
    requires contentId in db.contents && db.contents[contentId].questionId == questionId
    ensures var h := ServiceHash(PatchEntries(ListContents(db, questionId, scan), contentId, p));
      var taken := questionId in db.questions && HashTaken(db, questionId, h);
      var r := UpdateQuestionContent(db, faults, sign, questionId, contentId, p, scan).result;
      var response := Entry(contentId, SignIfImage(ApplyPatch(db.contents[contentId].block, p), sign));
      var committed := !taken && faults.write.None? && RefreshQuery !in faults.failing;
      (r.Ok? <==> committed && QuestionContentResponseValid(response)) &&
      (r.Raises(ValidationError) <==> committed && !QuestionContentResponseValid(response)) &&
      (r.Raises(ValidationError) ==>
        UpdateQuestionContent(db, faults, sign, questionId, contentId, p, scan).db == PatchedState(db, contentId, p, h)) &&
      (r.Raises(ForeignKeyViolation) <==> !taken && faults.write == Some(IntegrityFailure(Some(ForeignKeyViolationCode)))) &&
      (r.Raises(PersistenceError) <==>
        (!taken &&
         ((faults.write.Some? && faults.write != Some(IntegrityFailure(Some(UniqueViolationCode))) &&
           faults.write != Some(IntegrityFailure(Some(ForeignKeyViolationCode)))) ||
          (faults.write.None? && RefreshQuery in faults.failing))))
  {
    var h := ServiceHash(PatchEntries(ListContents(db, questionId, scan), contentId, p));
    var w := UpdateContentDb(db, contentId, p, h, faults.write);
    assert UpdateQuestionContent(db, faults, sign, questionId, contentId, p, scan)
        == CommitPatch(db, faults, sign, contentId, p, h);
    if w.Raised? {
      assert w.failure == IntegrityFailure(Some(UniqueViolationCode)) || Some(w.failure) == faults.write;
    }
  }

  /** A failed refresh after the commit raises `PersistenceError`, yet the store
      keeps exactly the patched row and fingerprint a refresh that worked would
      have reported. */
  lemma RefreshFailureKeepsCommit(db: Db, faults: Faults, sign: string -> string,
                                  questionId: Id, contentId: Id, p: ContentPatch, scan: seq<Id>)
    requires IsScan(db, questionId, scan)
    requires RefreshQuery in faults.failing
    requires UpdateQuestionContent(db, faults.(failing := faults.failing - {RefreshQuery}), sign, questionId, contentId, p, scan).result.Ok?
    ensures UpdateQuestionContent(db, faults, sign, questionId, contentId, p, scan) ==
      Outcome(UpdateQuestionContent(db, faults.(failing := faults.failing - {RefreshQuery}), sign, questionId, contentId, p, scan).db,
              Err(Fail(PersistenceError)))
  {
    var f := faults.(failing := faults.failing - {RefreshQuery});
    assert forall x :: x != RefreshQuery ==> (x in f.failing <==> x in faults.failing);
    var h := ServiceHash(PatchEntries(ListContents(db, questionId, scan), contentId, p));
    assert UpdateQuestionContent(db, f, sign, questionId, contentId, p, scan) == CommitPatch(db, f, sign, contentId, p, h);
    assert UpdateQuestionContent(db, faults, sign, questionId, contentId, p, scan) == CommitPatch(db, faults, sign, contentId, p, h);
  }

  /** The fingerprint written is the domain fingerprint of the patched block list. */
  lemma WrittenHashIsFingerprint(db: Db, faults: Faults, sign: string -> string,
                                 questionId: Id, contentId: Id, p: ContentPatch, scan: seq<Id>)
    requires IsScan(db, questionId, scan)
    requires UpdateQuestionContent(db, faults, sign, questionId, contentId, p, scan).result.Ok?
    requires questionId in db.questions
    ensures UpdateQuestionContent(db, faults, sign, questionId, contentId, p, scan).db.questions[questionId].hash
         == QuestionHashOf(MapSeq(PatchEntries(ListContents(db, questionId, scan), contentId, p), BlockOf))
  {
    ServiceHashAgrees(PatchEntries(ListContents(db, questionId, scan), contentId, p));
  }

  /** Two scans of the same rows list the same entries, only possibly in another order. */
  lemma ScansListSameRows(db: Db, questionId: Id, scan1: seq<Id>, scan2: seq<Id>)
    requires IsScan(db, questionId, scan1) && IsScan(db, questionId, scan2)
    ensures multiset(ListContents(db, questionId, scan1)) == multiset(ListContents(db, questionId, scan2))
  {
    var l1 := ListContents(db, questionId, scan1);
    var l2 := ListContents(db, questionId, scan2);
    assert Distinct(l1) && Distinct(l2);
    assert SetOf(l1) == SetOf(l2) by {
      forall e ensures e in SetOf(l1) <==> e in SetOf(l2) {
        assert e in l1 <==> IsRowOf(db, questionId, e);
        assert e in l2 <==> IsRowOf(db, questionId, e);
      }
    }
    SameSetSameMultiset(l1, l2);
  }

  /** When the patched blocks carry pairwise distinct orders, the new fingerprint
      does not depend on how the database breaks ties. With two blocks of equal
      order it can: their texts are concatenated in scan order. */
  lemma FingerprintIgnoresScan(db: Db, questionId: Id, contentId: Id, p: ContentPatch,
                               scan1: seq<Id>, scan2: seq<Id>)
    requires IsScan(db, questionId, scan1) && IsScan(db, questionId, scan2)
    requires KeysDistinct(PatchEntries(ListContents(db, questionId, scan1), contentId, p), EntryOrder)
    ensures ServiceHash(PatchEntries(ListContents(db, questionId, scan1), contentId, p))
         == ServiceHash(PatchEntries(ListContents(db, questionId, scan2), contentId, p))
  {
    var l1 := ListContents(db, questionId, scan1);
    var l2 := ListContents(db, questionId, scan2);
    var f := e => PatchOne(contentId, p, e);
    ScansListSameRows(db, questionId, scan1, scan2);
    PatchAsMap(l1, contentId, p);
    PatchAsMap(l2, contentId, p);
    MultisetMapSeq(l1, l2, f);
    SortPermutationInvariant(MapSeq(l1, f), MapSeq(l2, f), EntryOrder);
  }

  /** Under the same condition the whole update, store and response, is the same for every scan. */
  lemma UpdateIgnoresScan(db: Db, faults: Faults, sign: string -> string,
                          questionId: Id, contentId: Id, p: ContentPatch, scan1: seq<Id>, scan2: seq<Id>)
    requires IsScan(db, questionId, scan1) && IsScan(db, questionId, scan2)
    requires KeysDistinct(PatchEntries(ListContents(db, questionId, scan1), contentId, p), EntryOrder)
    ensures UpdateQuestionContent(db, faults, sign, questionId, contentId, p, scan1)
         == UpdateQuestionContent(db, faults, sign, questionId, contentId, p, scan2)
  {
    if ContentQuery !in faults.failing && GetQuestionContent(db, questionId, contentId).Some?
       && ContentListQuery !in faults.failing {
      FingerprintIgnoresScan(db, questionId, contentId, p, scan1, scan2);
      var h := ServiceHash(PatchEntries(ListContents(db, questionId, scan1), contentId, p));
      assert UpdateQuestionContent(db, faults, sign, questionId, contentId, p, scan1)
          == CommitPatch(db, faults, sign, contentId, p, h);
    }
  }
}

=== FILE: question_repository.dfy ===
/** The question repository over the store: id-ordered paging, existence,
    delete, partial field update and create. */
module QuestionRepository {
  import opened Common
  import opened Errors
  import opened QuestionHash
  import opened Store
  import opened Pagination

  /** `OFFSET offset LIMIT limit` over an ordered listing. */
  function Window(all: seq<Id>, offset: nat, limit: nat): (r: seq<Id>)
    ensures |r| <= limit
    ensures forall k :: 0 <= k < |r| ==> offset + k < |all| && r[k] == all[offset + k]
    ensures |r| == limit || offset + |r| >= |all|
  {
    var lo := if offset < |all| then offset else |all|;
    var hi := if offset + limit < |all| then offset + limit else |all|;
    all[lo..hi]
  }

  /** `get_questions_db(page, limit)`: the ids of the page `[(page-1)*limit, page*limit)`
      of the id-ordered questions. A negative LIMIT or OFFSET is rejected by the store. */
  function GetQuestions(db: Db, page: int, limit: int): (r: Option<seq<Id>>)
    ensures r.None? <==> limit < 0 || (page - 1) * limit < 0
    ensures r.Some? ==> |r.value| <= limit && Increasing(r.value)
    ensures r.Some? ==> forall k :: 0 <= k < |r.value| ==> r.value[k] in db.questions
    ensures r.Some? ==> r.value == Window(SortedIds(db.questions.Keys), (page - 1) * limit, limit)
  {
    var offset := (page - 1) * limit;
    if limit < 0 || offset < 0 then None
    else
      var all := SortedIds(db.questions.Keys);
      var w := Window(all, offset, limit);
      assert forall k :: 0 <= k < |w| ==> w[k] in SetOf(all);
      Some(w)
  }

  /** Every stored question appears on exactly one page: the `i`-th smallest id is
      on page `i / limit + 1` and on no other. */
  lemma PageOfIndex(db: Db, limit: int, i: nat, page: int)
    requires limit > 0 && i < |db.questions| && page >= 1
    ensures var id := SortedIds(db.questions.Keys)[i];
      var home := GetQuestions(db, i / limit + 1, limit);
      home.Some? && id in home.value &&
      (var p := GetQuestions(db, page, limit); p.Some? && id in p.value ==> page == i / limit + 1)
  {
    HomePage(db, limit, i);
    OnlyPage(db, limit, i, page);
  }

  lemma HomePage(db: Db, limit: int, i: nat)
    requires limit > 0 && i < |db.questions|
    ensures var home := GetQuestions(db, i / limit + 1, limit);
      home.Some? && |home.value| > i % limit &&
      home.value[i % limit] == SortedIds(db.questions.Keys)[i]
  {
    DivMod(i, limit);
    PageAt(db, limit, i / limit, i % limit, i);
  }

  /** Position `r` of page `q + 1` is the listing's position `q * limit + r`. */
  lemma PageAt(db: Db, limit: int, q: nat, r: nat, i: nat)
    requires limit > 0 && r < limit
    requires q * limit + r == i && i < |db.questions|
    ensures var home := GetQuestions(db, q + 1, limit);
      home.Some? && |home.value| > r && home.value[r] == SortedIds(db.questions.Keys)[i]
  {
    var offset := q * limit;
    MulNonneg(q, limit);
    assert (q + 1 - 1) * limit == offset;
    PageWindow(db, q + 1, limit, offset);
    WindowCovers(SortedIds(db.questions.Keys), offset, limit, r);
  }

  /** A page whose offset is not negative is that window of the listing. */
  lemma PageWindow(db: Db, page: int, limit: int, offset: nat)
    requires limit > 0 && offset == (page - 1) * limit
    ensures GetQuestions(db, page, limit) == Some(Window(SortedIds(db.questions.Keys), offset, limit))
  {
  }

  /** A position inside both the listing and the window's span is in the window. */
  lemma WindowCovers(all: seq<Id>, offset: nat, limit: nat, r: nat)
    requires r < limit && offset + r < |all|
    ensures |Window(all, offset, limit)| > r && Window(all, offset, limit)[r] == all[offset + r]
  {
  }

  lemma OnlyPage(db: Db, limit: int, i: nat, page: int)
    requires limit > 0 && i < |db.questions| && page >= 1
    ensures var p := GetQuestions(db, page, limit);
      p.Some? && SortedIds(db.questions.Keys)[i] in p.value ==> page == i / limit + 1
  {
    var all := SortedIds(db.questions.Keys);
    var p := GetQuestions(db, page, limit);
    if p.Some? && all[i] in p.value {
      var k :| 0 <= k < |p.value| && p.value[k] == all[i];
      var j := (page - 1) * limit + k;
      assert all[j] == all[i];
      assert j == i;
      DivUnique(i, limit, page - 1);
    }
  }

  /** With the page count of the total row count, every page up to the last is
      non-empty and the page after the last is empty. */
  lemma PagesMatchCount(db: Db, limit: int, page: int)
    requires limit > 0 && |db.questions| > 0 && 1 <= page
    ensures var pages := PageCount(|db.questions|, limit);
      var r := GetQuestions(db, page, limit);
      r.Some? && (page <= pages ==> |r.value| > 0) && (page > pages ==> |r.value| == 0)
  {
    var all := SortedIds(db.questions.Keys);
    var offset := (page - 1) * limit;
    OffsetBounds(|db.questions|, limit, page);
    PageWindow(db, page, limit, offset);
    if page <= PageCount(|db.questions|, limit) {
      WindowCovers(all, offset, limit, 0);
    } else {
      WindowPast(all, offset, limit);
    }
  }

  /** Page `page` starts inside the listing exactly when it is at most the page count. */
  lemma OffsetBounds(total: int, limit: int, page: int)
    requires limit > 0 && total > 0 && page >= 1
    ensures var offset := (page - 1) * limit;
      offset >= 0 &&
      (page <= PageCount(total, limit) ==> offset < total) &&
      (page > PageCount(total, limit) ==> offset >= total)
  {
    var pages := PageCount(total, limit);
    MulNonneg(page - 1, limit);
    MulOrder(page - 1, pages - 1, limit);
    MulOrder(pages, page - 1, limit);
  }

  lemma WindowPast(all: seq<Id>, offset: nat, limit: nat)
    requires offset >= |all|
    ensures |Window(all, offset, limit)| == 0
  {
  }

  /** `question_exists_db`. */
  function QuestionExists(db: Db, id: Id): (b: bool)
    ensures b <==> id in db.questions
  {
    id in db.questions
  }

  /** `delete_question_db`: an absent id returns false and writes nothing. A
      present one is removed by a bulk `DELETE`, which bypasses the ORM cascades:
      while a child row still refers to the question the store refuses it with
      foreign_key_violation, and the transaction is rolled back. Otherwise it is
      removed and true returned once the commit succeeds. */
  function DeleteQuestion(db: Db, id: Id, fault: Option<StoreFailure>): (w: Write<bool>)
    ensures id !in db.questions ==> w == Wrote(db, false)
    ensures w.Wrote? && w.value ==>
      id in db.questions && !Referenced(db, id) && w.db == db.(questions := db.questions - {id})
    ensures id in db.questions && Referenced(db, id) ==> w == Raised(IntegrityFailure(Some(ForeignKeyViolationCode)))
    ensures Consistent(db) && id in db.questions ==> (w.Wrote? <==> fault.None? && !Referenced(db, id))
  {
    if id !in db.questions then Wrote(db, false)
    else if Referenced(db, id) then Raised(IntegrityFailure(Some(ForeignKeyViolationCode)))
    else Commit(db.(questions := db.questions - {id}), true, fault)
  }

  /** Because a referenced question is refused, a delete never leaves a child row
      pointing at a question that no longer exists. */
  lemma DeleteLeavesNoOrphans(db: Db, id: Id, fault: Option<StoreFailure>)
    requires QuestionsResolve(db)
    ensures QuestionsResolve(After(db, DeleteQuestion(db, id, fault)))
  {
    var w := DeleteQuestion(db, id, fault);
    if w.Wrote? && id in db.questions {
      var next := w.db;
      forall c | c in next.contents ensures next.contents[c].questionId in next.questions {
        assert db.contents[c].questionId != id;
      }
      forall c | c in next.choices ensures next.choices[c].questionId in next.questions {
        assert db.choices[c].questionId != id;
      }
      forall c | c in next.solutions ensures next.solutions[c].questionId in next.questions {
        assert db.solutions[c].questionId != id;
      }
      forall c | c in next.citations ensures next.citations[c].questionId in next.questions {
        assert db.citations[c].questionId != id;
      }
    }
  }

  /** After a successful delete the question no longer exists, and deleting it again returns false. */
  lemma DeleteThenAbsent(db: Db, id: Id, fault: Option<StoreFailure>, again: Option<StoreFailure>)
    requires DeleteQuestion(db, id, fault).Wrote?
    ensures var after := DeleteQuestion(db, id, fault).db;
      !QuestionExists(after, id) && DeleteQuestion(after, id, again) == Wrote(after, false)
  {
  }

  /** `update_question_fields_db`: assigns exactly the keys of `data` on the
      question's columns and returns nothing, whether or not the question exists. */
  function UpdateQuestionFields(db: Db, id: Id, data: map<string, FieldValue>, fault: Option<StoreFailure>): (w: Write<()>)
    ensures id !in db.questions ==> w == Wrote(db, ())
    ensures w.Wrote? && id in db.questions ==>
      w.db.questions.Keys == db.questions.Keys &&
      w.db == db.(questions := w.db.questions) &&
      (forall p :: p in db.questions && p != id ==> w.db.questions[p] == db.questions[p]) &&
      w.db.questions[id].hash == db.questions[id].hash &&
      w.db.questions[id].fields.Keys == db.questions[id].fields.Keys + data.Keys &&
      (forall k :: k in data ==> w.db.questions[id].fields[k] == data[k]) &&
      (forall k :: k in db.questions[id].fields && k !in data ==>
        w.db.questions[id].fields[k] == db.questions[id].fields[k])
    ensures Consistent(db) ==> (w.Wrote? <==> id !in db.questions || fault.None?)
  {
    if id !in db.questions then Wrote(db, ())
    else
      var q := db.questions[id];
      var next := db.(questions := db.questions[id := q.(fields := q.fields + data)]);
      assert HashesUnique(db) ==> HashesUnique(next) by {
        if HashesUnique(db) {
          forall q1, q2 | q1 in next.questions && q2 in next.questions && q1 != q2
            ensures next.questions[q1].hash != next.questions[q2].hash
          {
            assert next.questions[q1].hash == db.questions[q1].hash;
            assert next.questions[q2].hash == db.questions[q2].hash;
          }
        }
      }
      Commit(next, (), fault)
  }

  /** `create_question_db` with the key the store assigns: the commit fails with
      unique_violation exactly when another question already has the fingerprint. */
  function CreateQuestion(db: Db, id: Id, q: Question, fault: Option<StoreFailure>): (w: Write<Question>)
    requires id !in db.questions
    ensures w.Wrote? ==> w.value == q && w.db == db.(questions := db.questions[id := q])
    ensures Consistent(db) ==>
      (w == Raised(IntegrityFailure(Some(UniqueViolationCode))) <==>
        HashTaken(db, id, q.hash) || fault == Some(IntegrityFailure(Some(UniqueViolationCode))))
    ensures Consistent(db) ==> (w.Wrote? <==> !HashTaken(db, id, q.hash) && fault.None?)
  {
    var next := db.(questions := db.questions[id := q]);
    assert Consistent(db) ==> (HashesUnique(next) <==> !HashTaken(db, id, q.hash)) by {
      if Consistent(db) && HashTaken(db, id, q.hash) {
        var p :| p in db.questions && p != id && db.questions[p].hash == q.hash;
        assert next.questions[p].hash == next.questions[id].hash;
      }
    }
    Commit(next, q, fault)
  }
}

=== FILE: question_schemas.dfy ===
/** The request shapes of the question API: the `QuestionType` enum, the bounds
    each field carries, and the two validators of `QuestionCreateInput.choices`
    (exactly one correct choice; normalized content values distinct across all
    choices). */
module QuestionSchemas {
  import opened Common
  import opened Text
  import opened Content

  /** The `QuestionType` integer enum. */
  datatype QuestionType = Direct | TrueFalse | Matching | Ordering | Completion

  function QuestionTypeValue(t: QuestionType): int {
    match t
    case Direct => 1
    case TrueFalse => 2
    case Matching => 3
    case Ordering => 4
    case Completion => 5
  }

  /** Enum lookup by value, as pydantic validates `question_type_id`. */
  function ParseQuestionType(n: int): (r: Option<QuestionType>)
    ensures r.Some? <==> 1 <= n <= 5
    ensures r.Some? ==> QuestionTypeValue(r.value) == n
  {
    if n == 1 then Some(Direct)
    else if n == 2 then Some(TrueFalse)
    else if n == 3 then Some(Matching)
    else if n == 4 then Some(Ordering)
    else if n == 5 then Some(Completion)
    else None
  }

  /** Every member parses back from its value, and the values are 1..5 without repeats. */
  lemma QuestionTypeRoundTrip(t: QuestionType, u: QuestionType)
    ensures ParseQuestionType(QuestionTypeValue(t)) == Some(t)
    ensures 1 <= QuestionTypeValue(t) <= 5
    ensures QuestionTypeValue(t) == QuestionTypeValue(u) ==> t == u
  {
  }

  /** `ChoiceCreateInput`: a label, the correctness flag and its content blocks. */
  datatype ChoiceInput = ChoiceInput(letter: string, isCorrect: bool, contents: seq<Block>)

  /** `ChoiceCreateInput`'s own bounds: a label of at most one character and at
      least one valid content block. */
  predicate ChoiceInputValid(c: ChoiceInput) {
    |c.letter| <= 1 && |c.contents| >= 1 &&
    forall k :: 0 <= k < |c.contents| ==> ChoiceContentValid(c.contents[k])
  }

  /** `SolutionCreateInput` (and the identical `SolutionUpdateInput`): at least one valid block. */
  predicate SolutionInputValid(contents: seq<Block>) {
    |contents| >= 1 && forall k :: 0 <= k < |contents| ==> SolutionContentValid(contents[k])
  }

  /** The body of a `QuestionCreateInput` request as sent. The three list fields
      may be left out (`None`): pydantic then fills in the `default_factory=list`
      default without validating it, so neither the length bounds nor the
      `choices` validators see an omitted list. */
  datatype CreateInput = CreateInput(
    questionType: int, subtopicId: Id, difficultyId: Id, areaIds: Option<seq<Id>>,
    contents: Option<seq<Block>>, solution: seq<Block>, choices: Option<seq<ChoiceInput>>)

  /** The validated `QuestionCreateInput`: omitted lists are empty. */
  datatype CreateModel = CreateModel(
    questionType: QuestionType, subtopicId: Id, difficultyId: Id, areaIds: seq<Id>,
    contents: seq<Block>, solution: seq<Block>, choices: seq<ChoiceInput>)

  /** The `is_correct` flags in choice order. */
  function CorrectFlags(cs: seq<ChoiceInput>): (r: seq<bool>)
    ensures |r| == |cs| && forall k :: 0 <= k < |cs| ==> r[k] == cs[k].isCorrect
  {
    MapSeq(cs, (c: ChoiceInput) => c.isCorrect)
  }

  /** `sum(1 for c in choices if c.is_correct)`. */
  function CorrectCount(cs: seq<ChoiceInput>): (n: nat)
    ensures n <= |cs|
  {
    CountTrue(CorrectFlags(cs))
  }

  /** The normalized values of one choice's blocks, in order. */
  function ChoiceValues(c: ChoiceInput): seq<string> {
    MapSeq(c.contents, NormalizedValue)
  }

  /** The normalized values of all choices' blocks, choice after choice. */
  function AllValues(cs: seq<ChoiceInput>): seq<string> {
    if |cs| == 0 then [] else AllValues(cs[..|cs| - 1]) + ChoiceValues(cs[|cs| - 1])
  }

  /** Which of the `choices` checks fails: the list's length bounds, the items'
      own schema, `validate_single_correct`, then `validate_unique_responses`. */
  datatype ChoicesViolation = ChoiceCountOutOfRange | InvalidChoice | NotSingleCorrect | RepeatedResponse

  /** Every choice passes `ChoiceCreateInput`'s own bounds. */
  predicate AllChoicesValid(cs: seq<ChoiceInput>) {
    forall k :: 0 <= k < |cs| ==> ChoiceInputValid(cs[k])
  }

  /** `validate_unique_responses`: walks every block of every choice, remembering
      the normalized values seen so far, and stops at the first repeat. */
  method UniqueResponses(choices: seq<ChoiceInput>) returns (ok: bool)
    ensures ok <==> Distinct(AllValues(choices))
  {
    var seen: set<string> := {};
    ghost var walked: seq<string> := [];
    var i := 0;
    while i < |choices|
      invariant 0 <= i <= |choices|
      invariant walked == AllValues(choices[..i])
      invariant seen == SetOf(walked) && Distinct(walked)
    {
      var clear;
      clear, seen, walked := ScanChoice(choices[i], seen, walked);
      if !clear {
        ChoicePrefix(choices, i);
        PrefixRepeats(AllValues(choices[..i]) + ChoiceValues(choices[i]), AllValues(choices));
        return false;
      }
      AllValuesStep(choices, i);
      i := i + 1;
    }
    assert choices[..i] == choices;
    return true;
  }

  /** The inner loop over one choice's blocks: adds each normalized value to
      `seen`, and stops at the first one already there. */
  method ScanChoice(c: ChoiceInput, seen0: set<string>, ghost walked0: seq<string>)
    returns (clear: bool, seen: set<string>, ghost walked: seq<string>)
    requires seen0 == SetOf(walked0) && Distinct(walked0)
    ensures clear <==> Distinct(walked0 + ChoiceValues(c))
    ensures clear ==> walked == walked0 + ChoiceValues(c) && seen == SetOf(walked)
  {
    seen, walked := seen0, walked0;
    var j := 0;
    while j < |c.contents|
      invariant 0 <= j <= |c.contents|
      invariant walked == walked0 + ChoiceValues(c)[..j]
      invariant seen == SetOf(walked) && Distinct(walked)
    {
      var normalized := Normalize(c.contents[j].value);
      if normalized in seen {
        RepeatInChoice(walked0, c, j);
        return false, seen, walked;
      }
      ExtendWalk(walked0, c, j);
      walked := walked + [normalized];
      seen := seen + {normalized};
      j := j + 1;
    }
    assert ChoiceValues(c)[..j] == ChoiceValues(c);
    return true, seen, walked;
  }

  lemma RepeatInChoice(walked0: seq<string>, c: ChoiceInput, j: nat)
    requires j < |c.contents|
    requires Normalize(c.contents[j].value) in SetOf(walked0 + ChoiceValues(c)[..j])
    ensures !Distinct(walked0 + ChoiceValues(c))
  {
    ValuesStep(c, j);
    RepeatAt(walked0, ChoiceValues(c), j, walked0 + ChoiceValues(c));
  }

  lemma ExtendWalk(walked0: seq<string>, c: ChoiceInput, j: nat)
    requires j < |c.contents|
    requires Distinct(walked0 + ChoiceValues(c)[..j])
    requires Normalize(c.contents[j].value) !in SetOf(walked0 + ChoiceValues(c)[..j])
    ensures var v, w := Normalize(c.contents[j].value), walked0 + ChoiceValues(c)[..j];
      w + [v] == walked0 + ChoiceValues(c)[..j + 1] && Distinct(w + [v]) && SetOf(w + [v]) == SetOf(w) + {v}
  {
    var w := walked0 + ChoiceValues(c)[..j];
    ValuesStep(c, j);
    AppendFresh(w, Normalize(c.contents[j].value));
    SeqAssoc(walked0, ChoiceValues(c)[..j], [ChoiceValues(c)[j]]);
  }

  lemma PrefixRepeats(pre: seq<string>, all: seq<string>)
    requires pre <= all && !Distinct(pre)
    ensures !Distinct(all)
  {
    var a, b :| 0 <= a < b < |pre| && pre[a] == pre[b];
    assert all[a] == pre[a] && all[b] == pre[b];
  }

  lemma ValuesStep(c: ChoiceInput, j: nat)
    requires j < |c.contents|
    ensures ChoiceValues(c)[j] == Normalize(c.contents[j].value)
    ensures ChoiceValues(c)[..j + 1] == ChoiceValues(c)[..j] + [ChoiceValues(c)[j]]
  {
  }

  lemma AppendFresh(xs: seq<string>, v: string)
    requires Distinct(xs) && v !in SetOf(xs)
    ensures Distinct(xs + [v]) && SetOf(xs + [v]) == SetOf(xs) + {v}
  {
    assert forall k :: 0 <= k < |xs| ==> xs[k] in SetOf(xs);
  }

  lemma AllValuesSnoc(cs: seq<ChoiceInput>, c: ChoiceInput)
    ensures AllValues(cs + [c]) == AllValues(cs) + ChoiceValues(c)
  {
    assert (cs + [c])[..|cs|] == cs;
  }

  /** The values of the first `k` choices open the values of all of them. */
  lemma {:induction false} AllValuesPrefix(cs: seq<ChoiceInput>, k: nat)
    requires k <= |cs|
    ensures AllValues(cs[..k]) <= AllValues(cs)
    decreases |cs| - k
  {
    if k < |cs| {
      AllValuesPrefix(cs, k + 1);
      AllValuesStep(cs, k);
    } else {
      assert cs[..k] == cs;
    }
  }

  /** The values of choice `i` follow those of the choices before it. */
  lemma ChoicePrefix(cs: seq<ChoiceInput>, i: nat)
    requires i < |cs|
    ensures AllValues(cs[..i]) + ChoiceValues(cs[i]) <= AllValues(cs)
  {
    AllValuesStep(cs, i);
    AllValuesPrefix(cs, i + 1);
  }

  lemma AllValuesStep(cs: seq<ChoiceInput>, i: nat)
    requires i < |cs|
    ensures AllValues(cs[..i + 1]) == AllValues(cs[..i]) + ChoiceValues(cs[i])
  {
    assert cs[..i + 1] == cs[..i] + [cs[i]];
    AllValuesSnoc(cs[..i], cs[i]);
  }

  /** A value already seen, met again at position `j` of a block of values, makes
      any walk that contains that block repeat. */
  lemma RepeatAt(front: seq<string>, cv: seq<string>, j: nat, all: seq<string>)
    requires j < |cv| && front + cv <= all
    requires cv[j] in SetOf(front + cv[..j])
    ensures !Distinct(all)
  {
    assert front + cv[..j + 1] == (front + cv)[..|front| + j + 1];
    assert front + cv[..j + 1] == (front + cv[..j]) + [cv[j]];
    RepeatInSeq(all, front + cv[..j], cv[j]);
  }

  lemma RepeatInSeq(all: seq<string>, pre: seq<string>, v: string)
    requires pre + [v] <= all && v in SetOf(pre)
    ensures !Distinct(all)
  {
    var k :| 0 <= k < |pre| && pre[k] == v;
    assert all[k] == (pre + [v])[k];
    assert all[|pre|] == (pre + [v])[|pre|];
  }

  /** The `choices` checks of a list that was sent, in the order pydantic applies
      them. The list validator counts items as it validates them and stops with
      a length error alone as soon as a sixth item arrives, dropping any item
      errors seen so far; it checks the minimum length only once every item is
      valid; the two field validators run only on a list that passed all that. */
  function CheckChoices(cs: seq<ChoiceInput>): (r: Option<ChoicesViolation>)
    ensures r.None? <==> 4 <= |cs| <= 5 && AllChoicesValid(cs) && CorrectCount(cs) == 1 && Distinct(AllValues(cs))
    ensures r == Some(ChoiceCountOutOfRange) <==> |cs| > 5 || (|cs| < 4 && AllChoicesValid(cs))
    ensures r == Some(InvalidChoice) <==> |cs| <= 5 && !AllChoicesValid(cs)
    ensures r == Some(NotSingleCorrect) <==> 4 <= |cs| <= 5 && AllChoicesValid(cs) && CorrectCount(cs) != 1
    ensures r == Some(RepeatedResponse) <==>
      4 <= |cs| <= 5 && AllChoicesValid(cs) && CorrectCount(cs) == 1 && !Distinct(AllValues(cs))
  {
    if |cs| > 5 then Some(ChoiceCountOutOfRange)
    else if !AllChoicesValid(cs) then Some(InvalidChoice)
    else if |cs| < 4 then Some(ChoiceCountOutOfRange)
    else if CorrectCount(cs) != 1 then Some(NotSingleCorrect)
    else if !Distinct(AllValues(cs)) then Some(RepeatedResponse)
    else None
  }

  /** A choice with a two-character label is reported in a list of three, but a
      list of six reports only its length, whatever its items hold. */
  lemma LengthErrorHidesItems(good: ChoiceInput, bad: ChoiceInput)
    requires ChoiceInputValid(good) && |bad.letter| == 2
    ensures CheckChoices([bad, good, good]) == Some(InvalidChoice)
    ensures CheckChoices([bad, good, good, good, good, good]) == Some(ChoiceCountOutOfRange)
  {
    assert !ChoiceInputValid([bad, good, good][0]);
  }

  /** Exactly one correct choice means one index is correct and no other is. */
  lemma SingleCorrectIff(cs: seq<ChoiceInput>)
    ensures CorrectCount(cs) == 1 <==>
      exists k :: 0 <= k < |cs| && cs[k].isCorrect && forall j :: 0 <= j < |cs| && j != k ==> !cs[j].isCorrect
  {
    CountOneIff(CorrectFlags(cs));
  }

  /** `QuestionCreateInput` as a whole: a known question type; `area_ids`, when
      sent, non-empty; every sent content block within its schema; a valid
      solution; `choices`, when sent, passing the `choices` checks. The
      question's own content list has no minimum length. */
  predicate CreateInputValid(x: CreateInput) {
    ParseQuestionType(x.questionType).Some? &&
    (x.areaIds.None? || |x.areaIds.value| >= 1) &&
    (x.contents.None? || forall k :: 0 <= k < |x.contents.value| ==> QuestionContentValid(x.contents.value[k])) &&
    SolutionInputValid(x.solution) &&
    (x.choices.None? || CheckChoices(x.choices.value).None?)
  }

  /** Validation of a `QuestionCreateInput` body: the model when every rule holds,
      with omitted lists taken as empty. */
  function ValidateCreateInput(x: CreateInput): (r: Option<CreateModel>)
    ensures r.Some? <==> CreateInputValid(x)
    ensures r.Some? ==>
      QuestionTypeValue(r.value.questionType) == x.questionType &&
      r.value.subtopicId == x.subtopicId && r.value.difficultyId == x.difficultyId &&
      r.value.areaIds == x.areaIds.GetOr([]) && r.value.contents == x.contents.GetOr([]) &&
      r.value.solution == x.solution && r.value.choices == x.choices.GetOr([])
    ensures r.Some? && x.choices.Some? ==>
      4 <= |r.value.choices| <= 5 && CorrectCount(r.value.choices) == 1 && Distinct(AllValues(r.value.choices))
    ensures r.Some? && x.areaIds.Some? ==> |r.value.areaIds| >= 1
  {
    if !CreateInputValid(x) then None
    else
      Some(CreateModel(ParseQuestionType(x.questionType).value, x.subtopicId, x.difficultyId,
        x.areaIds.GetOr([]), x.contents.GetOr([]), x.solution, x.choices.GetOr([])))
  }

  /** The defaults are not validated: a body that leaves out `choices` and
      `area_ids` is accepted with no choices and no areas, while the same body
      sending those empty lists is refused. */
  lemma OmittedListsUnchecked(x: CreateInput)
    requires CreateInputValid(x)
    ensures var omitted := x.(areaIds := None, choices := None);
      ValidateCreateInput(omitted).Some? &&
      ValidateCreateInput(omitted).value.choices == [] && ValidateCreateInput(omitted).value.areaIds == []
    ensures ValidateCreateInput(x.(choices := Some([]))).None?
    ensures ValidateCreateInput(x.(areaIds := Some([]))).None?
  {
  }

  /** Values differing only in padding or case collide across choices. */
  lemma PaddingAndCaseCollide(a: Block, b: Block, pre: string, post: string)
    requires b.value == pre + a.value + post && AllSpace(pre) && AllSpace(post)
    ensures NormalizedValue(a) == NormalizedValue(b)
    ensures !Distinct(AllValues([ChoiceInput("A", true, [a]), ChoiceInput("B", false, [b])]))
  {
    NormalizeIgnoresPadding(pre, a.value, post);
    var x := ChoiceInput("A", true, [a]);
    var y := ChoiceInput("B", false, [b]);
    TwoChoices(x, y);
    assert AllValues([x, y])[0] == AllValues([x, y])[1];
  }

  lemma TwoChoices(x: ChoiceInput, y: ChoiceInput)
    requires |x.contents| == 1 && |y.contents| == 1
    ensures AllValues([x, y]) == [NormalizedValue(x.contents[0]), NormalizedValue(y.contents[0])]
  {
    AllValuesSnoc([], x);
    AllValuesSnoc([x], y);
    assert [x, y] == [x] + [y] && [x] == [] + [x];
  }

  /** The question's own content list has no minimum: sending it empty, or not at
      all, leaves a valid request valid. */
  lemma EmptyContentsAccepted(x: CreateInput)
    requires CreateInputValid(x)
    ensures CreateInputValid(x.(contents := Some([]))) && CreateInputValid(x.(contents := None))
  {
  }
}

=== FILE: references.dfy ===
/** The all-or-nothing lookups by id list: areas, sources and institutions. The
    request is read as a set, so repeated ids collapse, and every id that no row
    answers is reported together. */
module References {
  import opened Common
  import opened Errors
  import opened Store

  /** `set(ids) - found_ids`, where the store returns the rows whose id is in `ids`. */
  function Unanswered(table: set<Id>, ids: seq<Id>): (m: set<Id>)
    ensures forall i :: i in m <==> i in SetOf(ids) && i !in table
  {
    SetOf(ids) - table
  }

  /** The shared check: the rows found, or `ResourceNotFound` naming every missing id. */
  function AllOrNothing(table: set<Id>, ids: seq<Id>): (r: Result<set<Id>>)
    ensures r.Ok? <==> forall k :: 0 <= k < |ids| ==> ids[k] in table
    ensures r.Ok? ==> r.value == SetOf(ids)
    ensures r.Err? ==> r.error == Error(ResourceNotFound, MissingIds(Unanswered(table, ids))) && Unanswered(table, ids) != {}
  {
    var missing := Unanswered(table, ids);
    if missing != {} then
      Err(Error(ResourceNotFound, MissingIds(missing)))
    else
      assert forall k :: 0 <= k < |ids| ==> ids[k] in SetOf(ids);
      Ok(set i | i in table && i in SetOf(ids))
  }

  /** `AreaService.get_areas`; the area read has no handler, so a store failure is
      not part of this result. */
  function GetAreas(areas: set<Id>, ids: seq<Id>): (r: Result<set<Id>>)
    ensures r.Ok? <==> forall k :: 0 <= k < |ids| ==> ids[k] in areas
    ensures r.Ok? ==> r.value == SetOf(ids)
    ensures r.Err? ==> r.error == Error(ResourceNotFound, MissingIds(SetOf(ids) - areas))
  {
    AllOrNothing(areas, ids)
  }

  /** `SourceService.get_sources_by_ids`: a failing read raises `RetrievalError`;
      otherwise every requested id must name a stored source. */
  function GetSourcesByIds(db: Db, faults: Faults, ids: seq<Id>): (r: Result<set<Id>>)
    ensures SourcesQuery in faults.failing ==> r == Err(Fail(RetrievalError))
    ensures r.Ok? <==> SourcesQuery !in faults.failing && forall k :: 0 <= k < |ids| ==> ids[k] in db.sources
    ensures r.Ok? ==> r.value == SetOf(ids)
    ensures SourcesQuery !in faults.failing && r.Err? ==>
      r.error == Error(ResourceNotFound, MissingIds(SetOf(ids) - db.sources))
  {
    if SourcesQuery in faults.failing then Err(Fail(RetrievalError)) else AllOrNothing(db.sources, ids)
  }

  /** `InstitutionService.get_institutions_by_ids`, over the institution ids the
      store holds and whether the read fails. */
  function GetInstitutionsByIds(institutions: set<Id>, readFails: bool, ids: seq<Id>): (r: Result<set<Id>>)
    ensures readFails ==> r == Err(Fail(RetrievalError))
    ensures r.Ok? <==> !readFails && forall k :: 0 <= k < |ids| ==> ids[k] in institutions
    ensures r.Ok? ==> r.value == SetOf(ids)
    ensures !readFails && r.Err? ==> r.error == Error(ResourceNotFound, MissingIds(SetOf(ids) - institutions))
  {
    if readFails then Err(Fail(RetrievalError)) else AllOrNothing(institutions, ids)
  }

  /** The request is a set: repeating or reordering ids changes nothing. */
  lemma RequestIsASet(table: set<Id>, ids: seq<Id>, other: seq<Id>)
    requires SetOf(other) == SetOf(ids)
    ensures AllOrNothing(table, other) == AllOrNothing(table, ids)
  {
    assert forall k :: 0 <= k < |other| ==> other[k] in SetOf(ids);
    assert forall k :: 0 <= k < |ids| ==> ids[k] in SetOf(other);
  }

  /** `[1, 1]` with area 1 present succeeds, and an empty request never fails. */
  lemma DuplicatesAndEmpty(table: set<Id>)
    ensures AllOrNothing(table, []) == Ok({})
    ensures 1 in table ==> AllOrNothing(table, [1, 1]) == Ok({1})
    ensures 1 !in table ==> AllOrNothing(table, [1, 1]) == Err(Error(ResourceNotFound, MissingIds({1})))
  {
    var none: seq<Id> := [];
    assert SetOf(none) == {};
    assert SetOf([1, 1]) == {1};
    assert 1 !in table ==> Unanswered(table, [1, 1]) == {1};
  }
}

=== FILE: signer.dfy ===
/** `sign_image_contents`: the pass that replaces the storage object name held by
    every image block with a signed URL before a response leaves the service.
    The signer is an arbitrary one-argument function of the object name. */
module Signer {
  import opened Common
  import opened Content
  import opened QuestionHash

  /** One block through the signing pass: only the value of an image block changes. */
  function SignBlock(b: Block, sign: string -> string): (r: Block)
    ensures r.letter == b.letter && r.tag == b.tag && r.order == b.order
    ensures IsImage(b.tag) ==> r.value == sign(b.value)
    ensures !IsImage(b.tag) ==> r == b
  {
    if IsImage(b.tag) then b.(value := sign(b.value)) else b
  }

  /** `sign_image_contents(contents, sign)`, returning the mutated list. */
  function SignImageContents(bs: seq<Block>, sign: string -> string): (r: seq<Block>)
    ensures |r| == |bs|
    ensures forall i :: 0 <= i < |bs| ==> r[i].tag == bs[i].tag && r[i].order == bs[i].order
    ensures forall i :: 0 <= i < |bs| ==> r[i].letter == bs[i].letter
    ensures forall i :: 0 <= i < |bs| && IsImage(bs[i].tag) ==> r[i].value == sign(bs[i].value)
    ensures forall i :: 0 <= i < |bs| && !IsImage(bs[i].tag) ==> r[i] == bs[i]
  {
    if |bs| == 0 then [] else [SignBlock(bs[0], sign)] + SignImageContents(bs[1..], sign)
  }

  /** A list without image blocks passes through unchanged, so text blocks are
      never altered however many times the pass runs. */
  lemma TextOnlyUnchanged(bs: seq<Block>, sign: string -> string)
    requires forall i :: 0 <= i < |bs| ==> !IsImage(bs[i].tag)
    ensures SignImageContents(bs, sign) == bs
    ensures SignImageContents(SignImageContents(bs, sign), sign) == bs
  {
  }

  /** Running the pass twice signs every image value twice and keeps every text
      block as it was: the helper has no memory of what it already signed. */
  lemma SignTwice(bs: seq<Block>, sign: string -> string)
    ensures var r := SignImageContents(SignImageContents(bs, sign), sign);
      |r| == |bs| &&
      (forall i :: 0 <= i < |bs| && !IsImage(bs[i].tag) ==> r[i] == bs[i]) &&
      (forall i :: 0 <= i < |bs| && IsImage(bs[i].tag) ==> r[i].value == sign(sign(bs[i].value)))
  {
  }

  /** Both spellings of the image type are signed; a block typed "text" is not. */
  lemma SignRecognisesBothSpellings(b: Block, sign: string -> string)
    requires b.tag == Enum(ImageType) || b.tag == Raw("image")
    ensures SignBlock(b, sign).value == sign(b.value)
    ensures SignBlock(b.(tag := Enum(TextType)), sign) == b.(tag := Enum(TextType))
    ensures SignBlock(b.(tag := Raw("text")), sign) == b.(tag := Raw("text"))
  {
  }

  /** The fingerprint ignores image values, so signing never changes it. */
  lemma SignPreservesHash(bs: seq<Block>, sign: string -> string)
    ensures QuestionHashOf(SignImageContents(bs, sign)) == QuestionHashOf(bs)
  {
    var r := SignImageContents(bs, sign);
    forall i | 0 <= i < |bs| ensures ViewOf(r[i]) == ViewOf(bs[i]) {
    }
    HashByViews(r, bs);
  }
}

=== FILE: solution.dfy ===
/** `SolutionService.update_solution`: after the question guard, the solution is
    looked up under its question, its content list is replaced by the payload's
    blocks, and the image values of the returned solution are signed. */
module SolutionUpdate {
  import opened Common
  import opened Errors
  import opened Content
  import opened Signer
  import opened Store
  import opened QuestionGuard

  /** `get_solution_db`: found only under its own question. */
  function GetSolution(db: Db, q: Id, solutionId: Id): (r: Option<SolutionRow>)
    ensures r.Some? <==> solutionId in db.solutions && db.solutions[solutionId].questionId == q
    ensures r.Some? ==> r.value == db.solutions[solutionId]
  {
    if solutionId in db.solutions && db.solutions[solutionId].questionId == q then Some(db.solutions[solutionId])
    else None
  }

  /** `SolutionContent(type=..., value=..., order=...)` built from one payload item. */
  function AsSolutionContent(b: Block): (r: Block)
    ensures r.letter.None? && r.tag == b.tag && r.value == b.value && r.order == b.order
  {
    Block(None, b.tag, b.value, b.order)
  }

  /** `update_solution_db`: the content list is replaced wholesale. */
  function UpdateSolutionDb(db: Db, solutionId: Id, contents: seq<Block>, fault: Option<StoreFailure>): (w: Write<SolutionRow>)
    requires solutionId in db.solutions
    ensures w.Wrote? ==>
      w.value == db.solutions[solutionId].(contents := contents) &&
      w.db == db.(solutions := db.solutions[solutionId := w.value])
    ensures Consistent(db) ==> (w.Wrote? <==> fault.None?) && (w.Raised? ==> Some(w.failure) == fault)
  {
    var row := db.solutions[solutionId].(contents := contents);
    var next := db.(solutions := db.solutions[solutionId := row]);
    assert next.questions == db.questions && next.citations == db.citations && next.sources == db.sources;
    Commit(next, row, fault)
  }

  /** `SolutionPublic`. */
  datatype SolutionPublic = SolutionPublic(id: Id, contents: seq<Block>)

  /** `SolutionPublic.model_validate`: every content block meets `SolutionContentPublic`. */
  predicate SolutionPublicValid(s: SolutionPublic) {
    forall k :: 0 <= k < |s.contents| ==> SolutionContentPublicValid(s.contents[k])
  }

  /** `update_solution`. The response is built from the refreshed `contents`
      relationship, which has no `order_by`: `reload` is the order in which the
      store hands the stored blocks back. `SolutionPublic.model_validate` runs
      after the commit, so a response it refuses raises `ValidationError` with
      the new contents stored. */
  function UpdateSolution(db: Db, faults: Faults, sign: string -> string, q: Id, solutionId: Id,
                          payload: seq<Block>, reload: seq<nat>): (o: Outcome<SolutionPublic>)
    requires IsReorder(reload, |payload|)
    ensures o.result.Err? && RefreshQuery !in faults.failing && !o.result.Raises(ValidationError) ==> o.db == db
    ensures o.result.Err? && o.db != db ==>
      (RefreshQuery in faults.failing && o.result == Err(Fail(PersistenceError))) || o.result == Err(Fail(ValidationError))
    ensures EnsureExists(db, faults, q).Err? ==> o.result == Err(EnsureExists(db, faults, q).error)
    ensures EnsureExists(db, faults, q).Ok? && SolutionQuery in faults.failing ==> o.result == Err(Fail(RetrievalError))
    ensures EnsureExists(db, faults, q).Ok? && SolutionQuery !in faults.failing && GetSolution(db, q, solutionId).None? ==>
      o.result == Err(Fail(ResourceNotFound))
    ensures o.result.Ok? ==>
      q in db.questions && solutionId in db.solutions && db.solutions[solutionId].questionId == q &&
      RefreshQuery !in faults.failing &&
      o.db == db.(solutions := db.solutions[solutionId := SolutionRow(q, MapSeq(payload, AsSolutionContent))]) &&
      o.result.value == SolutionPublic(solutionId, SignImageContents(Reorder(MapSeq(payload, AsSolutionContent), reload), sign)) &&
      SolutionPublicValid(o.result.value)
    ensures o.result.Err? ==>
      o.result.error.kind in {RetrievalError, ResourceNotFound, ForeignKeyViolation, PersistenceError, ValidationError}
  {
    var guard := EnsureExists(db, faults, q);
    if guard.Err? then Outcome(db, Err(guard.error))
    else if SolutionQuery in faults.failing then Outcome(db, Err(Fail(RetrievalError)))
    else
      var found := GetSolution(db, q, solutionId);
      if found.None? then Outcome(db, Err(Fail(ResourceNotFound)))
      else
        var contents := MapSeq(payload, AsSolutionContent);
        var w := UpdateSolutionDb(db, solutionId, contents, faults.write);
        if w.Raised? then Outcome(db, Err(Fail(WriteErrorKind(w.failure, ForeignKeyPolicy))))
        else if RefreshQuery in faults.failing then Outcome(w.db, Err(Fail(PersistenceError)))
        else
          var response := SolutionPublic(solutionId, SignImageContents(Reorder(w.value.contents, reload), sign));
          if SolutionPublicValid(response) then Outcome(w.db, Ok(response))
          else Outcome(w.db, Err(Fail(ValidationError)))
  }

  /** The stored contents are the payload items in payload order. The response
      holds the same blocks, in the order the store reloads them, with the values
      of image blocks signed: a rearrangement of the signed stored list. */
  lemma StoredContentsArePayload(db: Db, faults: Faults, sign: string -> string, q: Id, solutionId: Id,
                                 payload: seq<Block>, reload: seq<nat>)
    requires IsReorder(reload, |payload|)
    requires UpdateSolution(db, faults, sign, q, solutionId, payload, reload).result.Ok?
    ensures var o := UpdateSolution(db, faults, sign, q, solutionId, payload, reload);
      var stored := o.db.solutions[solutionId].contents;
      |stored| == |payload| &&
      (forall k :: 0 <= k < |payload| ==>
        stored[k].tag == payload[k].tag && stored[k].value == payload[k].value && stored[k].order == payload[k].order) &&
      (forall k :: 0 <= k < |payload| && !IsImage(payload[reload[k]].tag) ==> o.result.value.contents[k] == stored[reload[k]]) &&
      (forall k :: 0 <= k < |payload| && IsImage(payload[reload[k]].tag) ==>
        o.result.value.contents[k].value == sign(payload[reload[k]].value)) &&
      multiset(o.result.value.contents) == multiset(SignImageContents(stored, sign))
  {
    var o := UpdateSolution(db, faults, sign, q, solutionId, payload, reload);
    var stored := o.db.solutions[solutionId].contents;
    var signed := SignImageContents(stored, sign);
    assert o.result.value.contents == Reorder(signed, reload) by {
      var r := o.result.value.contents;
      forall k | 0 <= k < |reload| ensures r[k] == signed[reload[k]] {
        var b := stored[reload[k]];
        if IsImage(b.tag) {
          assert r[k] == b.(value := sign(b.value)) && signed[reload[k]] == b.(value := sign(b.value));
        }
      }
    }
    ReorderPermutes(signed, reload);
  }

  /** A missing question is reported by the guard whatever the solution table or
      the later reads would have said. */
  lemma GuardRunsFirst(db: Db, faults: Faults, sign: string -> string, q: Id, solutionId: Id,
                       payload: seq<Block>, reload: seq<nat>)
    requires IsReorder(reload, |payload|)
    requires QuestionQuery !in faults.failing && q !in db.questions
    ensures UpdateSolution(db, faults, sign, q, solutionId, payload, reload) == Outcome(db, Err(Fail(ResourceNotFound)))
  {
  }

  /** Under the store's constraints, a foreign-key failure of the update can only
      come from the write itself reporting 23503. */
  lemma ForeignKeyOnlyFromStore(db: Db, faults: Faults, sign: string -> string, q: Id, solutionId: Id,
                                payload: seq<Block>, reload: seq<nat>)
    requires IsReorder(reload, |payload|)
    requires Consistent(db)
    ensures UpdateSolution(db, faults, sign, q, solutionId, payload, reload).result.Raises(ForeignKeyViolation) ==>
      faults.write == Some(IntegrityFailure(Some(ForeignKeyViolationCode)))
  {
  }

  /** Once the guard and the lookup pass, the write decides the outcome: 23503
      raises `ForeignKeyViolation`, every other store failure `PersistenceError`,
      and so does a failed refresh after the commit. After a committed and
      refreshed write, the response schema decides: the update succeeds iff it
      accepts the reloaded, signed contents, and otherwise raises
      `ValidationError` with the new contents stored. */
  lemma WriteFailureMapping(db: Db, faults: Faults, sign: string -> string, q: Id, solutionId: Id,
                            payload: seq<Block>, reload: seq<nat>)
    requires IsReorder(reload, |payload|)
    requires Consistent(db)
    requires EnsureExists(db, faults, q).Ok? && SolutionQuery !in faults.failing
    requires GetSolution(db, q, solutionId).Some?
    ensures var o := UpdateSolution(db, faults, sign, q, solutionId, payload, reload);
      var r := o.result;
      var stored := MapSeq(payload, AsSolutionContent);
      var valid := SolutionPublicValid(SolutionPublic(solutionId, SignImageContents(Reorder(stored, reload), sign)));
      (r.Ok? <==> faults.write.None? && RefreshQuery !in faults.failing && valid) &&
      (r.Raises(ValidationError) <==> faults.write.None? && RefreshQuery !in faults.failing && !valid) &&
      (r.Raises(ValidationError) ==> o.db == db.(solutions := db.solutions[solutionId := SolutionRow(q, stored)])) &&
      (r.Raises(ForeignKeyViolation) <==> faults.write == Some(IntegrityFailure(Some(ForeignKeyViolationCode)))) &&
      (r.Raises(PersistenceError) <==>
        (faults.write.Some? && faults.write != Some(IntegrityFailure(Some(ForeignKeyViolationCode)))) ||
        (faults.write.None? && RefreshQuery in faults.failing))
  {
    var w := UpdateSolutionDb(db, solutionId, MapSeq(payload, AsSolutionContent), faults.write);
    if w.Raised? {
      assert Some(w.failure) == faults.write;
    }
  }

  /** A failed refresh after the commit raises `PersistenceError`, yet the store
      keeps exactly the change a refresh that worked would have reported. */
  lemma RefreshFailureKeepsCommit(db: Db, faults: Faults, sign: string -> string, q: Id, solutionId: Id,
                                  payload: seq<Block>, reload: seq<nat>)
    requires IsReorder(reload, |payload|)
    requires RefreshQuery in faults.failing
    requires UpdateSolution(db, faults.(failing := faults.failing - {RefreshQuery}), sign, q, solutionId, payload, reload).result.Ok?
    ensures UpdateSolution(db, faults, sign, q, solutionId, payload, reload) ==
      Outcome(UpdateSolution(db, faults.(failing := faults.failing - {RefreshQuery}), sign, q, solutionId, payload, reload).db,
              Err(Fail(PersistenceError)))
  {
    var f := faults.(failing := faults.failing - {RefreshQuery});
    assert forall x :: x != RefreshQuery ==> (x in f.failing <==> x in faults.failing);
    assert EnsureExists(db, f, q) == EnsureExists(db, faults, q);
  }
}

=== FILE: sorting.dfy ===
/** Python's `sorted(xs, key=...)` on integer keys: a stable sort, modelled as an
    insertion sort that places each element after every earlier element whose key
    is not greater. */
module Sorting {
  import opened Common

  predicate SortedBy<T>(s: seq<T>, key: T -> int) {
    forall i, j :: 0 <= i < j < |s| ==> key(s[i]) <= key(s[j])
  }

  /** The elements of `s` whose key is `k`, in their order in `s`. */
  function WithKey<T>(s: seq<T>, key: T -> int, k: int): (r: seq<T>)
    ensures |r| <= |s|
  {
    if |s| == 0 then []
    else WithKey(s[..|s| - 1], key, k) + (if key(s[|s| - 1]) == k then [s[|s| - 1]] else [])
  }

  /** Inserts `x` into the sorted `s` after every element whose key is at most `key(x)`. */
  function InsertByKey<T>(s: seq<T>, x: T, key: T -> int): (r: seq<T>)
    requires SortedBy(s, key)
    ensures SortedBy(r, key)
    ensures multiset(r) == multiset(s) + multiset{x}
    decreases |s|
  {
    if |s| == 0 || key(s[|s| - 1]) <= key(x) then
      s + [x]
    else
      var init := s[..|s| - 1];
      var last := s[|s| - 1];
      assert s == init + [last];
      var mid := InsertByKey(init, x, key);
      BelowLast(init, last, x, mid, key);
      SnocSorted(mid, last, key);
      mid + [last]
  }

  /** Every element of `init` with `x` added stays at or below `last`. */
  lemma BelowLast<T>(init: seq<T>, last: T, x: T, mid: seq<T>, key: T -> int)
    requires SortedBy(init + [last], key) && key(x) < key(last)
    requires multiset(mid) == multiset(init) + multiset{x}
    ensures forall i :: 0 <= i < |mid| ==> key(mid[i]) <= key(last)
  {
    var s := init + [last];
    forall i | 0 <= i < |mid| ensures key(mid[i]) <= key(last) {
      assert mid[i] in multiset(mid);
      if mid[i] != x {
        var p :| 0 <= p < |init| && init[p] == mid[i];
        assert s[p] == init[p] && s[|s| - 1] == last;
      }
    }
  }

  lemma SnocSorted<T>(mid: seq<T>, last: T, key: T -> int)
    requires SortedBy(mid, key)
    requires forall i :: 0 <= i < |mid| ==> key(mid[i]) <= key(last)
    ensures SortedBy(mid + [last], key)
  {
    var r := mid + [last];
    forall i, j | 0 <= i < j < |r| ensures key(r[i]) <= key(r[j]) {
      assert r[i] == mid[i];
      if j < |mid| {
        assert r[j] == mid[j];
      }
    }
  }

  /** `sorted(s, key=key)`. */
  function SortByKey<T>(s: seq<T>, key: T -> int): (r: seq<T>)
    ensures SortedBy(r, key)
    ensures multiset(r) == multiset(s)
    ensures |r| == |s|
  {
    if |s| == 0 then []
    else
      var init := s[..|s| - 1];
      assert s == init + [s[|s| - 1]];
      var r := InsertByKey(SortByKey(init, key), s[|s| - 1], key);
      assert |r| == |multiset(r)| == |multiset(s)| == |s|;
      r
  }

  /** Where insertion puts the new element: after every element whose key is not
      greater, before every element whose key is greater. */
  lemma {:induction false} InsertShape<T>(s: seq<T>, x: T, key: T -> int) returns (p: nat)
    requires SortedBy(s, key)
    ensures p <= |s|
    ensures InsertByKey(s, x, key) == s[..p] + [x] + s[p..]
    ensures forall i :: p <= i < |s| ==> key(s[i]) > key(x)
    decreases |s|
  {
    if |s| == 0 || key(s[|s| - 1]) <= key(x) {
      p := |s|;
    } else {
      var init, last := s[..|s| - 1], s[|s| - 1];
      p := InsertShape(init, x, key);
      InsertByKeyUnfold(s, x, key);
      assert s == init + [last];
      ShapeStep(init, last, x, p, InsertByKey(init, x, key));
      forall i | p <= i < |s| ensures key(s[i]) > key(x) {
        if i < |s| - 1 {
          assert s[i] == init[i];
        }
      }
    }
  }

  /** The recursive case of `InsertByKey`: an element with a greater key stays last. */
  lemma InsertByKeyUnfold<T>(s: seq<T>, x: T, key: T -> int)
    requires SortedBy(s, key)
    requires |s| > 0 && key(s[|s| - 1]) > key(x)
    ensures InsertByKey(s, x, key) == InsertByKey(s[..|s| - 1], x, key) + [s[|s| - 1]]
  {
  }

  lemma ShapeStep<T>(init: seq<T>, last: T, x: T, p: nat, mid: seq<T>)
    requires p <= |init| && mid == init[..p] + [x] + init[p..]
    ensures mid + [last] == (init + [last])[..p] + [x] + (init + [last])[p..]
  {
    var s := init + [last];
    assert s[..p] == init[..p];
    assert s[p..] == init[p..] + [last];
  }

  lemma WithKeySnoc<T>(s: seq<T>, y: T, key: T -> int, k: int)
    ensures WithKey(s + [y], key, k) == WithKey(s, key, k) + (if key(y) == k then [y] else [])
  {
    assert (s + [y])[..|s|] == s;
  }

  /** Insertion keeps every tie group in arrival order: the new element goes after
      the elements already there that share its key. */
  lemma {:induction false} InsertStable<T>(s: seq<T>, x: T, key: T -> int, k: int)
    requires SortedBy(s, key)
    ensures WithKey(InsertByKey(s, x, key), key, k) == WithKey(s + [x], key, k)
    decreases |s|
  {
    if |s| > 0 && key(s[|s| - 1]) > key(x) {
      var init := s[..|s| - 1];
      var last := s[|s| - 1];
      var mid := InsertByKey(init, x, key);
      var L := if key(last) == k then [last] else [];
      var X := if key(x) == k then [x] else [];
      assert L == [] || X == [];
      InsertByKeyUnfold(s, x, key);
      calc {
        WithKey(InsertByKey(s, x, key), key, k);
        WithKey(mid + [last], key, k);
        { WithKeySnoc(mid, last, key, k); }
        WithKey(mid, key, k) + L;
        { InsertStable(init, x, key, k); }
        WithKey(init + [x], key, k) + L;
        { WithKeySnoc(init, x, key, k); }
        WithKey(init, key, k) + X + L;
        WithKey(init, key, k) + L + X;
        { WithKeySnoc(init, last, key, k); assert s == init + [last]; }
        WithKey(s, key, k) + X;
        { WithKeySnoc(s, x, key, k); }
        WithKey(s + [x], key, k);
      }
    }
  }

  /** `sorted` is stable: each tie group keeps its input order. */
  lemma {:induction false} SortStable<T>(s: seq<T>, key: T -> int, k: int)
    ensures WithKey(SortByKey(s, key), key, k) == WithKey(s, key, k)
  {
    if |s| > 0 {
      var init := s[..|s| - 1];
      assert s == init + [s[|s| - 1]];
      var t := SortByKey(init, key);
      SortStable(init, key, k);
      InsertStable(t, s[|s| - 1], key, k);
      assert (t + [s[|s| - 1]])[..|t|] == t;
    }
  }

  /** No two positions of `s` share a key. */
  predicate KeysDistinct<T>(s: seq<T>, key: T -> int) {
    forall i, j :: 0 <= i < j < |s| ==> key(s[i]) != key(s[j])
  }

  /** The per-key subsequence holds exactly the occurrences of key-`k` elements. */
  lemma {:induction false} WithKeyMultiset<T>(s: seq<T>, key: T -> int, k: int, x: T)
    ensures multiset(WithKey(s, key, k))[x] == if key(x) == k then multiset(s)[x] else 0
  {
    if |s| > 0 {
      var init := s[..|s| - 1];
      assert s == init + [s[|s| - 1]];
      WithKeyMultiset(init, key, k, x);
    }
  }

  /** Permuting the input permutes each per-key subsequence. */
  lemma WithKeyPermutation<T>(p: seq<T>, s: seq<T>, key: T -> int, k: int)
    requires multiset(p) == multiset(s)
    ensures multiset(WithKey(p, key, k)) == multiset(WithKey(s, key, k))
  {
    forall x ensures multiset(WithKey(p, key, k))[x] == multiset(WithKey(s, key, k))[x] {
      WithKeyMultiset(p, key, k, x);
      WithKeyMultiset(s, key, k, x);
    }
    MultisetExt(WithKey(p, key, k), WithKey(s, key, k));
  }

  lemma MultisetExt<T>(a: seq<T>, b: seq<T>)
    requires forall x :: multiset(a)[x] == multiset(b)[x]
    ensures multiset(a) == multiset(b)
  {
  }

  lemma WithKeyMember<T>(s: seq<T>, key: T -> int, k: int, x: T)
    requires x in WithKey(s, key, k)
    ensures x in s && key(x) == k
  {
    WithKeyMultiset(s, key, k, x);
  }

  lemma {:induction false} WithKeyOfDistinct<T>(s: seq<T>, key: T -> int, k: int)
    requires KeysDistinct(s, key)
    ensures |WithKey(s, key, k)| <= 1
  {
    if |s| > 0 {
      var init := s[..|s| - 1];
      var last := s[|s| - 1];
      WithKeyOfDistinct(init, key, k);
      if key(last) == k && |WithKey(init, key, k)| == 1 {
        var x := WithKey(init, key, k)[0];
        WithKeyMember(init, key, k, x);
        assert false;
      }
    }
  }

  /** Two sorted sequences that agree on every per-key subsequence are equal:
      a stable sort has exactly one possible result. */
  lemma {:induction false} SortedUnique<T>(t1: seq<T>, t2: seq<T>, key: T -> int)
    requires SortedBy(t1, key) && SortedBy(t2, key)
    requires forall k :: WithKey(t1, key, k) == WithKey(t2, key, k)
    ensures t1 == t2
    decreases |t1| + |t2|
  {
    if |t1| == 0 && |t2| == 0 {
      return;
    }
    if |t1| > 0 {
      assert WithKey(t1, key, key(t1[|t1| - 1])) == WithKey(t2, key, key(t1[|t1| - 1]));
      SortedUniqueLast(t1, t2, key);
    }
    if |t2| > 0 {
      assert WithKey(t2, key, key(t2[|t2| - 1])) == WithKey(t1, key, key(t2[|t2| - 1]));
      SortedUniqueLast(t2, t1, key);
    }
    var n1, n2 := |t1| - 1, |t2| - 1;
    var m := key(t1[n1]);
    assert WithKey(t1, key, m)[|WithKey(t1, key, m)| - 1] == t1[n1];
    assert WithKey(t2, key, m)[|WithKey(t2, key, m)| - 1] == t2[n2];
    forall k ensures WithKey(t1[..n1], key, k) == WithKey(t2[..n2], key, k) {
      var w1, w2 := WithKey(t1, key, k), WithKey(t2, key, k);
      assert w1 == w2;
      if k == m {
        assert WithKey(t1[..n1], key, k) == w1[..|w1| - 1];
        assert WithKey(t2[..n2], key, k) == w2[..|w2| - 1];
      } else {
        assert WithKey(t1[..n1], key, k) == w1;
        assert WithKey(t2[..n2], key, k) == w2;
      }
    }
    SortedUnique(t1[..n1], t2[..n2], key);
    assert t1 == t1[..n1] + [t1[n1]];
    assert t2 == t2[..n2] + [t2[n2]];
  }

  /** Helper for `SortedUnique`: the sequence that agrees with `t1` on the tie group
      of `t1`'s last key reaches at least that key. */
  lemma SortedUniqueLast<T>(t1: seq<T>, t2: seq<T>, key: T -> int)
    requires SortedBy(t2, key)
    requires |t1| > 0
    requires WithKey(t1, key, key(t1[|t1| - 1])) == WithKey(t2, key, key(t1[|t1| - 1]))
    ensures |t2| > 0 && key(t2[|t2| - 1]) >= key(t1[|t1| - 1])
  {
    var x := t1[|t1| - 1];
    var m := key(x);
    var w := WithKey(t1, key, m);
    assert w == WithKey(t1[..|t1| - 1], key, m) + [x];
    assert x in WithKey(t2, key, m);
    WithKeyMember(t2, key, m, x);
    SortedLastIsMax(t2, key, x);
  }

  lemma SortedLastIsMax<T>(s: seq<T>, key: T -> int, x: T)
    requires SortedBy(s, key)
    requires x in s
    ensures key(x) <= key(s[|s| - 1])
  {
    var i :| 0 <= i < |s| && s[i] == x;
    if i < |s| - 1 {
      assert key(s[i]) <= key(s[|s| - 1]);
    }
  }

  /** Any sorted arrangement that keeps every tie group in input order is `sorted`'s result. */
  lemma SortStableUnique<T>(s: seq<T>, t: seq<T>, key: T -> int)
    requires SortedBy(t, key)
    requires forall k :: WithKey(t, key, k) == WithKey(s, key, k)
    ensures t == SortByKey(s, key)
  {
    forall k ensures WithKey(SortByKey(s, key), key, k) == WithKey(s, key, k) {
      SortStable(s, key, k);
    }
    SortedUnique(t, SortByKey(s, key), key);
  }

  /** Sorting an already sorted list leaves it as it is. */
  lemma SortOfSorted<T>(s: seq<T>, key: T -> int)
    requires SortedBy(s, key)
    ensures SortByKey(s, key) == s
  {
    SortStableUnique(s, s, key);
  }

  /** With pairwise distinct keys the input arrangement does not matter: every
      permutation sorts to the same sequence. */
  lemma SortPermutationInvariant<T>(s: seq<T>, p: seq<T>, key: T -> int)
    requires multiset(p) == multiset(s)
    requires KeysDistinct(s, key)
    ensures SortByKey(p, key) == SortByKey(s, key)
  {
    forall k ensures WithKey(p, key, k) == WithKey(s, key, k) {
      var a, b := WithKey(p, key, k), WithKey(s, key, k);
      WithKeyPermutation(p, s, key, k);
      WithKeyOfDistinct(s, key, k);
      assert |a| == |multiset(a)| == |multiset(b)| == |b|;
      if |a| == 1 {
        assert a[0] in multiset(b);
      }
    }
    forall k ensures WithKey(SortByKey(p, key), key, k) == WithKey(p, key, k) {
      SortStable(p, key, k);
    }
    SortStableUnique(s, SortByKey(p, key), key);
  }

  lemma SortedMap<T, U>(s: seq<T>, key: T -> int, f: T -> U, fkey: U -> int)
    requires SortedBy(s, key)
    requires forall y :: fkey(f(y)) == key(y)
    ensures SortedBy(MapSeq(s, f), fkey)
  {
  }

  /** Mapping the elements, with the key carried along, maps each per-key subsequence. */
  lemma {:induction false} WithKeyMap<T, U>(t: seq<T>, key: T -> int, f: T -> U, fkey: U -> int, k: int)
    requires forall y :: fkey(f(y)) == key(y)
    ensures WithKey(MapSeq(t, f), fkey, k) == MapSeq(WithKey(t, key, k), f)
  {
    if |t| > 0 {
      var init, last := t[..|t| - 1], t[|t| - 1];
      var ft := MapSeq(t, f);
      MapSeqSlice(t, |t| - 1, f);
      assert ft[..|ft| - 1] == MapSeq(init, f);
      WithKeyMap(init, key, f, fkey, k);
      var tail := if key(last) == k then [last] else [];
      MapSeqAppend(WithKey(init, key, k), tail, f);
      assert MapSeq(tail, f) == if fkey(ft[|ft| - 1]) == k then [ft[|ft| - 1]] else [];
    }
  }

  /** Sorting commutes with any element mapping that carries the key along. */
  lemma SortMapCommute<T, U>(s: seq<T>, key: T -> int, f: T -> U, fkey: U -> int)
    requires forall y :: fkey(f(y)) == key(y)
    ensures SortByKey(MapSeq(s, f), fkey) == MapSeq(SortByKey(s, key), f)
  {
    var sorted := SortByKey(s, key);
    SortedMap(sorted, key, f, fkey);
    forall k ensures WithKey(MapSeq(sorted, f), fkey, k) == WithKey(MapSeq(s, f), fkey, k) {
      WithKeyMap(sorted, key, f, fkey, k);
      SortStable(s, key, k);
      WithKeyMap(s, key, f, fkey, k);
    }
    SortStableUnique(MapSeq(s, f), MapSeq(sorted, f), fkey);
  }
}

=== FILE: store.dfy ===
/** The relational store the repositories talk to, as one immutable value: a map
    per table keyed by primary key. A transaction either commits its new state
    or is rolled back, leaving the old state, and re-raises the store's failure.
    Failures that do not follow from the data (a lost connection, a rejected
    statement) are supplied by the caller. */
module Store {
  import opened Common
  import opened Content
  import opened Errors
  import opened QuestionHash

  /** A question column other than its fingerprint, as `setattr` assigns it. */
  datatype FieldValue = IntValue(n: int) | IdsValue(ids: seq<Id>) | NullValue

  datatype Question = Question(hash: Hash, fields: map<string, FieldValue>)

  /** A `question_content` row. */
  datatype ContentRow = ContentRow(questionId: Id, block: Block)

  /** A `choices` row with its content blocks. */
  datatype ChoiceRow = ChoiceRow(questionId: Id, letter: string, isCorrect: bool, contents: seq<Block>)

  /** A `solutions` row with its content blocks. */
  datatype SolutionRow = SolutionRow(questionId: Id, contents: seq<Block>)

  /** A `question_sources` row: question `questionId` cites `sourceId` at `page`. */
  datatype Citation = Citation(questionId: Id, sourceId: Id, page: int)

  datatype Db = Db(
    questions: map<Id, Question>,
    contents: map<Id, ContentRow>,
    choices: map<Id, ChoiceRow>,
    solutions: map<Id, SolutionRow>,
    citations: map<Id, Citation>,
    sources: set<Id>)

  /** The unique constraint on `questions.question_hash`. */
  predicate HashesUnique(db: Db) {
    forall q1, q2 :: q1 in db.questions && q2 in db.questions && q1 != q2 ==>
      db.questions[q1].hash != db.questions[q2].hash
  }

  /** The foreign key `question_sources.source_id -> sources.id`. */
  predicate CitationsResolve(db: Db) {
    forall c :: c in db.citations ==> db.citations[c].sourceId in db.sources
  }

  /** Some content, choice, solution or citation row still refers to question `id`
      through its `question_id` foreign key, which declares no `ondelete`. */
  predicate Referenced(db: Db, id: Id) {
    (exists c :: c in db.contents && db.contents[c].questionId == id) ||
    (exists c :: c in db.choices && db.choices[c].questionId == id) ||
    (exists c :: c in db.solutions && db.solutions[c].questionId == id) ||
    (exists c :: c in db.citations && db.citations[c].questionId == id)
  }

  /** Every child row refers to a stored question. */
  predicate QuestionsResolve(db: Db) {
    (forall c :: c in db.contents ==> db.contents[c].questionId in db.questions) &&
    (forall c :: c in db.choices ==> db.choices[c].questionId in db.questions) &&
    (forall c :: c in db.solutions ==> db.solutions[c].questionId in db.questions) &&
    (forall c :: c in db.citations ==> db.citations[c].questionId in db.questions)
  }

  /** The constraints the store enforces at commit time. */
  predicate Consistent(db: Db) {
    HashesUnique(db) && CitationsResolve(db)
  }

  /** The read statements a service issues; a caller-chosen set of them fails.
      `RefreshQuery` is the `refresh()` a repository issues after its commit,
      inside the same `try`: when it fails, the change has already been committed. */
  datatype Query =
    | QuestionQuery | ContentQuery | ContentListQuery
    | ChoiceQuery | CorrectCountQuery | SiblingValuesQuery
    | SolutionQuery | CitationQuery | SourcesQuery | RefreshQuery

  /** What goes wrong in one service call: the failing reads, and a failure of
      the write that the data does not explain. */
  datatype Faults = Faults(failing: set<Query>, write: Option<StoreFailure>)

  const NoFaults := Faults({}, None)

  /** Result of a repository write: the committed state and the returned value,
      or the re-raised failure after rollback. */
  datatype Write<+T> = Wrote(db: Db, value: T) | Raised(failure: StoreFailure)

  /** What a service call leaves behind: the store state and what it returns or raises. */
  datatype Outcome<+T> = Outcome(db: Db, result: Result<T>)

  /** `commit()`: a new state that breaks the fingerprint's uniqueness fails with
      unique_violation, one that breaks the citation key with foreign_key_violation;
      otherwise the supplied fault, if any, fails it. */
  function Commit<T>(next: Db, value: T, fault: Option<StoreFailure>): (w: Write<T>)
    ensures w.Wrote? <==> Consistent(next) && fault.None?
    ensures w.Wrote? ==> w.db == next && w.value == value
    ensures !HashesUnique(next) ==> w == Raised(IntegrityFailure(Some(UniqueViolationCode)))
    ensures HashesUnique(next) && !CitationsResolve(next) ==>
      w == Raised(IntegrityFailure(Some(ForeignKeyViolationCode)))
  {
    if !HashesUnique(next) then Raised(IntegrityFailure(Some(UniqueViolationCode)))
    else if !CitationsResolve(next) then Raised(IntegrityFailure(Some(ForeignKeyViolationCode)))
    else if fault.Some? then Raised(fault.value)
    else Wrote(next, value)
  }

  /** The state after a write: the committed one, or the old one after rollback. */
  function After<T>(db: Db, w: Write<T>): (r: Db)
    ensures w.Raised? ==> r == db
  {
    if w.Wrote? then w.db else db
  }

  /** Whether a question other than `q` already has fingerprint `h`. */
  predicate HashTaken(db: Db, q: Id, h: Hash) {
    exists p :: p in db.questions && p != q && db.questions[p].hash == h
  }

  /** Replacing one question's fingerprint keeps the store consistent exactly when
      no other question already has the new one. */
  lemma RehashConsistent(db: Db, q: Id, h: Hash)
    requires Consistent(db) && q in db.questions
    ensures var next := db.(questions := db.questions[q := db.questions[q].(hash := h)]);
      Consistent(next) <==> !HashTaken(db, q, h)
  {
    var next := db.(questions := db.questions[q := db.questions[q].(hash := h)]);
    if HashTaken(db, q, h) {
      var p :| p in db.questions && p != q && db.questions[p].hash == h;
      assert next.questions[p].hash == next.questions[q].hash;
    }
  }
}

=== FILE: subject_code.dfy ===
/** The `SubjectCode` string enum of the legacy create path and the course label
    each code maps to; the label names the storage folder a question's images go to. */
module SubjectCodes {
  import opened Common

  datatype SubjectCode =
    | HV | HM | AR | AL | GE | TR | LE | LI | PS
    | EC | HP | HU | GG | EO | FI | FS | QU | BI

  /** The members in declaration order. */
  const AllCodes: seq<SubjectCode> :=
    [HV, HM, AR, AL, GE, TR, LE, LI, PS, EC, HP, HU, GG, EO, FI, FS, QU, BI]

  predicate UpperLetter(c: char) {
    'A' <= c <= 'Z'
  }

  /** The member's value: the two upper-case letters of its name. */
  function Value(s: SubjectCode): (v: string)
    ensures |v| == 2 && UpperLetter(v[0]) && UpperLetter(v[1])
  {
    match s
    case HV => "HV" case HM => "HM" case AR => "AR" case AL => "AL"
    case GE => "GE" case TR => "TR" case LE => "LE" case LI => "LI"
    case PS => "PS" case EC => "EC" case HP => "HP" case HU => "HU"
    case GG => "GG" case EO => "EO" case FI => "FI" case FS => "FS"
    case QU => "QU" case BI => "BI"
  }

  /** A lower-case slug: letters joined by single hyphens, never at either end. */
  predicate IsSlug(l: string) {
    |l| > 0 && l[0] != '-' && l[|l| - 1] != '-' &&
    forall i :: 0 <= i < |l| ==> 'a' <= l[i] <= 'z' || l[i] == '-'
  }

  /** The `label` property: the course folder name of each code. */
  function Label(s: SubjectCode): string {
    match s
    case HV => "habilidad-verbal"
    case HM => "habilidad-matematica"
    case AR => "aritmetica"
    case AL => "algebra"
    case GE => "geometria"
    case TR => "trigonometria"
    case LE => "lenguaje"
    case LI => "literatura"
    case PS => "psicologia"
    case EC => "educacion-civica"
    case HP => "historia-peru"
    case HU => "historia-universal"
    case GG => "geografia"
    case EO => "economia"
    case FI => "filosofia"
    case FS => "fisica"
    case QU => "quimica"
    case BI => "biologia"
  }

  /** Every label is a lower-case hyphenated slug without spaces. */
  lemma LabelIsSlug(s: SubjectCode)
    ensures IsSlug(Label(s))
  {
    FirstSixSlugs();
    MiddleSixSlugs();
    LastSixSlugs();
  }

  lemma FirstSixSlugs()
    ensures IsSlug("habilidad-verbal")
      && IsSlug("habilidad-matematica")
      && IsSlug("aritmetica")
      && IsSlug("algebra")
      && IsSlug("geometria")
      && IsSlug("trigonometria")
  {
  }

  lemma MiddleSixSlugs()
    ensures IsSlug("lenguaje")
      && IsSlug("literatura")
      && IsSlug("psicologia")
      && IsSlug("educacion-civica")
      && IsSlug("historia-peru")
      && IsSlug("historia-universal")
  {
  }

  lemma LastSixSlugs()
    ensures IsSlug("geografia")
      && IsSlug("economia")
      && IsSlug("filosofia")
      && IsSlug("fisica")
      && IsSlug("quimica")
      && IsSlug("biologia")
  {
  }

  /** The member's position in declaration order. */
  function Position(s: SubjectCode): nat {
    match s
    case HV => 0 case HM => 1 case AR => 2 case AL => 3 case GE => 4 case TR => 5
    case LE => 6 case LI => 7 case PS => 8 case EC => 9 case HP => 10 case HU => 11
    case GG => 12 case EO => 13 case FI => 14 case FS => 15 case QU => 16 case BI => 17
  }

  /** The enum has exactly eighteen members, each listed once. */
  lemma EighteenCodes(s: SubjectCode)
    ensures |AllCodes| == 18 && Distinct(AllCodes)
    ensures s in AllCodes
  {
    PositionsListed();
    assert AllCodes[Position(s)] == s;
  }

  lemma PositionsListed()
    ensures |AllCodes| == 18
    ensures forall i :: 0 <= i < |AllCodes| ==> Position(AllCodes[i]) == i
  {
  }

  /** Different members have different values. */
  lemma ValuesDistinct(s: SubjectCode, t: SubjectCode)
    ensures Value(s) == Value(t) ==> s == t
  {
    if Value(s) == Value(t) {
      assert Value(s)[0] == Value(t)[0] && Value(s)[1] == Value(t)[1];
    }
  }

  /** Different members have different labels, so no two courses share a folder. */
  lemma LabelsDistinct(s: SubjectCode, t: SubjectCode)
    ensures Label(s) == Label(t) ==> s == t
  {
    if Label(s) == Label(t) {
      assert |Label(s)| == |Label(t)|;
      assert Label(s)[0] == Label(t)[0] && Label(s)[1] == Label(t)[1];
      assert Label(s)[|Label(s)| - 1] == Label(t)[|Label(t)| - 1];
    }
  }

  /** The first listed member with value `v`. */
  function Lookup(codes: seq<SubjectCode>, v: string): (r: Option<SubjectCode>)
    ensures r.Some? ==> r.value in codes && Value(r.value) == v
    ensures r.None? ==> forall k :: 0 <= k < |codes| ==> Value(codes[k]) != v
  {
    if |codes| == 0 then None
    else if Value(codes[0]) == v then Some(codes[0])
    else Lookup(codes[1..], v)
  }

  /** Enum lookup by value, as pydantic validates the `subject` field. */
  function ParseSubject(v: string): (r: Option<SubjectCode>)
    ensures r.Some? ==> Value(r.value) == v
  {
    Lookup(AllCodes, v)
  }

  /** Every value parses back to its member, and nothing else parses. */
  lemma SubjectRoundTrip(s: SubjectCode, v: string)
    ensures ParseSubject(Value(s)) == Some(s)
    ensures ParseSubject(v).None? <==> forall t: SubjectCode :: Value(t) != v
  {
    EighteenCodes(s);
    var k :| 0 <= k < |AllCodes| && AllCodes[k] == s;
    assert Value(AllCodes[k]) == Value(s);
    var r := ParseSubject(Value(s));
    ValuesDistinct(r.value, s);
    if ParseSubject(v).None? {
      forall t: SubjectCode ensures Value(t) != v {
        EighteenCodes(t);
        var j :| 0 <= j < |AllCodes| && AllCodes[j] == t;
        assert Value(AllCodes[j]) != v;
      }
    }
  }
}

=== FILE: text.dfy ===
/** ASCII model of Python's `str.strip()` and `str.lower()`, the normalisation
    every uniqueness check and fingerprint of the question bank applies. */
module Text {
  import opened Common

  /** The ASCII characters `str.strip()` removes: space, tab through carriage
      return, and the four separator controls 0x1C-0x1F. */
  predicate IsSpace(c: char) {
    c == ' ' || '\t' <= c <= '\r' || '\U{1C}' <= c <= '\U{1F}'
  }

  predicate AllSpace(s: string) {
    forall i :: 0 <= i < |s| ==> IsSpace(s[i])
  }

  /** Number of leading whitespace characters. */
  function LeadingSpaces(s: string): (n: nat)
    ensures n <= |s|
    ensures AllSpace(s[..n])
    ensures n < |s| ==> !IsSpace(s[n])
  {
    if |s| > 0 && IsSpace(s[0]) then
      var t := s[1..];
      var m := LeadingSpaces(t);
      var head, rest := s[..m + 1], t[..m];
      forall i | 0 < i < |head| ensures IsSpace(head[i]) {
        assert head[i] == rest[i - 1];
      }
      1 + m
    else 0
  }

  /** Number of trailing whitespace characters. */
  function TrailingSpaces(s: string): (n: nat)
    ensures n <= |s|
    ensures AllSpace(s[|s| - n..])
    ensures n < |s| ==> !IsSpace(s[|s| - n - 1])
  {
    if |s| > 0 && IsSpace(s[|s| - 1]) then
      var t := s[..|s| - 1];
      var m := TrailingSpaces(t);
      var tail, rest := s[|s| - m - 1..], t[|t| - m..];
      forall i | 0 <= i < m ensures IsSpace(tail[i]) {
        assert tail[i] == rest[i];
      }
      1 + m
    else 0
  }

  /** Drops the leading whitespace: the result is the longest suffix that does not start with a space. */
  function TrimLeft(s: string): (r: string)
    ensures |r| <= |s| && AllSpace(s[..|s| - |r|])
    ensures |r| > 0 ==> !IsSpace(r[0])
  {
    s[LeadingSpaces(s)..]
  }

  /** Drops the trailing whitespace: the result is the longest prefix that does not end with a space. */
  function TrimRight(s: string): (r: string)
    ensures |r| <= |s| && AllSpace(s[|r|..])
    ensures |r| > 0 ==> !IsSpace(r[|r| - 1])
  {
    s[..|s| - TrailingSpaces(s)]
  }

  /** `s.strip()`. */
  function Strip(s: string): string {
    TrimRight(TrimLeft(s))
  }

  function LowerChar(c: char): (d: char)
    ensures IsSpace(d) <==> IsSpace(c)
  {
    if 'A' <= c <= 'Z' then (c as int - 'A' as int + 'a' as int) as char else c
  }

  /** `s.lower()`. */
  function Lower(s: string): (r: string)
    ensures |r| == |s|
    ensures forall i :: 0 <= i < |s| ==> r[i] == LowerChar(s[i])
  {
    if |s| == 0 then "" else [LowerChar(s[0])] + Lower(s[1..])
  }

  /** `s.strip().lower()`: the normal form two values are compared under. */
  function Normalize(s: string): string {
    Lower(Strip(s))
  }

  /** Python's `sep.join(parts)`. */
  function Join(sep: string, parts: seq<string>): string {
    if |parts| == 0 then ""
    else if |parts| == 1 then parts[0]
    else parts[0] + sep + Join(sep, parts[1..])
  }

  /** Python's `"".join(parts)`. */
  function Concat(parts: seq<string>): string {
    if |parts| == 0 then "" else parts[0] + Concat(parts[1..])
  }

  lemma {:induction false} ConcatAppend(parts: seq<string>, last: string)
    ensures Concat(parts + [last]) == Concat(parts) + last
  {
    if |parts| == 0 {
      assert parts + [last] == [last];
    } else {
      assert (parts + [last])[1..] == parts[1..] + [last];
      ConcatAppend(parts[1..], last);
    }
  }

  lemma {:induction false} TrimLeftSkipsSpace(a: string, t: string)
    requires AllSpace(a)
    requires |t| == 0 || !IsSpace(t[0])
    ensures TrimLeft(a + t) == t
  {
    if |a| > 0 {
      assert (a + t)[1..] == a[1..] + t;
      TrimLeftSkipsSpace(a[1..], t);
    } else {
      assert a + t == t;
    }
  }

  lemma {:induction false} TrimRightSkipsSpace(t: string, b: string)
    requires AllSpace(b)
    requires |t| == 0 || !IsSpace(t[|t| - 1])
    ensures TrimRight(t + b) == t
  {
    if |b| > 0 {
      assert (t + b)[..|t + b| - 1] == t + b[..|b| - 1];
      TrimRightSkipsSpace(t, b[..|b| - 1]);
    } else {
      assert t + b == t;
    }
  }

  /** `strip()` returns the middle of any split of its input into whitespace, a
      core that neither starts nor ends with whitespace, and whitespace. */
  lemma StripOfSplit(a: string, core: string, b: string)
    requires AllSpace(a) && AllSpace(b)
    requires |core| == 0 || (!IsSpace(core[0]) && !IsSpace(core[|core| - 1]))
    ensures Strip(a + core + b) == core
  {
    if |core| == 0 {
      assert a + core + b == (a + b) + "";
      TrimLeftSkipsSpace(a + b, "");
      TrimRightSkipsSpace("", "");
    } else {
      assert a + core + b == a + (core + b);
      TrimLeftSkipsSpace(a, core + b);
      TrimRightSkipsSpace(core, b);
    }
  }

  /** Every value splits into leading whitespace, its stripped core and trailing whitespace. */
  lemma StripShape(v: string) returns (a: string, core: string, b: string)
    ensures core == Strip(v) && v == a + core + b
    ensures AllSpace(a) && AllSpace(b)
    ensures |core| == 0 || (!IsSpace(core[0]) && !IsSpace(core[|core| - 1]))
  {
    var l;
    a, l := LeftShape(v);
    core, b := RightShape(l);
    SeqAssoc(a, core, b);
  }

  lemma LeftShape(v: string) returns (a: string, l: string)
    ensures v == a + l && AllSpace(a) && l == TrimLeft(v)
    ensures |l| > 0 ==> !IsSpace(l[0])
  {
    var n := LeadingSpaces(v);
    a, l := v[..n], v[n..];
    SeqSplit(v, n);
  }

  lemma RightShape(l: string) returns (core: string, b: string)
    ensures l == core + b && AllSpace(b) && core == TrimRight(l)
    ensures |core| > 0 ==> core[0] == l[0] && !IsSpace(core[|core| - 1])
  {
    var m := TrailingSpaces(l);
    core, b := l[..|l| - m], l[|l| - m..];
    SeqSplit(l, |l| - m);
  }

  lemma AllSpaceConcat(a: string, b: string)
    requires AllSpace(a) && AllSpace(b)
    ensures AllSpace(a + b)
  {
  }

  /** Leading and trailing whitespace never changes the stripped value. */
  lemma StripIgnoresPadding(pre: string, v: string, post: string)
    requires AllSpace(pre) && AllSpace(post)
    ensures Strip(pre + v + post) == Strip(v)
  {
    var a, core, b := StripShape(v);
    var left, right := pre + a, b + post;
    calc {
      pre + v + post;
      pre + (a + core + b) + post;
      left + core + right;
    }
    AllSpaceConcat(pre, a);
    AllSpaceConcat(b, post);
    StripOfSplit(left, core, right);
  }

  lemma {:induction false} TrimLeftLower(s: string)
    ensures TrimLeft(Lower(s)) == Lower(TrimLeft(s))
  {
    if |s| > 0 && IsSpace(s[0]) {
      assert Lower(s)[1..] == Lower(s[1..]);
      TrimLeftLower(s[1..]);
    }
  }

  lemma {:induction false} TrimRightLower(s: string)
    ensures TrimRight(Lower(s)) == Lower(TrimRight(s))
  {
    if |s| > 0 && IsSpace(s[|s| - 1]) {
      assert Lower(s)[..|s| - 1] == Lower(s[..|s| - 1]);
      TrimRightLower(s[..|s| - 1]);
    }
  }

  /** Stripping and lower-casing commute. */
  lemma StripLowerCommute(s: string)
    ensures Strip(Lower(s)) == Lower(Strip(s))
  {
    TrimLeftLower(s);
    TrimRightLower(TrimLeft(s));
  }

  /** Two values that agree after lower-casing have the same normal form: letter case never matters. */
  lemma NormalizeIgnoresCase(v: string, w: string)
    requires Lower(v) == Lower(w)
    ensures Normalize(v) == Normalize(w)
  {
    StripLowerCommute(v);
    StripLowerCommute(w);
  }

  /** Surrounding whitespace never matters either. */
  lemma NormalizeIgnoresPadding(pre: string, v: string, post: string)
    requires AllSpace(pre) && AllSpace(post)
    ensures Normalize(pre + v + post) == Normalize(v)
  {
    StripIgnoresPadding(pre, v, post);
  }

  lemma LowerIdempotent(s: string)
    ensures Lower(Lower(s)) == Lower(s)
  {
    var l := Lower(s);
    forall i | 0 <= i < |s|
      ensures Lower(l)[i] == l[i]
    {
      var c := s[i];
      if 'A' <= c <= 'Z' {
        assert 'a' <= l[i] <= 'z';
      }
    }
  }

  /** The normal form is a fixed point of normalisation. */
  lemma NormalizeIdempotent(v: string)
    ensures Normalize(Normalize(v)) == Normalize(v)
  {
    var _, s, _ := StripShape(v);
    assert "" + s + "" == s;
    StripOfSplit("", s, "");
    assert Strip(s) == s;
    StripLowerCommute(s);
    assert Strip(Lower(s)) == Lower(s);
    LowerIdempotent(s);
  }

  predicate LowerLetters(s: string) {
    forall i :: 0 <= i < |s| ==> 'a' <= s[i] <= 'z'
  }

  lemma LowerLettersConcat(s: string, t: string)
    requires LowerLetters(s) && LowerLetters(t)
    ensures LowerLetters(s + t)
  {
  }

  /** Neither whitespace nor an upper-case letter anywhere. */
  predicate Folded(s: string) {
    forall i :: 0 <= i < |s| ==> !IsSpace(s[i]) && !('A' <= s[i] <= 'Z')
  }

  lemma FoldedConcat(s: string, t: string)
    requires Folded(s) && Folded(t)
    ensures Folded(s + t)
  {
  }

  lemma LowerOfFolded(s: string)
    requires Folded(s)
    ensures Lower(s) == s
  {
  }

  /** A string without whitespace and upper-case letters is its own normal form. */
  lemma NormalizeOfFolded(s: string)
    requires Folded(s)
    ensures Normalize(s) == s
  {
    assert Strip(s) == s by {
      if |s| > 0 {
        assert !IsSpace(s[0]) && !IsSpace(s[|s| - 1]);
      }
      StripOfSplit("", s, "");
      assert "" + s + "" == s;
    }
    LowerOfFolded(s);
  }

  /** A string of lower-case ASCII letters is its own normal form. */
  lemma NormalizeOfLowerLetters(s: string)
    requires LowerLetters(s)
    ensures Normalize(s) == s
  {
    assert Folded(s) by {
      forall i | 0 <= i < |s| ensures !IsSpace(s[i]) && !('A' <= s[i] <= 'Z') {
        assert 'a' <= s[i] <= 'z';
      }
    }
    NormalizeOfFolded(s);
  }
}
